=== FILE: README.md ===
# Gmail ingestion core of the shared inbox

This project models, in Dafny, the part of the shared-inbox application that
pulls mail from Gmail and serves it back to agents:

- `parseGmailPayload` (`packages/shared/src/gmail.ts`) turns a Gmail MIME part
  tree into a parsed message. It has a header map, with the well-known names
  lower-cased and repeated headers folded into lists. It also has the last
  HTML and plain-text bodies found, an escaped `<pre>` fallback, and the
  attachment descriptors.
- The crypto guard and its JSON composition (`packages/shared/src/crypto.ts`).
  The key must decode to 32 bytes. Encryption draws a 12-byte IV, and
  decryption authenticates.
- The token vault of `apps/web/lib/google.ts`:
  - the secret and OAuth configuration guards;
  - OAuth state sealing;
  - normalising the token columns read back from the database;
  - decrypting, refreshing, storing and revoking tokens.
- The Gmail sync cron route (`apps/web/app/api/cron/gmail-sync/route.ts`).
  For each active inbox it:
  - decrypts the token, refreshing it when due;
  - lists the messages after the checkpoint;
  - upserts a conversation per thread and a message per Gmail id;
  - stores each attachment blob and row;
  - writes the checkpoint.
- The in-memory part of `GET /api/conversations`
  (`apps/web/app/api/conversations/route.ts`): the team scope, the `q`, `tagId`
  and `snoozed` filters, and the projection to summaries.

Modules follow the program's structure:

| module | what it holds |
|---|---|
| `Wrappers` | `Option` and `Result` |
| `Text` | the JavaScript string operations used: truthiness, `toLowerCase`, `includes`, `replace`, `split`, `trim` and `slice` |
| `Foreign` | Node's base64 and UTF-8 codecs, JSON, and AES-256-GCM, as records of functions whose `Valid()` predicates state their round trips |
| `Types` | the shared record types |
| `Tables` | the database rows and the storage bucket, as maps keyed by the column the code looks rows up by |
| `Gmail` and `GmailExamples` | the parser, plus the unit test's fixture and worked examples |
| `Crypto` | the crypto guard and its JSON composition |
| `Google` | the token vault |
| `Sync` | the cron route |
| `Conversations` | the list route |

The model treats the outside world as explicit inputs:

- The database is a `Store` value, and every write is a functional update of it.
- The Gmail and OAuth endpoints are a `Mailbox` of functions. Each answers
  according to the credentials it is called with.
- `crypto.randomUUID()` is a supply `uuid: nat -> string`, indexed by how many
  ids have been drawn.
- `randomBytes` is an IV parameter.
- `Date.now()` is a single `now`, in milliseconds.
- Process environment variables are an `Env` record.

The model follows the code as written, with one exception. The sync route's
message loop, as written, cannot get past its first message (see "## Findings"). The model
keeps that loop as written in `Sync.ProcessMessagesAsWritten`. The rest of the
sync model (`Sync.ProcessMessage`, `Sync.ProcessMessages` and everything built
on them, up to `Sync.CronGet`) uses the loop as evidently intended, with the
loop variable not shadowed. Otherwise:

- The sync route has no per-mailbox isolation. Any thrown error ends the whole
  request and returns a 500. This covers a token that fails to decrypt, a
  failed refresh, and a failed list, get or attachment call. Writes already
  made stay, and later inboxes are not visited.
- The parser keeps the last `text/html` and `text/plain` part it reaches, not
  the first.
- A conversation's `last_customer_msg_at` is the internal date of the last
  message processed in its thread, not the newest one
  (`Sync.LastCustomerFollowsOrder`).

## Model

| member | source | states |
|---|---|---|
| Gmail.HeaderKeyCaseFolding | packages/shared/src/gmail.ts:4-23 | The nine well-known names are keyed by their lower-case form, whatever their case, so spellings differing only in case share a key. Any other name is kept verbatim, so distinct names keep distinct keys. The key of a key is itself. |
| Gmail.FirstNonEmpty | packages/shared/src/gmail.ts:25-34 | The returned index is the first non-empty value, and every value before it is empty. This is the point where a header's entry stops being overwritten and starts accumulating. |
| Gmail.ExpectedSnoc | packages/shared/src/gmail.ts:25-34 | Appending one more header value to the reference accumulation is one step of the merge: a falsy entry is overwritten, a string becomes a two-element list, and a list is extended. |
| Gmail.CollectHeadersSpec | packages/shared/src/gmail.ts:16-36 | A key is in the header map exactly when some named header maps to it. Its value is the reference accumulation of all values for that key, in order, with a missing value read as `''`. |
| Gmail.CollectHeadersKeys | packages/shared/src/gmail.ts:19-23 | Every key of the header map comes from some header of the payload that has a name. |
| Gmail.RepeatedHeaderList | packages/shared/src/gmail.ts:25-34 | When all values are non-empty, one occurrence gives a string, and two or more give the list of all values in order. |
| Gmail.UrlSafeRoundTrip | packages/shared/src/gmail.ts:77-78 | Mapping `-`/`_` to `+`/`/` undoes the URL-safe alphabet for any text without `-` or `_`. |
| Gmail.DecodeBodyRoundTrip | packages/shared/src/gmail.ts:77-80 | `decodeBody` returns the original text for any UTF-8 text that Gmail encodes as URL-safe base64. |
| Gmail.EscapeHtmlNoRawMarkup | packages/shared/src/gmail.ts:82-89 | Escaped text holds no raw `<`, `>`, `"` or `'`, so it cannot open or close a tag or an attribute. |
| Gmail.EscapeHtmlEscapesOnce | packages/shared/src/gmail.ts:82-89 | The five chained global replacements equal one pass that replaces each character by its entity. The `&` replacement runs first, so no entity is escaped twice. |
| Gmail.EscapeHtmlRoundTrip | packages/shared/src/gmail.ts:82-89 | Unescaping the five entities gives back the input, so escaping loses nothing. |
| Gmail.WalkIsVisitAll | packages/shared/src/gmail.ts:42-66 | The recursive walk equals visiting, left to right, the pre-order list of the parts it reaches. An attachment part's children are not reached. |
| Gmail.VisitAllSpec | packages/shared/src/gmail.ts:43-59 | Visiting a list of parts collects the descriptors of its attachment parts, in order. The HTML and text bodies come from the last matching part with data, or stay as they were when no part matches. |
| Gmail.ParseGmailPayload | packages/shared/src/gmail.ts:16-75 | The header map is the merge of the payload's top-level headers. The attachments are exactly the descriptors of the attachment parts reached, in order. The text body is the decoded data of the last `text/plain` part with data, or null. A non-empty text body guarantees a non-empty HTML body. |
| Gmail.ParseBodyHtml | packages/shared/src/gmail.ts:53-72 | The HTML body is the last reached HTML part's decoded data when that is non-empty. With no HTML part, it is the escaped text in a `<pre>` block when the text is non-empty, and null otherwise. When the last HTML part decodes to `''`, it is that `<pre>` block, or `''` when the text is empty or null. |
| Gmail.AttachmentPartAlone | packages/shared/src/gmail.ts:43-51 | An attachment part yields one descriptor and no body. Its sub-parts are not looked at. |
| GmailExamples.FixtureParse | packages/shared/src/gmail.test.ts:3-35 | On the unit test's payload the subject header is `Test`, the text body is `Hello`, the HTML body contains `Hello`, and there is exactly one attachment. |
| GmailExamples.HeaderMergeExample | packages/shared/src/gmail.ts:21-34 | `Cc` and `cc` fold into one list under `cc`, while an unknown `X-Custom` keeps its case. |
| GmailExamples.EmptyHeaderOverwritten | packages/shared/src/gmail.ts:25-33 | An empty first `Subject` is falsy, so the second occurrence replaces it instead of forming a list. |
| GmailExamples.TextOnlyFallbackExample | packages/shared/src/gmail.ts:70-72 | A text-only message gets `<pre>` around its text, with `&`, `<` and `>` turned into entities. |
| Crypto.Encrypt | packages/shared/src/crypto.ts:12-26 | Encryption fails, with the key-length error, exactly when the secret does not decode to 32 bytes. On success the stored IV decodes to the IV drawn, and the payload decrypts to the value. |
| Crypto.Decrypt | packages/shared/src/crypto.ts:28-40 | A key that is not 32 bytes is refused before anything else. With a valid key, an accepted tag gives success with the UTF-8 decoding of the opened plain text, and success means the tag was accepted. Any other failure is an authentication failure. |
| Crypto.EncryptJson | packages/shared/src/crypto.ts:42-44 | Fails exactly when the key is refused. On success the payload decrypts and parses back to the value. |
| Crypto.DecryptJson | packages/shared/src/crypto.ts:46-48 | Succeeds exactly when decryption succeeds and the plain text parses, and returns the parsed value. |
| Crypto.RoundTrip | packages/shared/src/crypto.ts:12-40 | With a valid key, decrypting an encryption gives back the plain text. |
| Crypto.ShortKeyRefused | packages/shared/src/crypto.ts:13-32 | A secret decoding to 3 bytes is refused by both directions. |
| Google.RequireSecret | apps/web/lib/google.ts:16-22 | Succeeds, with the key, exactly when `ENCRYPTION_KEY` is non-empty, and fails with the missing-secret error otherwise. |
| Google.GetOAuthClient | apps/web/lib/google.ts:24-32 | Succeeds exactly when all three Google variables are non-empty, and then carries them. |
| Google.CreateOAuthState | apps/web/lib/google.ts:34-38 | Fails exactly when the secret is missing or refused, and reports a missing secret first. |
| Google.ParseOAuthState | apps/web/lib/google.ts:40-44 | Requires the secret first. Succeeds only when the base64url text holds parseable JSON, and the state returned is that JSON's payload decrypted and parsed under `ENCRYPTION_KEY`. |
| Google.OAuthStateRoundTrip | apps/web/lib/google.ts:34-44 | Parsing a created state gives back the state. |
| Google.NormalizeTokenPart | apps/web/lib/google.ts:51-57 | Null and `''` give null, and other strings pass unchanged. Bytes and number arrays become base64 that decodes back to those bytes, with numbers taken modulo 256. |
| Google.StoredPayload | apps/web/lib/google.ts:65-70 | A payload exists exactly when all three normalised columns are non-empty, and it carries them. |
| Google.DecryptToken | apps/web/lib/google.ts:59-79 | A missing secret fails first. The token is null exactly when a column is falsy. Otherwise the result is the decrypted, parsed token when the payload decrypts and parses, and that decryption's error otherwise. |
| Google.EncryptToken | apps/web/lib/google.ts:46-49 | Fails exactly when the secret is missing or refused. On success it decrypts back to the token. |
| Google.WithTokenReadsBack | apps/web/lib/google.ts:89-97 | The three columns written as bytes read back, through normalisation and decryption, as the token encrypted. |
| Google.UpdateInbox | apps/web/lib/google.ts:90-97 | An update by id changes that one inbox row, changes no other row or table, and creates no row. |
| Google.MergeSemantics | apps/web/lib/google.ts:85-88 | A credential the provider omits keeps the stored value, and one it returns overrides. Merging nothing changes nothing, and merging twice equals merging once. |
| Google.RefreshAccessToken | apps/web/lib/google.ts:81-99 | Missing OAuth variables fail first. With them set, a provider error is returned as is, and a successful provider answer succeeds exactly when the key is set and valid. On success the result is the merged token. Only the three token columns of that inbox change, and they decrypt to the merged token. |
| Google.StoreToken | apps/web/lib/google.ts:101-117 | Fails exactly when the secret is missing or refused. On success only that inbox changes: its account email is the one given, or null, and its columns decrypt to the token. |
| Google.Planned | apps/web/lib/google.ts:122-127 | The tokens to revoke: the access token, if set, and then the refresh token, if set. |
| Google.RevokeToken | apps/web/lib/google.ts:119-128 | Missing OAuth variables fail before any revocation. Success means every planned token was revoked, in order. A failure stops at the first refused token: every token attempted before the last was accepted, and the last was refused. |
| Sync.Clean | apps/web/app/api/cron/gmail-sync/route.ts:13-18 | Every piece kept is non-empty and already trimmed. |
| Sync.SplitAddresses | apps/web/app/api/cron/gmail-sync/route.ts:10-19 | Every address returned is non-empty, comma-free and trimmed, and a missing or empty header gives none. |
| Sync.SplitAddressesJoin | apps/web/app/api/cron/gmail-sync/route.ts:15-18 | Splitting the comma-join of clean addresses gives back exactly those addresses, in order. |
| Sync.SplitAddressesList | apps/web/app/api/cron/gmail-sync/route.ts:12-13 | For a list header, the addresses are those of each entry, concatenated in order. |
| Sync.FromAddress | apps/web/app/api/cron/gmail-sync/route.ts:71 | A missing `from` gives `''`, a single `from` gives its text, and a list of `from` values gives them joined with commas. |
| Sync.ConversationSubject | apps/web/app/api/cron/gmail-sync/route.ts:75-102 | The subject is never empty. A subject header shadows the snippet, even when empty. A list header gives its values joined with commas when the first is non-empty, and `(no subject)` when the join is empty. With no header the snippet is used, and otherwise `(no subject)`. |
| Sync.Preview | apps/web/app/api/cron/gmail-sync/route.ts:77 | The preview is the snippet's prefix of at most 200 characters: the whole snippet when it fits, and its first 200 characters otherwise. |
| Sync.NeedsRefreshMonotone | apps/web/app/api/cron/gmail-sync/route.ts:44 | A refresh that is due stays due as time passes. A token with an access token and no expiry is never refreshed. |
| Sync.NeedsRefreshExamples | apps/web/app/api/cron/gmail-sync/route.ts:44 | An expiry 30 seconds away triggers a refresh, and one two minutes away does not. |
| Sync.Since | apps/web/app/api/cron/gmail-sync/route.ts:52-54 | `after:` is the checkpoint in whole seconds, rounded down, or three days before now. |
| Sync.AttachmentRecordIdInjective | apps/web/app/api/cron/gmail-sync/route.ts:147 | For message ids without `-`, distinct (message, attachment) pairs get distinct record ids. |
| Sync.StoragePathInjective | apps/web/app/api/cron/gmail-sync/route.ts:146 | For inbox and message ids without `/`, distinct triples get distinct storage paths. |
| Sync.TouchConversation | apps/web/app/api/cron/gmail-sync/route.ts:79-106 | The thread's conversation is created when missing, open, unassigned and with a fresh id. Either way its subject, preview and time are updated. No other conversation changes. |
| Sync.MessageRowOf | apps/web/app/api/cron/gmail-sync/route.ts:116-134 | The message row carries the Gmail id, the row id and the conversation id, and its attachment flag holds exactly when the parse found attachments. |
| Sync.UpsertMessage | apps/web/app/api/cron/gmail-sync/route.ts:79-134 | Exactly the thread's conversation and the Gmail id's message row are written. An existing message row keeps its id, and the ids drawn equal the rows created. |
| Sync.StoreAttachments | apps/web/app/api/cron/gmail-sync/route.ts:136-165 | Only attachment rows and blobs change. Rows are added only for fetches that return data. The loop succeeds exactly when every fetch succeeds, and then it has added all of them. |
| Sync.StoreAttachmentsOverlay | apps/web/app/api/cron/gmail-sync/route.ts:137-164 | When every fetch succeeds, the loop overlays a fixed set of rows and blobs, whatever the store held. |
| Sync.Fetched | apps/web/app/api/cron/gmail-sync/route.ts:65-67 | A message is processed only when the get succeeds and it has a thread id and a payload. |
| Sync.ProcessFetched | apps/web/app/api/cron/gmail-sync/route.ts:69-166 | The conversation and message tables are those of the upserts, and the inboxes are untouched. The attachment rows grow by at most the fetched record ids, and by exactly those on success. |
| Sync.ProcessMessage | apps/web/app/api/cron/gmail-sync/route.ts:64-166 | The loop body as intended, with the loop variable not shadowed. A failed get ends the request with nothing written. An unprocessable message is skipped. Otherwise the message completes exactly when its attachment fetches do. |
| Sync.ProcessFetchedIdempotent | apps/web/app/api/cron/gmail-sync/route.ts:79-164 | Processing the same message again on the resulting store changes nothing and draws no id. |
| Sync.UpsertMessageIdempotent | apps/web/app/api/cron/gmail-sync/route.ts:79-134 | A second upsert of the same message leaves conversations and messages as they are. |
| Sync.ProcessMessages | apps/web/app/api/cron/gmail-sync/route.ts:64-167 | The message loop as intended. It never touches inboxes, draws one id per created row, and succeeds exactly when every listed message completes. |
| Sync.ProcessMessagesThreads | apps/web/app/api/cron/gmail-sync/route.ts:79-106 | The conversations added are only the listed messages' threads, and exactly those when the loop completes. |
| Sync.ProcessMessagesMessages | apps/web/app/api/cron/gmail-sync/route.ts:108-134 | The message rows added are only the processed Gmail ids, and exactly those when the loop completes. |
| Sync.ProcessMessagesAttachments | apps/web/app/api/cron/gmail-sync/route.ts:136-165 | The attachment rows added are only the fetched record ids, and exactly those when the loop completes. |
| Sync.SecondPassAddsNothing | apps/web/app/api/cron/gmail-sync/route.ts:64-167 | Of the intended loop: re-running a completed pass over the same ids succeeds, creates no conversation, message or attachment row, and draws no id. |
| Sync.LastCustomerFollowsOrder | apps/web/app/api/cron/gmail-sync/route.ts:99-106 | After a completed intended loop, the last listed message's thread carries that message's internal date, whatever the earlier messages' dates. |
| Sync.ProcessMessageAsWritten | apps/web/app/api/cron/gmail-sync/route.ts:64-114 | The loop body as written reads `messageId` before its `const` declaration runs, so it fails before any call, with nothing written and no id drawn. |
| Sync.ProcessMessagesAsWritten | apps/web/app/api/cron/gmail-sync/route.ts:64-114 | The loop as written succeeds exactly when there are no ids, and never writes or draws an id. |
| Sync.ShadowedMessageId | apps/web/app/api/cron/gmail-sync/route.ts:64-114 | For one listed message with a thread id and a single-part payload without an attachment, the intended loop completes and writes its conversation and message row, while the loop as written fails with the store unchanged. |
| Sync.ProcessMessagesWellKeyed | apps/web/app/api/cron/gmail-sync/route.ts:79-164 | Every row stays under the key its own column holds. |
| Sync.PresentIds | apps/web/app/api/cron/gmail-sync/route.ts:62 | The ids kept are exactly the present, non-empty listed ids. |
| Sync.RequestedIds | apps/web/app/api/cron/gmail-sync/route.ts:52-62 | The listing fails exactly when the list call fails. On success there are at most 200 ids, each one listed and non-empty. |
| Sync.WorkingToken | apps/web/app/api/cron/gmail-sync/route.ts:43-46 | A token that is not due is used as is. With the OAuth variables set, a due refresh succeeds exactly when the provider answers and the key is set and valid. A refreshed token is the merged one, and only the inbox's token columns change. |
| Sync.SyncInbox | apps/web/app/api/cron/gmail-sync/route.ts:38-172 | A token that fails to decrypt ends the request, and an inbox without a token is skipped. No other inbox changes. An inbox holding a token completes exactly when its refresh (if due), the OAuth configuration and the listing succeed and every listed message completes. The checkpoint moves only when the inbox completes, and then it is `now`. |
| Sync.SyncInboxProcessed | apps/web/app/api/cron/gmail-sync/route.ts:43-172 | When an inbox completes, every message listed with the working token completed, and the conversations, message rows and attachment rows of all of them are in the checkpointed store. |
| Sync.SyncInboxes | apps/web/app/api/cron/gmail-sync/route.ts:37-173 | No inbox row is created or deleted, and inboxes outside the snapshot are untouched. |
| Sync.CheckpointWritten | apps/web/app/api/cron/gmail-sync/route.ts:169-172 | After a completed run, every snapshot inbox that holds a token carries the checkpoint `now`. |
| Sync.InactiveUntouched | apps/web/app/api/cron/gmail-sync/route.ts:28-31 | An inactive inbox is never written. |
| Sync.CronGet | apps/web/app/api/cron/gmail-sync/route.ts:21-176 | A missing or wrong secret gives 401, and a query error gives 500, both before any write. Otherwise the response carries the run's store, and is 200 exactly when the run completes and 500 when it fails. A 200 means the secret matched, the query succeeded, and every token-holding inbox was checkpointed. |
| Conversations.Select | apps/web/app/api/conversations/route.ts:52-72 | The filter keeps exactly the rows its predicate accepts, in their original order. |
| Conversations.TagIds | apps/web/app/api/conversations/route.ts:61 | The tag ids of a row are its tags' ids, in order, and there are none when the embedding is null. |
| Conversations.KeepIsVisible | apps/web/app/api/conversations/route.ts:46-72 | A row is shown exactly when it is in the caller's team, and: `q` occurs in its lower-cased subject and preview; the tag is among its tags; and, when `snoozed` is `true`, it has a snooze date. Each condition applies only when its parameter is given. |
| Conversations.SubjectHitFound | apps/web/app/api/conversations/route.ts:54-56 | A query found in the subject, in any case, is found by the search. |
| Conversations.Project | apps/web/app/api/conversations/route.ts:73-88 | A summary copies the row's fields. A null subject becomes `(no subject)`. `snoozedUntil` is the snooze date or null. The tags are the embedded tags, or none. |
| Conversations.Shown | apps/web/app/api/conversations/route.ts:46-72 | The rows shown are exactly the visible rows, in query order. |
| Conversations.ListConversations | apps/web/app/api/conversations/route.ts:21-90 | Every summary comes from a visible row, and every visible row has its summary. There are never more summaries than the at most 200 rows. |
| Conversations.SummariesSound | apps/web/app/api/conversations/route.ts:52-88 | Each summary is the projection of a visible queried row. |
| Conversations.SummariesComplete | apps/web/app/api/conversations/route.ts:52-88 | Each visible queried row appears projected. |
| Conversations.ListConversationsOrdered | apps/web/app/api/conversations/route.ts:26-88 | Rows ordered newest customer message first give summaries in the same order. |
| Text.Includes | apps/web/app/api/conversations/route.ts:56 | `includes` holds exactly when the needle occurs at some position. |
| Text.LowerIdempotent | apps/web/app/api/conversations/route.ts:48-55 | Lower-casing twice equals lower-casing once. |
| Text.JoinSplit | apps/web/app/api/cron/gmail-sync/route.ts:15-16 | Joining the pieces of a split with the same separator restores the string. |
| Text.SplitJoin | apps/web/app/api/cron/gmail-sync/route.ts:15-16 | Splitting a join of separator-free pieces restores the pieces. |
| Text.TrimSlice | apps/web/app/api/cron/gmail-sync/route.ts:17 | `trim` returns a slice of its input with only white space cut at either end, and the result starts and ends with non-white space. |
| Text.TrimIdempotent | apps/web/app/api/cron/gmail-sync/route.ts:17 | Trimming twice equals trimming once. |

## Findings

| source | as written | input that shows it | evidently intended | confidence | as-written member | corrected member |
|---|---|---|---|---|---|---|
| apps/web/app/api/cron/gmail-sync/route.ts:64-114 | The loop body declares `const messageId` at line 114, which shadows the loop variable of line 64 in the whole body. The `messages.get` call at line 65 reads it before the declaration runs, which throws a ReferenceError. | One active inbox with a decryptable token whose message list returns `['m1']`: the first body throws, the route answers 500, and nothing is written or checkpointed. | The get at line 65 uses the loop variable, and line 114 names the row id differently. | not executed | Sync.ProcessMessagesAsWritten | Sync.ProcessMessages |

## Left out

- Network, database and storage I/O are not executed. The Gmail and OAuth
  endpoints are a `Mailbox` of functions, and the database is a `Store` value.
  The `await`s are modelled as sequential updates.
- Concurrency: two cron runs at once, or a run racing a user request, are not
  modelled.
- The bytes of AES-256-GCM, base64, UTF-8 and JSON are not modelled. They are
  abstract function records whose round-trip facts are stated in `Valid()`
  predicates, and the members that rely on them require those predicates.
- Extra credential fields beyond the access token, refresh token and expiry are
  not modelled. Examples are `id_token`, `scope` and `token_type`: they ride
  along in the JSON and do not affect control flow.
- JavaScript object keys are not modelled as prototype properties. A header
  named `__proto__` or `constructor` is treated as a plain key.
- `toLowerCase` is modelled on ASCII letters only. For the nine well-known
  header names this gives the same keys, because no other character
  lower-cases to the letters they use. Search on non-ASCII text may differ.
- Strings are sequences of code points. `slice(0, 200)` counts UTF-16 code
  units in JavaScript, so previews with astral characters may differ in
  length.
- Timestamps are integers of milliseconds. `Number(message.internalDate)` of a
  malformed value (NaN, and `toISOString` throwing RangeError) is not
  modelled. A `last_synced_at` of `''` is not distinguished from null.
- `Date.now()` at line 44 and line 54 and `new Date()` at line 171 of the cron
  route are read as one instant `now`.
- `maybeSingle()` returning several rows, and so throwing, is not modelled.
  Conversations are looked up by thread id only, as the code does. The lookup
  is not scoped to the inbox, so a thread id shared by two inboxes reuses one
  conversation.
- An existing conversation with an empty id is treated like any other existing
  conversation. The source would draw a new id for it, because `''` is falsy.
- Errors returned, not thrown, by Supabase writes are ignored by the source.
  The model therefore treats every write as taking effect.
- The sync route's `.eq('is_active', true)` filter, and the list route's
  ordering, `limit(200)` and `status`, `assigneeId` and `inboxId` filters, run
  in the database. Their results are inputs. `Sync.InactiveUntouched` and
  `Conversations.ListConversationsOrdered` state what the model assumes of
  them.
- The list route's authentication (401), `loadProfile`, the zod validation
  (422) and the query error (500) are not modelled. The model starts from the
  rows the query returned and the caller's team id.
- `item.tag.id` on a `conversation_tag` whose `tag` is null, which throws a
  TypeError in the source, is not modelled. Tags are non-null records.
- The Gmail provider answers by the credentials it is called with. Which
  credentials a refreshed OAuth client actually sends is left to the provider
  function.
- `Sync.CheckpointWritten` covers only inboxes that appear once in the query
  snapshot. With duplicate ids, a later failure of the same id could leave the
  first write in place, which the lemma does not describe.
- `Conversations.ListConversations` states its bound against the rows given.
  The 200 limit is the database's, so it is a precondition of that clause
  rather than something the function enforces.
- Sync.SecondPassAddsNothing: states that a second pass creates no row and
  draws no id, not that it leaves the whole store equal. Within one thread a
  repeated earlier message rewrites the conversation's subject, preview and
  time until the thread's later message restores them, so whole-store
  equality needs a description of the loop's writes as one overlay, which the
  model does not give. Each single message on its own result is idempotent
  (`Sync.ProcessFetchedIdempotent`).
- Sync.ProcessMessagesAsWritten: the loop as written is not carried up to the
  route. `Sync.SyncInbox` and `Sync.CronGet` are stated for the intended loop.

=== FILE: conversations.dfy ===
/** The in-memory part of `GET /api/conversations`: the rows the
    `conversation` select returned (already ordered newest customer message
    first and limited to 200 by the database) are scoped to the caller's
    team, filtered by the `q`, `tagId` and `snoozed` parameters, and
    projected to conversation summaries, keeping their order. */
module Conversations {
  import opened Wrappers
  import opened Text
  import opened Types

  /** The `limit(200)` of the select. */
  const QueryLimit: nat := 200

  const NoSubject: string := "(no subject)"

  datatype Tag = Tag(id: string, name: string, color: string)

  /** The embedded `snooze` row; its `until` may be null. */
  datatype Snooze = Snooze(until: Option<string>)

  /** A row of the select: the conversation's columns, the team id of its
      embedded inbox (absent when the inbox is), its snooze, and the tags of
      its `conversation_tag` rows (absent when the embedding is null).
      Timestamps are milliseconds since the epoch. */
  datatype QueriedRow = QueriedRow(
    id: string,
    inboxId: string,
    subject: Option<string>,
    status: ConversationStatus,
    assigneeId: Option<string>,
    lastCustomerMsgAt: Option<int>,
    lastAgentMsgAt: Option<int>,
    preview: Option<string>,
    inboxTeamId: Option<string>,
    snooze: Option<Snooze>,
    tags: Option<seq<Tag>>)

  /** The search parameters applied in memory. */
  datatype Filter = Filter(q: Option<string>, tagId: Option<string>, snoozed: Option<string>)

  /** A conversation summary of the response. */
  datatype Summary = Summary(
    id: string,
    inboxId: string,
    subject: string,
    status: ConversationStatus,
    assigneeId: Option<string>,
    lastCustomerMessageAt: Option<int>,
    lastAgentMessageAt: Option<int>,
    preview: Option<string>,
    snoozedUntil: Option<string>,
    tags: seq<Tag>)

  // ===========================================================================
  // Order-preserving selection
  // ===========================================================================

  /** `a` is `b` with some elements left out, the rest in order. */
  predicate SubsequenceOf<T(==)>(a: seq<T>, b: seq<T>)
    decreases |b|
  {
    |a| == 0 || (|b| > 0 && if a[0] == b[0] then SubsequenceOf(a[1..], b[1..]) else SubsequenceOf(a, b[1..]))
  }

  /** `Array.prototype.filter`: the elements `keep` accepts, in order. */
  function Select(rows: seq<QueriedRow>, keep: QueriedRow -> bool): (r: seq<QueriedRow>)
    ensures |r| <= |rows|
    ensures forall k :: 0 <= k < |r| ==> keep(r[k]) && r[k] in rows
    ensures forall j :: 0 <= j < |rows| && keep(rows[j]) ==> rows[j] in r
    ensures SubsequenceOf(r, rows)
    decreases |rows|
  {
    if |rows| == 0 then []
    else
      var rest := Select(rows[1..], keep);
      assert forall j :: 1 <= j < |rows| ==> rows[j] == rows[1..][j - 1];
      if keep(rows[0]) then [rows[0]] + rest else rest
  }

  lemma {:induction false} SubsequenceMembers<T>(a: seq<T>, b: seq<T>)
    requires SubsequenceOf(a, b)
    ensures forall x :: x in a ==> x in b
    decreases |b|
  {
    if |a| > 0 {
      if a[0] == b[0] {
        SubsequenceMembers(a[1..], b[1..]);
        assert forall x :: x in a ==> x == a[0] || x in a[1..];
      } else {
        SubsequenceMembers(a, b[1..]);
      }
    }
  }

  /** Every pair of `s`, taken in order, is related by `before`. */
  predicate Ordered<T>(s: seq<T>, before: (T, T) -> bool) {
    forall i, j :: 0 <= i < j < |s| ==> before(s[i], s[j])
  }

  /** Leaving elements out keeps any order the sequence had. */
  lemma {:induction false} SubsequenceOrdered<T>(a: seq<T>, b: seq<T>, before: (T, T) -> bool)
    requires SubsequenceOf(a, b) && Ordered(b, before)
    ensures Ordered(a, before)
    decreases |b|
  {
    if |a| > 0 {
      assert Ordered(b[1..], before) by {
        forall i, j | 0 <= i < j < |b[1..]| ensures before(b[1..][i], b[1..][j]) {
          assert b[1..][i] == b[i + 1] && b[1..][j] == b[j + 1];
        }
      }
      if a[0] == b[0] {
        SubsequenceOrdered(a[1..], b[1..], before);
        SubsequenceMembers(a[1..], b[1..]);
        forall i, j | 0 <= i < j < |a| ensures before(a[i], a[j]) {
          if i == 0 {
            assert a[j] == a[1..][j - 1];
            assert a[j] in a[1..];
            assert a[j] in b[1..];
            var k :| 0 <= k < |b[1..]| && b[1..][k] == a[j];
            assert b[k + 1] == a[j];
          } else {
            assert a[i] == a[1..][i - 1] && a[j] == a[1..][j - 1];
          }
        }
      } else {
        SubsequenceOrdered(a, b[1..], before);
      }
    }
  }

  // ===========================================================================
  // The filters
  // ===========================================================================

  /** `row.inbox?.team_id === profile.teamId`. */
  predicate InTeam(row: QueriedRow, teamId: string) {
    row.inboxTeamId == Some(teamId)
  }

  /** The text the search looks in: subject and preview (null read as '')
      joined by a space, lower-cased. */
  function Haystack(row: QueriedRow): string {
    Lower(row.subject.GetOr("") + " " + row.preview.GetOr(""))
  }

  /** The tag ids of the row's `conversation_tag` rows (none when null). */
  function TagIds(row: QueriedRow): (r: seq<string>)
    ensures |r| == |row.tags.GetOr([])|
    ensures forall k :: 0 <= k < |r| ==> r[k] == row.tags.GetOr([])[k].id
  {
    var tags := row.tags.GetOr([]);
    seq(|tags|, k requires 0 <= k < |tags| => tags[k].id)
  }

  /** The callback of the route's `.filter`, test by test: a truthy
      lower-cased `q` must occur in the haystack, a truthy `tagId` must be
      one of the row's tag ids, and `snoozed` equal to 'true' asks for a
      truthy `snooze.until`. */
  predicate Keep(row: QueriedRow, f: Filter) {
    var q := if f.q.Some? then Some(Lower(f.q.value)) else None;
    if Set(q) && !Includes(Haystack(row), q.value) then false
    else if Set(f.tagId) && f.tagId.value !in TagIds(row) then false
    else if f.snoozed == Some("true") && !(row.snooze.Some? && Set(row.snooze.value.until)) then false
    else true
  }

  /** A truthy optional string (`if (x)` on a `string | undefined`). */
  predicate Set(v: Option<string>) {
    v.Some? && Truthy(v.value)
  }

  /** The rows the response shows, stated on their own: in the caller's
      team, and meeting each filter that is switched on. */
  ghost predicate Visible(row: QueriedRow, teamId: string, f: Filter) {
    && InTeam(row, teamId)
    && (Set(f.q) ==> exists i :: OccursAt(Haystack(row), Lower(f.q.value), i))
    && (Set(f.tagId) ==> exists k :: 0 <= k < |row.tags.GetOr([])| && row.tags.GetOr([])[k].id == f.tagId.value)
    && (f.snoozed == Some("true") ==> row.snooze.Some? && Set(row.snooze.value.until))
  }

  /** The route's filter accepts exactly the visible rows of the team. */
  lemma KeepIsVisible(row: QueriedRow, teamId: string, f: Filter)
    ensures InTeam(row, teamId) && Keep(row, f) <==> Visible(row, teamId, f)
  {
    if Set(f.tagId) {
      var ids := TagIds(row);
      assert f.tagId.value in ids <==> exists k :: 0 <= k < |row.tags.GetOr([])| && row.tags.GetOr([])[k].id == f.tagId.value by {
        if f.tagId.value in ids {
          var k :| 0 <= k < |ids| && ids[k] == f.tagId.value;
          assert row.tags.GetOr([])[k].id == f.tagId.value;
        }
      }
    }
  }

  /** A row whose subject contains the search text, as typed, is found:
      lower-casing both sides keeps the occurrence. */
  lemma SubjectHitFound(row: QueriedRow, q: string, i: nat)
    requires row.subject.Some? && OccursAt(row.subject.value, q, i)
    ensures exists j :: OccursAt(Haystack(row), Lower(q), j)
  {
    var text := row.subject.value + " " + row.preview.GetOr("");
    assert text[i..i + |q|] == row.subject.value[i..i + |q|];
    assert Lower(text)[i..i + |Lower(q)|] == Lower(q) by {
      forall k | 0 <= k < |q| ensures Lower(text)[i..i + |q|][k] == Lower(q)[k] {
        assert text[i + k] == q[k];
      }
    }
    assert OccursAt(Haystack(row), Lower(q), i);
  }

  // ===========================================================================
  // The projection and the pipeline
  // ===========================================================================

  /** The `.map` of the route: a null subject becomes "(no subject)" (an
      empty one stays empty), a missing snooze or `until` gives a null
      `snoozedUntil`, and the tag rows map one to one, in order. */
  function Project(row: QueriedRow): (s: Summary)
    ensures s.id == row.id && s.inboxId == row.inboxId && s.status == row.status
    ensures row.subject.None? ==> s.subject == NoSubject
    ensures row.subject.Some? ==> s.subject == row.subject.value
    ensures s.snoozedUntil.None? <==> row.snooze.None? || row.snooze.value.until.None?
    ensures row.snooze.Some? ==> s.snoozedUntil == row.snooze.value.until
    ensures s.tags == row.tags.GetOr([])
    ensures s.preview == row.preview && s.assigneeId == row.assigneeId
    ensures s.lastCustomerMessageAt == row.lastCustomerMsgAt && s.lastAgentMessageAt == row.lastAgentMsgAt
  {
    Summary(row.id, row.inboxId, row.subject.GetOr(NoSubject), row.status, row.assigneeId,
            row.lastCustomerMsgAt, row.lastAgentMsgAt, row.preview,
            if row.snooze.Some? then row.snooze.value.until else None,
            row.tags.GetOr([]))
  }

  /** The rows the response is built from: the team's, then the filter's. */
  function Shown(rows: seq<QueriedRow>, teamId: string, f: Filter): (r: seq<QueriedRow>)
    ensures |r| <= |rows|
    ensures SubsequenceOf(r, rows)
    ensures forall k :: 0 <= k < |r| ==> Visible(r[k], teamId, f) && r[k] in rows
    ensures forall j :: 0 <= j < |rows| && Visible(rows[j], teamId, f) ==> rows[j] in r
  {
    var team := Select(rows, row => InTeam(row, teamId));
    var kept := Select(team, row => Keep(row, f));
    KeptVisible(team, kept, teamId, f);
    VisibleKept(rows, team, kept, teamId, f);
    SubsequenceTransitive(kept, team, rows);
    kept
  }

  /** Rows of the team that the filter keeps are visible. */
  lemma KeptVisible(team: seq<QueriedRow>, kept: seq<QueriedRow>, teamId: string, f: Filter)
    requires forall k :: 0 <= k < |team| ==> InTeam(team[k], teamId)
    requires forall k :: 0 <= k < |kept| ==> Keep(kept[k], f) && kept[k] in team
    ensures forall k :: 0 <= k < |kept| ==> Visible(kept[k], teamId, f)
  {
    forall k | 0 <= k < |kept| ensures Visible(kept[k], teamId, f) {
      var x := kept[k];
      var j :| 0 <= j < |team| && team[j] == x;
      KeepIsVisible(x, teamId, f);
    }
  }

  /** Visible rows pass both selections. */
  lemma VisibleKept(rows: seq<QueriedRow>, team: seq<QueriedRow>, kept: seq<QueriedRow>, teamId: string, f: Filter)
    requires forall j :: 0 <= j < |rows| && InTeam(rows[j], teamId) ==> rows[j] in team
    requires forall j :: 0 <= j < |team| && Keep(team[j], f) ==> team[j] in kept
    ensures forall j :: 0 <= j < |rows| && Visible(rows[j], teamId, f) ==> rows[j] in kept
  {
    forall j | 0 <= j < |rows| && Visible(rows[j], teamId, f) ensures rows[j] in kept {
      KeepIsVisible(rows[j], teamId, f);
      var i :| 0 <= i < |team| && team[i] == rows[j];
    }
  }

  lemma {:induction false} SubsequenceTransitive<T>(a: seq<T>, b: seq<T>, c: seq<T>)
    requires SubsequenceOf(a, b) && SubsequenceOf(b, c)
    ensures SubsequenceOf(a, c)
    decreases |c|
  {
    if |a| > 0 {
      assert |b| > 0 && |c| > 0;
      if b[0] == c[0] {
        if a[0] == b[0] {
          SubsequenceTransitive(a[1..], b[1..], c[1..]);
        } else {
          SubsequenceTransitive(a, b[1..], c[1..]);
        }
      } else {
        SubsequenceTransitive(a, b, c[1..]);
        if a[0] == c[0] {
          SubsequenceDropHead(a, c);
        }
      }
    }
  }

  /** A subsequence that starts with `c`'s first element also embeds after
      that element is matched. */
  lemma SubsequenceDropHead<T>(a: seq<T>, c: seq<T>)
    requires |a| > 0 && |c| > 0 && a[0] == c[0] && SubsequenceOf(a, c[1..])
    ensures SubsequenceOf(a[1..], c[1..])
  {
    SubsequenceWeaken(a, c[1..]);
  }

  /** Dropping the first element of a subsequence keeps it one. */
  lemma {:induction false} SubsequenceWeaken<T>(a: seq<T>, b: seq<T>)
    requires |a| > 0 && SubsequenceOf(a, b)
    ensures SubsequenceOf(a[1..], b)
    decreases |b|, 1
  {
    if a[0] == b[0] {
      SubsequenceSkip(a[1..], b);
    } else {
      SubsequenceWeaken(a, b[1..]);
      SubsequenceSkip(a[1..], b);
    }
  }

  /** A subsequence of the tail is a subsequence of the whole. */
  lemma {:induction false} SubsequenceSkip<T>(a: seq<T>, b: seq<T>)
    requires |b| > 0 && SubsequenceOf(a, b[1..])
    ensures SubsequenceOf(a, b)
    decreases |b|, 0
  {
    if |a| > 0 && a[0] == b[0] {
      SubsequenceWeaken(a, b[1..]);
    }
  }

  /** The summaries of some rows, one each, in order. */
  function Summaries(shown: seq<QueriedRow>): (r: seq<Summary>)
    ensures |r| == |shown|
    ensures forall k :: 0 <= k < |r| ==> r[k] == Project(shown[k])
  {
    seq(|shown|, k requires 0 <= k < |shown| => Project(shown[k]))
  }

  /** `GET /api/conversations` after its query: the summaries of the shown
      rows, in the query's order. */
  function ListConversations(rows: seq<QueriedRow>, teamId: string, f: Filter): (r: seq<Summary>)
    ensures |r| <= |rows|
    ensures |rows| <= QueryLimit ==> |r| <= QueryLimit
    ensures forall k :: 0 <= k < |r| ==> exists j :: 0 <= j < |rows| && Visible(rows[j], teamId, f) && r[k] == Project(rows[j])
    ensures forall j :: 0 <= j < |rows| && Visible(rows[j], teamId, f) ==> Project(rows[j]) in r
  {
    var shown := Shown(rows, teamId, f);
    var r := Summaries(shown);
    SummariesSound(rows, teamId, f);
    SummariesComplete(rows, teamId, f);
    r
  }

  lemma SummariesSound(rows: seq<QueriedRow>, teamId: string, f: Filter)
    ensures var r := Summaries(Shown(rows, teamId, f));
            forall k :: 0 <= k < |r| ==> exists j :: 0 <= j < |rows| && Visible(rows[j], teamId, f) && r[k] == Project(rows[j])
  {
    var shown := Shown(rows, teamId, f);
    var r := Summaries(shown);
    forall k | 0 <= k < |r| ensures exists j :: 0 <= j < |rows| && Visible(rows[j], teamId, f) && r[k] == Project(rows[j]) {
      assert shown[k] in rows;
      var j :| 0 <= j < |rows| && rows[j] == shown[k];
      assert Visible(rows[j], teamId, f) && r[k] == Project(rows[j]);
    }
  }

  lemma SummariesComplete(rows: seq<QueriedRow>, teamId: string, f: Filter)
    ensures var r := Summaries(Shown(rows, teamId, f));
            forall j :: 0 <= j < |rows| && Visible(rows[j], teamId, f) ==> Project(rows[j]) in r
  {
    var shown := Shown(rows, teamId, f);
    var r := Summaries(shown);
    forall j | 0 <= j < |rows| && Visible(rows[j], teamId, f) ensures Project(rows[j]) in r {
      assert rows[j] in shown;
      var k :| 0 <= k < |shown| && shown[k] == rows[j];
      assert r[k] == Project(rows[j]);
    }
  }

  /** The order of the select: newest customer message first, rows without
      one (null sorts first in descending order) ahead of all others. */
  predicate NewestFirst(x: QueriedRow, y: QueriedRow) {
    x.lastCustomerMsgAt.None? || (y.lastCustomerMsgAt.Some? && x.lastCustomerMsgAt.value >= y.lastCustomerMsgAt.value)
  }

  /** The response keeps the query's order: the summaries are those of an
      order-preserving subsequence of the rows, so rows ordered newest first
      give summaries ordered newest first. */
  lemma ListConversationsOrdered(rows: seq<QueriedRow>, teamId: string, f: Filter)
    requires Ordered(rows, NewestFirst)
    ensures var r := ListConversations(rows, teamId, f);
            forall i, j :: 0 <= i < j < |r| && r[i].lastCustomerMessageAt.Some? ==>
              r[j].lastCustomerMessageAt.Some? && r[i].lastCustomerMessageAt.value >= r[j].lastCustomerMessageAt.value
  {
    var shown := Shown(rows, teamId, f);
    SubsequenceOrdered(shown, rows, NewestFirst);
    SummariesOrdered(shown);
  }

  /** Summaries of rows ordered newest first are ordered newest first. */
  lemma SummariesOrdered(shown: seq<QueriedRow>)
    requires Ordered(shown, NewestFirst)
    ensures var r := Summaries(shown);
            forall i, j :: 0 <= i < j < |r| && r[i].lastCustomerMessageAt.Some? ==>
              r[j].lastCustomerMessageAt.Some? && r[i].lastCustomerMessageAt.value >= r[j].lastCustomerMessageAt.value
  {
    var r := Summaries(shown);
    forall i, j | 0 <= i < j < |r| && r[i].lastCustomerMessageAt.Some?
      ensures r[j].lastCustomerMessageAt.Some? && r[i].lastCustomerMessageAt.value >= r[j].lastCustomerMessageAt.value
    {
      assert NewestFirst(shown[i], shown[j]);
    }
  }
}

=== FILE: crypto.dfy ===
/** The symmetric cipher of packages/shared/src/crypto.ts: AES-256-GCM under a
    base64-encoded 32-byte secret, a fresh 12-byte IV per call, and the JSON
    convenience wrappers. The cipher itself is the abstract `Foreign.Aead`;
    what is modelled here is the key guard, the IV, the base64 packaging of
    the three output parts and the composition with JSON. */
module Crypto {
  import opened Wrappers
  import opened Foreign

  /** `IV_LENGTH`: GCM's 96-bit initialisation vector. */
  const IvLength: nat := 12

  /** AES-256 takes a 32-byte key. */
  const KeyLength: nat := 32

  /** `EncryptedPayload`: the three parts, each base64 text. */
  datatype EncryptedPayload = EncryptedPayload(iv: string, cipherText: string, authTag: string)

  datatype CryptoError =
    | InvalidKeyLength      // 'ENCRYPTION_KEY must be 32 bytes base64 encoded'
    | AuthenticationFailed  // the GCM tag did not verify
    | MalformedJson         // JSON.parse threw

  /** `Buffer.from(secret, 'base64')`. */
  function KeyOf(secret: string, prims: Primitives): Bytes {
    prims.base64.decode(secret)
  }

  predicate ValidSecret(secret: string, prims: Primitives) {
    |KeyOf(secret, prims)| == KeyLength
  }

  /** `encrypt(value, secret)`. `iv` is the output of `randomBytes(IV_LENGTH)`,
      drawn by the caller. The key guard runs before any cipher operation;
      with a valid key the result decrypts back to `value`. */
  function Encrypt(value: string, secret: string, iv: Bytes, prims: Primitives): (r: Result<EncryptedPayload, CryptoError>)
    requires |iv| == IvLength
    ensures r.Failure? <==> !ValidSecret(secret, prims)
    ensures r.Failure? ==> r.error == InvalidKeyLength
    ensures prims.Valid() && r.Success? ==> prims.base64.decode(r.value.iv) == iv
    ensures prims.Valid() && r.Success? ==> Decrypt(r.value, secret, prims) == Success(value)
  {
    var key := KeyOf(secret, prims);
    if |key| != KeyLength then
      Failure(InvalidKeyLength)
    else
      var sealed := prims.aead.seal(key, iv, prims.utf8.encode(value));
      Success(EncryptedPayload(
        prims.base64.encode(iv),
        prims.base64.encode(sealed.cipherText),
        prims.base64.encode(sealed.authTag)))
  }

  /** `decrypt(payload, secret)`. The same key guard runs before the payload
      is looked at; a tag that does not verify is an `AuthenticationFailed`,
      never a corrupted plain text. */
  function Decrypt(payload: EncryptedPayload, secret: string, prims: Primitives): (r: Result<string, CryptoError>)
    ensures !ValidSecret(secret, prims) ==> r == Failure(InvalidKeyLength)
    ensures r.Success? ==>
              prims.aead.unseal(KeyOf(secret, prims), prims.base64.decode(payload.iv),
                                prims.base64.decode(payload.cipherText), prims.base64.decode(payload.authTag)).Some?
    ensures ValidSecret(secret, prims) && r.Failure? ==> r.error == AuthenticationFailed
    ensures ValidSecret(secret, prims) ==>
              var unsealed := prims.aead.unseal(KeyOf(secret, prims), prims.base64.decode(payload.iv),
                                                prims.base64.decode(payload.cipherText), prims.base64.decode(payload.authTag));
              unsealed.Some? ==> r == Success(prims.utf8.decode(unsealed.value))
  {
    var key := KeyOf(secret, prims);
    if |key| != KeyLength then
      Failure(InvalidKeyLength)
    else
      var unsealed := prims.aead.unseal(key, prims.base64.decode(payload.iv),
                                      prims.base64.decode(payload.cipherText), prims.base64.decode(payload.authTag));
      match unsealed
      case None => Failure(AuthenticationFailed)
      case Some(plain) => Success(prims.utf8.decode(plain))
  }

  /** `encryptJSON`: `encrypt` after `JSON.stringify`; with valid codecs the
      result decrypts, through `DecryptJson`, back to the same value. */
  function EncryptJson<T(!new)>(value: T, secret: string, iv: Bytes, prims: Primitives, json: JsonCodec<T>): (r: Result<EncryptedPayload, CryptoError>)
    requires |iv| == IvLength
    ensures r.Failure? <==> !ValidSecret(secret, prims)
    ensures prims.Valid() && json.Valid() && r.Success? ==> DecryptJson(r.value, secret, prims, json) == Success(value)
  {
    Encrypt(json.stringify(value), secret, iv, prims)
  }

  /** `decryptJSON`: `JSON.parse` after `decrypt`. */
  function DecryptJson<T(!new)>(payload: EncryptedPayload, secret: string, prims: Primitives, json: JsonCodec<T>): (r: Result<T, CryptoError>)
    ensures !ValidSecret(secret, prims) ==> r == Failure(InvalidKeyLength)
    ensures r.Success? <==> Decrypt(payload, secret, prims).Success? && json.parse(Decrypt(payload, secret, prims).value).Some?
    ensures r.Success? ==> json.parse(Decrypt(payload, secret, prims).value) == Some(r.value)
  {
    var plain :- Decrypt(payload, secret, prims);
    match json.parse(plain)
    case None => Failure(MalformedJson)
    case Some(x) => Success(x)
  }

  /** `decrypt(encrypt(v, k), k) == v` for every valid key and every IV. */
  lemma RoundTrip(value: string, secret: string, iv: Bytes, prims: Primitives)
    requires prims.Valid() && |iv| == IvLength && ValidSecret(secret, prims)
    ensures Encrypt(value, secret, iv, prims).Success?
    ensures Decrypt(Encrypt(value, secret, iv, prims).value, secret, prims) == Success(value)
  {
  }

  /** The unit test's key `'short'` decodes to fewer than 32 bytes, so both
      directions refuse it whatever the payload. */
  lemma ShortKeyRefused(value: string, payload: EncryptedPayload, iv: Bytes, prims: Primitives)
    requires |iv| == IvLength
    requires |prims.base64.decode("short")| == 3
    ensures Encrypt(value, "short", iv, prims) == Failure(InvalidKeyLength)
    ensures Decrypt(payload, "short", prims) == Failure(InvalidKeyLength)
  {
  }
}

=== FILE: foreign.dfy ===
/** The foreign code the core calls but does not implement: Node's `Buffer`
    base64 codecs, UTF-8 conversion, `JSON.stringify`/`JSON.parse` and the
    AES-256-GCM cipher. Each is a record of function values; its `Valid()`
    predicate states the round-trip facts the rest of the model relies on,
    and every member that relies on them asks for `Valid()` in its `requires`. */
module Foreign {
  import opened Wrappers

  newtype Byte = b: int | 0 <= b < 256

  type Bytes = seq<Byte>

  /** `Buffer.from(s, 'base64')` / `buf.toString('base64')` (or the
      `base64url` variant). Node's decoder never throws: it skips characters
      outside the alphabet, so `decode` is total. */
  datatype Base64Codec = Base64Codec(encode: Bytes -> string, decode: string -> Bytes) {
    ghost predicate Valid() {
      && (forall b :: decode(encode(b)) == b)
      && (forall b :: |encode(b)| == 0 <==> |b| == 0)
    }

    /** The standard alphabet (`+`, `/`) has neither `-` nor `_`. */
    ghost predicate StandardAlphabet() {
      forall b :: '-' !in encode(b) && '_' !in encode(b)
    }
  }

  /** `Buffer.from(s, 'utf8')` / `buf.toString('utf8')`; decoding replaces
      malformed sequences instead of throwing, so it is total. */
  datatype Utf8Codec = Utf8Codec(encode: string -> Bytes, decode: Bytes -> string) {
    ghost predicate Valid() {
      && (forall s :: decode(encode(s)) == s)
      && (forall s :: |encode(s)| == 0 <==> |s| == 0)
    }
  }

  /** `JSON.stringify` / `JSON.parse` at one type; `parse` is `None` where
      the JavaScript call throws a `SyntaxError`. Every object serialises to
      at least `{}`, so a serialisation is never empty. */
  datatype JsonCodec<!T(!new)> = JsonCodec(stringify: T -> string, parse: string -> Option<T>) {
    ghost predicate Valid() {
      && (forall x :: parse(stringify(x)) == Some(x))
      && (forall x :: |stringify(x)| > 0)
    }
  }

  /** What AES-256-GCM produces for one message. */
  datatype Sealed = Sealed(cipherText: Bytes, authTag: Bytes)

  /** AES-256-GCM as an abstract authenticated cipher: `seal(key, iv, plain)`
      encrypts and tags, `unseal(key, iv, cipherText, authTag)` is `None`
      when the tag does not verify (`decipher.final()` throws). GCM is a
      stream mode, so the cipher text is as long as the plain text, and
      `getAuthTag()` returns the default 16-byte tag. */
  datatype Aead = Aead(seal: (Bytes, Bytes, Bytes) -> Sealed, unseal: (Bytes, Bytes, Bytes, Bytes) -> Option<Bytes>) {
    ghost predicate Valid() {
      forall key, iv, plain ::
        |key| == 32 && |iv| == 12 ==>
          && unseal(key, iv, seal(key, iv, plain).cipherText, seal(key, iv, plain).authTag) == Some(plain)
          && |seal(key, iv, plain).cipherText| == |plain|
          && |seal(key, iv, plain).authTag| == 16
    }
  }

  /** The byte-level primitives the core runs on, bundled. */
  datatype Primitives = Primitives(base64: Base64Codec, base64url: Base64Codec, utf8: Utf8Codec, aead: Aead) {
    ghost predicate Valid() {
      base64.Valid() && base64.StandardAlphabet() && base64url.Valid() && utf8.Valid() && aead.Valid()
    }
  }
}

=== FILE: gmail.dfy ===
/** The MIME payload normaliser of packages/shared/src/gmail.ts
    (`parseGmailPayload`): a header map with case folding for a fixed set of
    names and scalar-to-list accumulation, the last HTML and plain-text
    bodies met in a depth-first walk, the attachment descriptors in walk
    order, and the `<pre>` fallback that escapes the text body. */
module Gmail {
  import opened Wrappers
  import opened Text
  import opened Foreign
  import opened Types

  // ===========================================================================
  // Headers
  // ===========================================================================

  /** `HEADER_NAMES_TO_NORMALISE`. */
  const NormalisedNames: set<string> :=
    {"subject", "from", "to", "cc", "bcc", "message-id", "in-reply-to", "references", "date"}

  /** The map key a header name is stored under: its lower-case form when
      that is one of the normalised names, the name verbatim otherwise. */
  function HeaderKey(name: string): string {
    if Lower(name) in NormalisedNames then Lower(name) else name
  }

  /** Names of the normalised set are compared without regard to case and
      stored under one lower-case key; any other name keeps its own key, so
      two such names share a key only when they are equal. */
  lemma HeaderKeyCaseFolding(a: string, b: string)
    ensures Lower(a) in NormalisedNames ==> HeaderKey(a) == Lower(a) && HeaderKey(a) in NormalisedNames
    ensures Lower(a) in NormalisedNames && Lower(a) == Lower(b) ==> HeaderKey(a) == HeaderKey(b)
    ensures Lower(a) !in NormalisedNames && Lower(b) !in NormalisedNames && HeaderKey(a) == HeaderKey(b) ==> a == b
    ensures HeaderKey(HeaderKey(a)) == HeaderKey(a)
  {
    LowerIdempotent(a);
  }

  /** `if (!header?.name) continue;` — a header without a (non-empty) name is skipped. */
  predicate Named(h: Header) {
    h.name.Some? && Truthy(h.name.value)
  }

  /** `header.value ?? ''`. */
  function ValueOf(h: Header): string {
    h.value.GetOr("")
  }

  /** JavaScript truthiness of a stored header value: an array is always
      truthy, a string unless empty. */
  predicate Occupied(v: HeaderValue) {
    v.List? || Truthy(v.text)
  }

  /** What storing value `v` does to the value already under its key: an
      absent or falsy (`''`) entry is overwritten by the scalar, a scalar
      becomes the pair `[existing, v]`, a list grows by `v`. */
  function Accumulate(existing: Option<HeaderValue>, v: string): HeaderValue {
    match existing
    case Some(List(xs)) => List(xs + [v])
    case Some(Scalar(s)) => if Truthy(s) then List([s, v]) else Scalar(v)
    case None => Scalar(v)
  }

  /** One iteration of the header loop. */
  function AddHeader(m: HeaderMap, h: Header): HeaderMap {
    if !Named(h) then m
    else
      var k := HeaderKey(h.name.value);
      m[k := Accumulate(if k in m then Some(m[k]) else None, ValueOf(h))]
  }

  /** The header loop over `payload.headers`, in arrival order. */
  function CollectHeaders(hs: seq<Header>): HeaderMap
    decreases |hs|
  {
    if |hs| == 0 then map[] else AddHeader(CollectHeaders(hs[..|hs| - 1]), hs[|hs| - 1])
  }

  /** The values, in arrival order, of the named headers whose key is `k`. */
  function ValuesFor(hs: seq<Header>, k: string): seq<string>
    decreases |hs|
  {
    if |hs| == 0 then []
    else
      var h := hs[|hs| - 1];
      ValuesFor(hs[..|hs| - 1], k) + (if Named(h) && HeaderKey(h.name.value) == k then [ValueOf(h)] else [])
  }

  /** Index of the first non-empty value, or `|vs|` when all are empty. */
  function FirstNonEmpty(vs: seq<string>): (p: nat)
    ensures p <= |vs|
    ensures forall i :: 0 <= i < p ==> vs[i] == ""
    ensures p < |vs| ==> vs[p] != ""
  {
    if |vs| == 0 then 0 else if vs[0] != "" then 0 else 1 + FirstNonEmpty(vs[1..])
  }

  /** The entry a key ends up with, stated without the loop: leading empty
      values are overwritten and drop out; a lone survivor is a scalar; two or
      more survivors form a list in arrival order; all-empty leaves `''`. */
  function Expected(vs: seq<string>): Option<HeaderValue> {
    if |vs| == 0 then None
    else
      var p := FirstNonEmpty(vs);
      if p == |vs| then Some(Scalar(""))
      else if p == |vs| - 1 then Some(Scalar(vs[p]))
      else Some(List(vs[p..]))
  }

  lemma {:induction false} FirstNonEmptySnoc(vs: seq<string>, v: string)
    ensures FirstNonEmpty(vs + [v]) == if FirstNonEmpty(vs) < |vs| || v != "" then FirstNonEmpty(vs) else |vs| + 1
    decreases |vs|
  {
    if |vs| > 0 {
      assert (vs + [v])[1..] == vs[1..] + [v];
      FirstNonEmptySnoc(vs[1..], v);
    }
  }

  /** `Expected` follows one more value exactly as `Accumulate` does. */
  lemma ExpectedSnoc(vs: seq<string>, v: string)
    ensures Expected(vs + [v]) == Some(Accumulate(Expected(vs), v))
  {
    FirstNonEmptySnoc(vs, v);
    var p := FirstNonEmpty(vs);
    if |vs| > 0 && p < |vs| - 1 {
      assert (vs + [v])[p..] == vs[p..] + [v];
    } else if |vs| > 0 && p == |vs| - 1 {
      assert (vs + [v])[p..] == [vs[p], v];
    }
  }

  /** The header map, characterised key by key: a key is present iff some
      named header maps to it, and its entry is `Expected` of that key's
      values in arrival order. */
  lemma {:induction false} CollectHeadersSpec(hs: seq<Header>, k: string)
    ensures k in CollectHeaders(hs) <==> |ValuesFor(hs, k)| > 0
    ensures k in CollectHeaders(hs) ==> Some(CollectHeaders(hs)[k]) == Expected(ValuesFor(hs, k))
    decreases |hs|
  {
    if |hs| > 0 {
      var init := hs[..|hs| - 1];
      var h := hs[|hs| - 1];
      CollectHeadersSpec(init, k);
      if Named(h) && HeaderKey(h.name.value) == k {
        ExpectedSnoc(ValuesFor(init, k), ValueOf(h));
      } else {
        assert ValuesFor(hs, k) == ValuesFor(init, k);
      }
    }
  }

  /** Every key of the header map is the key of some named header. */
  lemma {:induction false} CollectHeadersKeys(hs: seq<Header>, k: string)
    requires k in CollectHeaders(hs)
    ensures exists i :: 0 <= i < |hs| && Named(hs[i]) && HeaderKey(hs[i].name.value) == k
    decreases |hs|
  {
    var init := hs[..|hs| - 1];
    var h := hs[|hs| - 1];
    if Named(h) && HeaderKey(h.name.value) == k {
      assert hs[|hs| - 1] == h;
    } else {
      CollectHeadersKeys(init, k);
      var i :| 0 <= i < |init| && Named(init[i]) && HeaderKey(init[i].name.value) == k;
      assert hs[i] == init[i];
    }
  }

  /** When no value of a repeated key is empty, the first occurrence is a
      scalar, the second turns it into the pair, later ones append. */
  lemma RepeatedHeaderList(hs: seq<Header>, k: string)
    requires forall i :: 0 <= i < |ValuesFor(hs, k)| ==> ValuesFor(hs, k)[i] != ""
    ensures |ValuesFor(hs, k)| == 1 ==> k in CollectHeaders(hs) && CollectHeaders(hs)[k] == Scalar(ValuesFor(hs, k)[0])
    ensures |ValuesFor(hs, k)| >= 2 ==> k in CollectHeaders(hs) && CollectHeaders(hs)[k] == List(ValuesFor(hs, k))
  {
    CollectHeadersSpec(hs, k);
    var vs := ValuesFor(hs, k);
    if |vs| > 0 {
      assert FirstNonEmpty(vs) == 0;
      assert vs[0..] == vs;
    }
  }

  // ===========================================================================
  // Bodies: URL-safe base64 and HTML escaping
  // ===========================================================================

  /** `data.replace(/-/g, '+').replace(/_/g, '/')`. */
  function UrlSafeToStandard(data: string): (r: string)
    ensures '-' !in r && '_' !in r
  {
    ReplaceAll(ReplaceAll(data, '-', "+"), '_', "/")
  }

  /** The converse mapping, standard alphabet to URL-safe (what Gmail sends). */
  function StandardToUrlSafe(s: string): (r: string)
    ensures '+' !in r && '/' !in r
  {
    ReplaceAll(ReplaceAll(s, '+', "-"), '/', "_")
  }

  /** Both alphabet mappings distribute over concatenation. */
  lemma UrlSafeAppend(a: string, b: string)
    ensures StandardToUrlSafe(a + b) == StandardToUrlSafe(a) + StandardToUrlSafe(b)
    ensures UrlSafeToStandard(a + b) == UrlSafeToStandard(a) + UrlSafeToStandard(b)
  {
    ReplaceAllAppend(a, b, '+', "-");
    ReplaceAllAppend(ReplaceAll(a, '+', "-"), ReplaceAll(b, '+', "-"), '/', "_");
    ReplaceAllAppend(a, b, '-', "+");
    ReplaceAllAppend(ReplaceAll(a, '-', "+"), ReplaceAll(b, '-', "+"), '_', "/");
  }

  /** One character of the standard alphabet survives the round trip. */
  lemma UrlSafeChar(x: char)
    requires x != '-' && x != '_'
    ensures UrlSafeToStandard(StandardToUrlSafe([x])) == [x]
  {
    ReplaceAllSingle(x, '+', "-");
    var a := if x == '+' then '-' else x;
    ReplaceAllSingle(a, '/', "_");
    var b := if a == '/' then '_' else a;
    ReplaceAllSingle(b, '-', "+");
    var c := if b == '-' then '+' else b;
    ReplaceAllSingle(c, '_', "/");
  }

  /** URL-safe text of any standard base64 text maps back to it. */
  lemma {:induction false} UrlSafeRoundTrip(s: string)
    requires '-' !in s && '_' !in s
    ensures UrlSafeToStandard(StandardToUrlSafe(s)) == s
    decreases |s|
  {
    if |s| > 0 {
      var h, t := [s[0]], s[1..];
      assert s == h + t;
      assert '-' !in t && '_' !in t by {
        assert forall x :: x in t ==> x in s;
      }
      UrlSafeRoundTrip(t);
      UrlSafeChar(s[0]);
      UrlSafeAppend(h, t);
      assert StandardToUrlSafe(s) == StandardToUrlSafe(h) + StandardToUrlSafe(t);
      UrlSafeAppend(StandardToUrlSafe(h), StandardToUrlSafe(t));
    }
  }

  /** `decodeBody`: undo the URL-safe alphabet, base64-decode, read as UTF-8. */
  function DecodeBody(data: string, prims: Primitives): string {
    prims.utf8.decode(prims.base64.decode(UrlSafeToStandard(data)))
  }

  /** Body data Gmail produced from a text (UTF-8, standard base64, then the
      URL-safe alphabet) decodes back to that text. */
  lemma DecodeBodyRoundTrip(text: string, prims: Primitives)
    requires prims.Valid()
    ensures DecodeBody(StandardToUrlSafe(prims.base64.encode(prims.utf8.encode(text))), prims) == text
  {
    UrlSafeRoundTrip(prims.base64.encode(prims.utf8.encode(text)));
  }

  /** The HTML entity for one character, or the character itself. */
  function EscapeChar(c: char): string {
    if c == '&' then "&amp;"
    else if c == '<' then "&lt;"
    else if c == '>' then "&gt;"
    else if c == '"' then "&quot;"
    else if c == '\'' then "&#39;"
    else [c]
  }

  /** `escapeHtml`: five global replacements, `&` first. */
  function EscapeHtml(s: string): string {
    ReplaceAll(ReplaceAll(ReplaceAll(ReplaceAll(ReplaceAll(s, '&', "&amp;"), '<', "&lt;"), '>', "&gt;"), '"', "&quot;"), '\'', "&#39;")
  }

  /** Escaping each character once, left to right. */
  function EscapeEach(s: string): string
    decreases |s|
  {
    if |s| == 0 then "" else EscapeChar(s[0]) + EscapeEach(s[1..])
  }

  /** One character runs through the chain of replacements into its entity. */
  lemma EscapeHtmlChar(c: char)
    ensures EscapeHtml([c]) == EscapeChar(c)
  {
    ReplaceAllSingle(c, '&', "&amp;");
    if c == '&' {
      assert '<' !in "&amp;" && '>' !in "&amp;" && '"' !in "&amp;" && '\'' !in "&amp;";
    } else {
      ReplaceAllSingle(c, '<', "&lt;");
      if c == '<' {
        assert '>' !in "&lt;" && '"' !in "&lt;" && '\'' !in "&lt;";
      } else {
        ReplaceAllSingle(c, '>', "&gt;");
        if c == '>' {
          assert '"' !in "&gt;" && '\'' !in "&gt;";
        } else {
          ReplaceAllSingle(c, '"', "&quot;");
          if c == '"' {
            assert '\'' !in "&quot;";
          } else {
            ReplaceAllSingle(c, '\'', "&#39;");
          }
        }
      }
    }
  }

  /** The chain of replacements distributes over concatenation. */
  lemma EscapeHtmlAppend(a: string, b: string)
    ensures EscapeHtml(a + b) == EscapeHtml(a) + EscapeHtml(b)
  {
    ReplaceAllAppend(a, b, '&', "&amp;");
    var a1 := ReplaceAll(a, '&', "&amp;");
    var b1 := ReplaceAll(b, '&', "&amp;");
    ReplaceAllAppend(a1, b1, '<', "&lt;");
    var a2 := ReplaceAll(a1, '<', "&lt;");
    var b2 := ReplaceAll(b1, '<', "&lt;");
    ReplaceAllAppend(a2, b2, '>', "&gt;");
    var a3 := ReplaceAll(a2, '>', "&gt;");
    var b3 := ReplaceAll(b2, '>', "&gt;");
    ReplaceAllAppend(a3, b3, '"', "&quot;");
    var a4 := ReplaceAll(a3, '"', "&quot;");
    var b4 := ReplaceAll(b3, '"', "&quot;");
    ReplaceAllAppend(a4, b4, '\'', "&#39;");
  }

  /** Because `&` is replaced first, the chain of replacements escapes every
      character exactly once: no entity a later step introduces is escaped again. */
  lemma {:induction false} EscapeHtmlEscapesOnce(s: string)
    ensures EscapeHtml(s) == EscapeEach(s)
    decreases |s|
  {
    if |s| > 0 {
      assert s == [s[0]] + s[1..];
      EscapeHtmlAppend([s[0]], s[1..]);
      EscapeHtmlChar(s[0]);
      EscapeHtmlEscapesOnce(s[1..]);
    }
  }

  /** No raw `<`, `>`, `"` or `'` in a string. */
  predicate NoRawMarkup(s: string) {
    '<' !in s && '>' !in s && '"' !in s && '\'' !in s
  }

  lemma {:induction false} EscapeEachNoRawMarkup(s: string)
    ensures NoRawMarkup(EscapeEach(s))
    decreases |s|
  {
    if |s| > 0 {
      EscapeEachNoRawMarkup(s[1..]);
      var e := EscapeChar(s[0]);
      assert NoRawMarkup(e);
      assert forall x :: x in e + EscapeEach(s[1..]) ==> x in e || x in EscapeEach(s[1..]);
    }
  }

  /** Escaped text holds no raw `<`, `>`, `"` or `'`. */
  lemma EscapeHtmlNoRawMarkup(s: string)
    ensures NoRawMarkup(EscapeHtml(s))
  {
    EscapeHtmlEscapesOnce(s);
    EscapeEachNoRawMarkup(s);
  }

  /** Decoding the five entities, the inverse of `EscapeEach`. */
  function Unescape(s: string): string
    decreases |s|
  {
    if |s| == 0 then ""
    else if "&amp;" <= s then "&" + Unescape(s[5..])
    else if "&lt;" <= s then "<" + Unescape(s[4..])
    else if "&gt;" <= s then ">" + Unescape(s[4..])
    else if "&quot;" <= s then "\"" + Unescape(s[6..])
    else if "&#39;" <= s then "'" + Unescape(s[5..])
    else [s[0]] + Unescape(s[1..])
  }

  lemma UnescapeChar(c: char, tail: string)
    ensures Unescape(EscapeChar(c) + tail) == [c] + Unescape(tail)
  {
    var e := EscapeChar(c);
    assert (e + tail)[|e|..] == tail;
    if c == '&' {
      assert "&amp;" <= e + tail;
    } else if c == '<' {
      assert "&lt;" <= e + tail;
      assert (e + tail)[1] == 'l';
    } else if c == '>' {
      assert "&gt;" <= e + tail;
      assert (e + tail)[1] == 'g';
    } else if c == '"' {
      assert "&quot;" <= e + tail;
      assert (e + tail)[1] == 'q';
    } else if c == '\'' {
      assert "&#39;" <= e + tail;
      assert (e + tail)[1] == '#';
    } else {
      assert (e + tail)[0] == c;
    }
  }

  /** Escaping loses nothing: unescaping the escaped text gives the text back. */
  lemma {:induction false} EscapeHtmlRoundTrip(s: string)
    ensures Unescape(EscapeHtml(s)) == s
    decreases |s|
  {
    EscapeHtmlEscapesOnce(s);
    if |s| > 0 {
      EscapeHtmlRoundTrip(s[1..]);
      EscapeHtmlEscapesOnce(s[1..]);
      UnescapeChar(s[0], EscapeEach(s[1..]));
      assert [s[0]] + s[1..] == s;
    }
  }

  // ===========================================================================
  // The part-tree walk
  // ===========================================================================

  /** `node.body?.attachmentId` is truthy. */
  predicate IsAttachmentPart(p: Part) {
    p.body.attachmentId.Some? && Truthy(p.body.attachmentId.value)
  }

  /** The descriptor an attachment part contributes, with its defaults. */
  function Descriptor(p: Part): AttachmentInfo
    requires IsAttachmentPart(p)
  {
    AttachmentInfo(p.body.attachmentId.value, p.filename.GetOr("attachment"),
                   p.mimeType.GetOr("application/octet-stream"), p.body.size.GetOr(0))
  }

  /** A part that sets the body of MIME type `mime`: not an attachment part,
      of that type, with truthy `body.data`. */
  predicate IsBody(p: Part, mime: string) {
    && !IsAttachmentPart(p)
    && p.mimeType == Some(mime)
    && p.body.data.Some? && Truthy(p.body.data.value)
  }

  /** The walk's accumulators: `bodyHtml`, `bodyText` and `attachments`. */
  datatype WalkState = WalkState(html: Option<string>, text: Option<string>, attachments: seq<AttachmentInfo>)

  /** What `walk` does at one node before (or instead of) descending. */
  function Visit(p: Part, st: WalkState, prims: Primitives): WalkState {
    if IsAttachmentPart(p) then
      st.(attachments := st.attachments + [Descriptor(p)])
    else
      var st1 := if IsBody(p, "text/html") then st.(html := Some(DecodeBody(p.body.data.value, prims))) else st;
      if IsBody(p, "text/plain") then st1.(text := Some(DecodeBody(p.body.data.value, prims))) else st1
  }

  /** `walk(node)`: an attachment part is recorded and not descended into;
      any other part is visited and then its sub-parts are walked in order. */
  function Walk(node: Part, st: WalkState, prims: Primitives): WalkState {
    if IsAttachmentPart(node) then Visit(node, st, prims)
    else WalkAll(node.parts, Visit(node, st, prims), prims)
  }

  function WalkAll(ps: seq<Part>, st: WalkState, prims: Primitives): WalkState {
    if |ps| == 0 then st else WalkAll(ps[1..], Walk(ps[0], st, prims), prims)
  }

  /** The parts `walk` reaches, in depth-first pre-order: everything except
      what lies beneath an attachment part. */
  function Reached(node: Part): seq<Part> {
    [node] + (if IsAttachmentPart(node) then [] else ReachedAll(node.parts))
  }

  function ReachedAll(ps: seq<Part>): seq<Part> {
    if |ps| == 0 then [] else Reached(ps[0]) + ReachedAll(ps[1..])
  }

  /** Visiting a flat list of parts, one after the other. */
  function VisitAll(ps: seq<Part>, st: WalkState, prims: Primitives): WalkState
    decreases |ps|
  {
    if |ps| == 0 then st else Visit(ps[|ps| - 1], VisitAll(ps[..|ps| - 1], st, prims), prims)
  }

  lemma {:induction false} VisitAllAppend(a: seq<Part>, b: seq<Part>, st: WalkState, prims: Primitives)
    ensures VisitAll(a + b, st, prims) == VisitAll(b, VisitAll(a, st, prims), prims)
    decreases |b|
  {
    if |b| == 0 {
      assert a + b == a;
    } else {
      assert (a + b)[..|a + b| - 1] == a + b[..|b| - 1];
      VisitAllAppend(a, b[..|b| - 1], st, prims);
    }
  }

  /** The recursive walk is the flat visit of the parts it reaches. */
  lemma {:induction false} WalkIsVisitAll(node: Part, st: WalkState, prims: Primitives)
    ensures Walk(node, st, prims) == VisitAll(Reached(node), st, prims)
    decreases node, 1
  {
    assert VisitAll([node], st, prims) == Visit(node, st, prims) by {
      assert [node][..0] == [];
    }
    if !IsAttachmentPart(node) {
      WalkAllIsVisitAll(node.parts, Visit(node, st, prims), prims);
      VisitAllAppend([node], ReachedAll(node.parts), st, prims);
    } else {
      assert Reached(node) == [node];
    }
  }

  lemma {:induction false} WalkAllIsVisitAll(ps: seq<Part>, st: WalkState, prims: Primitives)
    ensures WalkAll(ps, st, prims) == VisitAll(ReachedAll(ps), st, prims)
    decreases ps, 0
  {
    if |ps| > 0 {
      WalkIsVisitAll(ps[0], st, prims);
      WalkAllIsVisitAll(ps[1..], Walk(ps[0], st, prims), prims);
      VisitAllAppend(Reached(ps[0]), ReachedAll(ps[1..]), st, prims);
    }
  }

  /** The descriptors of the attachment parts of a flat list, in order. */
  function Descriptors(ps: seq<Part>): seq<AttachmentInfo>
    decreases |ps|
  {
    if |ps| == 0 then []
    else
      var last := ps[|ps| - 1];
      Descriptors(ps[..|ps| - 1]) + (if IsAttachmentPart(last) then [Descriptor(last)] else [])
  }

  /** `i` is the last body part of type `mime` in `ps`. */
  predicate IsLastBody(ps: seq<Part>, i: int, mime: string) {
    0 <= i < |ps| && IsBody(ps[i], mime) && forall j :: i < j < |ps| ==> !IsBody(ps[j], mime)
  }

  predicate NoBody(ps: seq<Part>, mime: string) {
    forall j :: 0 <= j < |ps| ==> !IsBody(ps[j], mime)
  }

  /** One visit, field by field. */
  lemma VisitFields(p: Part, st: WalkState, prims: Primitives)
    ensures Visit(p, st, prims).attachments == st.attachments + (if IsAttachmentPart(p) then [Descriptor(p)] else [])
    ensures Visit(p, st, prims).html == if IsBody(p, "text/html") then Some(DecodeBody(p.body.data.value, prims)) else st.html
    ensures Visit(p, st, prims).text == if IsBody(p, "text/plain") then Some(DecodeBody(p.body.data.value, prims)) else st.text
  {
  }

  /** The last body part of a list that is not its last element is the last
      body part of the list without its last element. */
  lemma LastBodyInit(ps: seq<Part>, i: int, mime: string)
    requires IsLastBody(ps, i, mime) && i < |ps| - 1
    ensures IsLastBody(ps[..|ps| - 1], i, mime)
  {
    var init := ps[..|ps| - 1];
    assert forall j :: i < j < |init| ==> init[j] == ps[j];
  }

  lemma NoBodyInit(ps: seq<Part>, mime: string)
    requires |ps| > 0 && NoBody(ps, mime)
    ensures NoBody(ps[..|ps| - 1], mime) && !IsBody(ps[|ps| - 1], mime)
  {
    var init := ps[..|ps| - 1];
    assert forall j :: 0 <= j < |init| ==> init[j] == ps[j];
  }

  lemma {:induction false} VisitAllAttachments(ps: seq<Part>, st: WalkState, prims: Primitives)
    ensures VisitAll(ps, st, prims).attachments == st.attachments + Descriptors(ps)
    decreases |ps|
  {
    if |ps| > 0 {
      var init := ps[..|ps| - 1];
      VisitAllAttachments(init, st, prims);
      VisitFields(ps[|ps| - 1], VisitAll(init, st, prims), prims);
    }
  }

  lemma {:induction false} VisitAllHtml(ps: seq<Part>, st: WalkState, prims: Primitives)
    ensures NoBody(ps, "text/html") ==> VisitAll(ps, st, prims).html == st.html
    ensures forall i :: IsLastBody(ps, i, "text/html") ==>
              VisitAll(ps, st, prims).html == Some(DecodeBody(ps[i].body.data.value, prims))
    decreases |ps|
  {
    if |ps| > 0 {
      var init := ps[..|ps| - 1];
      VisitAllHtml(init, st, prims);
      VisitFields(ps[|ps| - 1], VisitAll(init, st, prims), prims);
      if NoBody(ps, "text/html") {
        NoBodyInit(ps, "text/html");
      }
      forall i | IsLastBody(ps, i, "text/html")
        ensures VisitAll(ps, st, prims).html == Some(DecodeBody(ps[i].body.data.value, prims))
      {
        if i < |ps| - 1 {
          LastBodyInit(ps, i, "text/html");
        }
      }
    }
  }

  lemma {:induction false} VisitAllText(ps: seq<Part>, st: WalkState, prims: Primitives)
    ensures NoBody(ps, "text/plain") ==> VisitAll(ps, st, prims).text == st.text
    ensures forall i :: IsLastBody(ps, i, "text/plain") ==>
              VisitAll(ps, st, prims).text == Some(DecodeBody(ps[i].body.data.value, prims))
    decreases |ps|
  {
    if |ps| > 0 {
      var init := ps[..|ps| - 1];
      VisitAllText(init, st, prims);
      VisitFields(ps[|ps| - 1], VisitAll(init, st, prims), prims);
      if NoBody(ps, "text/plain") {
        NoBodyInit(ps, "text/plain");
      }
      forall i | IsLastBody(ps, i, "text/plain")
        ensures VisitAll(ps, st, prims).text == Some(DecodeBody(ps[i].body.data.value, prims))
      {
        if i < |ps| - 1 {
          LastBodyInit(ps, i, "text/plain");
        }
      }
    }
  }

  /** The flat visit, characterised field by field: attachments gain the
      descriptors in order, and each body is the decoded data of the last part
      setting it (or is left as it was when no part does). */
  lemma VisitAllSpec(ps: seq<Part>, st: WalkState, prims: Primitives)
    ensures VisitAll(ps, st, prims).attachments == st.attachments + Descriptors(ps)
    ensures NoBody(ps, "text/html") ==> VisitAll(ps, st, prims).html == st.html
    ensures forall i :: IsLastBody(ps, i, "text/html") ==>
              VisitAll(ps, st, prims).html == Some(DecodeBody(ps[i].body.data.value, prims))
    ensures NoBody(ps, "text/plain") ==> VisitAll(ps, st, prims).text == st.text
    ensures forall i :: IsLastBody(ps, i, "text/plain") ==>
              VisitAll(ps, st, prims).text == Some(DecodeBody(ps[i].body.data.value, prims))
  {
    VisitAllAttachments(ps, st, prims);
    VisitAllHtml(ps, st, prims);
    VisitAllText(ps, st, prims);
  }

  // ===========================================================================
  // parseGmailPayload
  // ===========================================================================

  /** `<pre>${escapeHtml(text)}</pre>`. */
  function PreWrap(text: string): string {
    "<pre>" + EscapeHtml(text) + "</pre>"
  }

  /** `parseGmailPayload(payload)`. The attachments are the descriptors of the
      attachment parts the walk reaches, in depth-first order; `bodyText` is
      the decoded data of the last plain-text part reached (`null` if none);
      whenever `bodyText` is non-empty, `bodyHtml` is non-empty too. */
  function ParseGmailPayload(payload: Part, prims: Primitives): (r: ParsedMessage)
    ensures r.headers == CollectHeaders(payload.headers)
    ensures r.attachments == Descriptors(Reached(payload))
    ensures NoBody(Reached(payload), "text/plain") ==> r.bodyText == None
    ensures forall i :: IsLastBody(Reached(payload), i, "text/plain") ==>
              r.bodyText == Some(DecodeBody(Reached(payload)[i].body.data.value, prims))
    ensures r.bodyText.Some? && Truthy(r.bodyText.value) ==> r.bodyHtml.Some? && Truthy(r.bodyHtml.value)
  {
    var start := WalkState(None, None, []);
    WalkIsVisitAll(payload, start, prims);
    VisitAllSpec(Reached(payload), start, prims);
    var walked := Walk(payload, start, prims);
    var html :=
      if (walked.html.None? || !Truthy(walked.html.value)) && walked.text.Some? && Truthy(walked.text.value)
      then Some(PreWrap(walked.text.value))
      else walked.html;
    ParsedMessage(html, walked.text, CollectHeaders(payload.headers), walked.attachments)
  }

  /** The `bodyHtml` a parse yields: the decoded data of the last HTML part
      reached when that is non-empty; otherwise, if the text body is non-empty,
      the escaped text in a `<pre>` block; otherwise the HTML body as found. */
  lemma ParseBodyHtml(payload: Part, prims: Primitives)
    ensures forall i :: IsLastBody(Reached(payload), i, "text/html")
                        && Truthy(DecodeBody(Reached(payload)[i].body.data.value, prims)) ==>
              ParseGmailPayload(payload, prims).bodyHtml == Some(DecodeBody(Reached(payload)[i].body.data.value, prims))
    ensures NoBody(Reached(payload), "text/html") ==>
              var text := ParseGmailPayload(payload, prims).bodyText;
              ParseGmailPayload(payload, prims).bodyHtml ==
                (if text.Some? && Truthy(text.value) then Some(PreWrap(text.value)) else None)
    ensures forall i :: IsLastBody(Reached(payload), i, "text/html")
                        && !Truthy(DecodeBody(Reached(payload)[i].body.data.value, prims)) ==>
              var text := ParseGmailPayload(payload, prims).bodyText;
              ParseGmailPayload(payload, prims).bodyHtml ==
                (if text.Some? && Truthy(text.value) then Some(PreWrap(text.value)) else Some(""))
  {
    var start := WalkState(None, None, []);
    WalkIsVisitAll(payload, start, prims);
    VisitAllSpec(Reached(payload), start, prims);
  }

  /** An attachment part yields its one descriptor and nothing else: no body,
      and none of its sub-parts is looked at. */
  lemma AttachmentPartAlone(p: Part, prims: Primitives)
    requires IsAttachmentPart(p)
    ensures ParseGmailPayload(p, prims).attachments == [Descriptor(p)]
    ensures ParseGmailPayload(p, prims).bodyText == None
    ensures ParseGmailPayload(p, prims).bodyHtml == None
  {
    assert Reached(p) == [p];
    assert Descriptors([p]) == [Descriptor(p)] by {
      assert [p][..0] == [];
    }
    assert NoBody([p], "text/plain") && NoBody([p], "text/html");
    ParseBodyHtml(p, prims);
  }
}

=== FILE: gmail_examples.dfy ===
/** Concrete payloads run through `Gmail.ParseGmailPayload`: the fixture of
    packages/shared/src/gmail.test.ts and the header and fallback cases the
    normaliser is designed around. Base64 decoding stays abstract; each
    lemma states which decodings it relies on. Inline data strings are
    parameters fixed by a `requires`, which keeps the verifier from
    unrolling the decoding helpers on literal text. */
module GmailExamples {
  import opened Wrappers
  import opened Text
  import opened Foreign
  import opened Types
  import opened Gmail

  /** The test fixture: a multipart/alternative payload with a text part, an
      HTML part and a PDF attachment part, carrying the given inline data. */
  function Fixture(textData: string, htmlData: string): Part {
    Part(Some("multipart/alternative"), None,
         [Header(Some("Subject"), Some("Test")), Header(Some("From"), Some("user@example.com"))],
         Body(None, None, None),
         [ Part(Some("text/plain"), None, [], Body(None, Some(textData), None), []),
           Part(Some("text/html"), None, [], Body(None, Some(htmlData), None), []),
           Part(Some("application/pdf"), Some("file.pdf"), [], Body(Some(123), None, Some("abc")), []) ])
  }

  /** A list of leaves is reached as it stands. */
  lemma {:induction false} ReachedLeaves(ps: seq<Part>)
    requires forall i :: 0 <= i < |ps| ==> ps[i].parts == []
    ensures ReachedAll(ps) == ps
    decreases |ps|
  {
    if |ps| > 0 {
      ReachedLeaves(ps[1..]);
      assert Reached(ps[0]) == [ps[0]];
      assert [ps[0]] + ps[1..] == ps;
    }
  }

  lemma StandardText(s: string)
    requires '-' !in s && '_' !in s
    ensures UrlSafeToStandard(s) == s
  {
  }

  lemma FixtureHeaders(textData: string, htmlData: string)
    ensures var m := CollectHeaders(Fixture(textData, htmlData).headers);
            "subject" in m && m["subject"] == Scalar("Test")
  {
    var hs := Fixture(textData, htmlData).headers;
    assert Lower("Subject") == "subject";
    assert Lower("From") == "from";
    assert HeaderKey("Subject") == "subject";
    assert HeaderKey("From") == "from";
    assert CollectHeaders(hs[..1]) == map["subject" := Scalar("Test")] by {
      assert hs[..1][..0] == [];
    }
  }

  /** The fixture's part tree is reached as the payload followed by its three leaves. */
  lemma FixtureReached(textData: string, htmlData: string)
    ensures Reached(Fixture(textData, htmlData)) == [Fixture(textData, htmlData)] + Fixture(textData, htmlData).parts
  {
    ReachedLeaves(Fixture(textData, htmlData).parts);
  }

  lemma FixtureLastText(textData: string, htmlData: string)
    requires Truthy(textData)
    ensures IsLastBody(Reached(Fixture(textData, htmlData)), 1, "text/plain")
    ensures Reached(Fixture(textData, htmlData))[1].body.data == Some(textData)
  {
    FixtureReached(textData, htmlData);
    assert "text/html" != "text/plain" by {
      assert "text/html"[5] != "text/plain"[5];
    }
  }

  lemma FixtureLastHtml(textData: string, htmlData: string)
    requires Truthy(htmlData)
    ensures IsLastBody(Reached(Fixture(textData, htmlData)), 2, "text/html")
    ensures Reached(Fixture(textData, htmlData))[2].body.data == Some(htmlData)
  {
    FixtureReached(textData, htmlData);
    assert "application/pdf" != "text/html" by {
      assert "application/pdf"[0] != "text/html"[0];
    }
  }

  lemma FixtureText(textData: string, htmlData: string, prims: Primitives)
    requires textData == "SGVsbG8=" && htmlData == "PHA+SGVsbG88L3A+"
    requires prims.utf8.decode(prims.base64.decode(textData)) == "Hello"
    ensures ParseGmailPayload(Fixture(textData, htmlData), prims).bodyText == Some("Hello")
  {
    FixtureLastText(textData, htmlData);
    StandardText(textData);
  }

  lemma FixtureHtml(textData: string, htmlData: string, prims: Primitives)
    requires textData == "SGVsbG8=" && htmlData == "PHA+SGVsbG88L3A+"
    requires prims.utf8.decode(prims.base64.decode(htmlData)) == "<p>Hello</p>"
    ensures ParseGmailPayload(Fixture(textData, htmlData), prims).bodyHtml == Some("<p>Hello</p>")
  {
    FixtureLastHtml(textData, htmlData);
    StandardText(htmlData);
    ParseBodyHtml(Fixture(textData, htmlData), prims);
  }

  lemma FixtureAttachments(textData: string, htmlData: string, prims: Primitives)
    ensures ParseGmailPayload(Fixture(textData, htmlData), prims).attachments
            == [AttachmentInfo("abc", "file.pdf", "application/pdf", 123)]
  {
    var p := Fixture(textData, htmlData);
    ReachedLeaves(p.parts);
    var rs := Reached(p);
    assert rs == [p] + p.parts;
    assert !IsAttachmentPart(rs[0]) && !IsAttachmentPart(rs[1]) && !IsAttachmentPart(rs[2]);
    assert IsAttachmentPart(rs[3]);
    assert Descriptors(rs[..1]) == [] by {
      assert rs[..1][..0] == [];
    }
    assert Descriptors(rs[..2]) == [] by {
      assert rs[..2][..1] == rs[..1];
    }
    assert Descriptors(rs[..3]) == [] by {
      assert rs[..3][..2] == rs[..2];
    }
    assert Descriptors(rs) == [Descriptor(rs[3])] by {
      assert rs[..3] == rs[..|rs| - 1];
    }
  }

  /** The fixture yields subject "Test", text "Hello", an HTML body that
      contains "Hello", and exactly one attachment. */
  lemma FixtureParse(textData: string, htmlData: string, prims: Primitives)
    requires textData == "SGVsbG8=" && htmlData == "PHA+SGVsbG88L3A+"
    requires prims.utf8.decode(prims.base64.decode(textData)) == "Hello"
    requires prims.utf8.decode(prims.base64.decode(htmlData)) == "<p>Hello</p>"
    ensures var r := ParseGmailPayload(Fixture(textData, htmlData), prims);
            && "subject" in r.headers && r.headers["subject"] == Scalar("Test")
            && r.bodyText == Some("Hello")
            && r.bodyHtml.Some? && Includes(r.bodyHtml.value, "Hello")
            && |r.attachments| == 1
  {
    FixtureHeaders(textData, htmlData);
    FixtureText(textData, htmlData, prims);
    FixtureHtml(textData, htmlData, prims);
    FixtureAttachments(textData, htmlData, prims);
    assert OccursAt("<p>Hello</p>", "Hello", 3);
  }

  /** Two `Cc` headers in different case and one `X-Custom`: the pair folds
      into the list under "cc" in arrival order, the custom name keeps its case. */
  lemma HeaderMergeExample()
    ensures var m := CollectHeaders([Header(Some("Cc"), Some("a@example.com")),
                                     Header(Some("CC"), Some("b@example.com")),
                                     Header(Some("X-Custom"), Some("1"))]);
            && "cc" in m && m["cc"] == List(["a@example.com", "b@example.com"])
            && "X-Custom" in m && m["X-Custom"] == Scalar("1")
            && "x-custom" !in m
  {
    var hs := [Header(Some("Cc"), Some("a@example.com")),
               Header(Some("CC"), Some("b@example.com")),
               Header(Some("X-Custom"), Some("1"))];
    assert Lower("Cc") == "cc";
    assert Lower("CC") == "cc";
    assert Lower("X-Custom") == "x-custom";
    assert HeaderKey("Cc") == "cc";
    assert HeaderKey("CC") == "cc";
    assert HeaderKey("X-Custom") == "X-Custom";
    assert CollectHeaders(hs[..1]) == AddHeader(map[], hs[0]) by {
      assert hs[..1][..0] == [];
    }
    var m1 := map["cc" := Scalar("a@example.com")];
    assert AddHeader(map[], hs[0]) == m1;
    assert CollectHeaders(hs[..2]) == AddHeader(m1, hs[1]) by {
      assert hs[..2][..1] == hs[..1];
    }
    var m2 := map["cc" := List(["a@example.com", "b@example.com"])];
    assert AddHeader(m1, hs[1]) == m2;
    assert CollectHeaders(hs) == AddHeader(m2, hs[2]) by {
      assert hs[..2] == hs[..|hs| - 1];
    }
    assert AddHeader(m2, hs[2]) == m2["X-Custom" := Scalar("1")];
  }

  /** An empty first value is falsy, so the second `Subject` overwrites it
      instead of forming a list. */
  lemma EmptyHeaderOverwritten()
    ensures var m := CollectHeaders([Header(Some("Subject"), Some("")), Header(Some("subject"), Some("Re: hi"))]);
            "subject" in m && m["subject"] == Scalar("Re: hi")
  {
    var hs := [Header(Some("Subject"), Some("")), Header(Some("subject"), Some("Re: hi"))];
    assert Lower("Subject") == "subject";
    assert Lower("subject") == "subject";
    assert CollectHeaders(hs[..1]) == map["subject" := Scalar("")] by {
      assert hs[..1][..0] == [];
    }
  }

  lemma {:induction false} EscapeEachAppend(a: string, b: string)
    ensures EscapeEach(a + b) == EscapeEach(a) + EscapeEach(b)
    decreases |a|
  {
    if |a| > 0 {
      assert (a + b)[1..] == a[1..] + b;
      EscapeEachAppend(a[1..], b);
    } else {
      assert a + b == b;
    }
  }

  /** Text free of the five special characters passes through unchanged. */
  predicate Plain(s: string) {
    '&' !in s && '<' !in s && '>' !in s && '"' !in s && '\'' !in s
  }

  lemma {:induction false} EscapeEachPlain(s: string)
    requires Plain(s)
    ensures EscapeEach(s) == s
    decreases |s|
  {
    if |s| > 0 {
      EscapeEachPlain(s[1..]);
      assert [s[0]] + s[1..] == s;
    }
  }

  /** `a & b <c>`-shaped text: each markup character becomes its entity and
      the plain runs between them are kept. */
  lemma EscapeMarkup(a: string, b: string, c: string)
    requires Plain(a) && Plain(b) && Plain(c)
    ensures EscapeHtml(a + "&" + b + "<" + c + ">") == a + "&amp;" + b + "&lt;" + c + "&gt;"
  {
    EscapeEachPlain(a);
    EscapeEachPlain(b);
    EscapeEachPlain(c);
    assert EscapeEach("&") == "&amp;" && EscapeEach("<") == "&lt;" && EscapeEach(">") == "&gt;";
    var x1 := a + "&";
    EscapeEachAppend(a, "&");
    var x2 := x1 + b;
    EscapeEachAppend(x1, b);
    var x3 := x2 + "<";
    EscapeEachAppend(x2, "<");
    var x4 := x3 + c;
    EscapeEachAppend(x3, c);
    EscapeEachAppend(x4, ">");
    EscapeHtmlEscapesOnce(x4 + ">");
  }

  /** A payload that is a single text/plain part with inline data. */
  function TextPart(data: string): Part {
    Part(Some("text/plain"), None, [], Body(None, Some(data), None), [])
  }

  /** A payload with only a non-empty text/plain part gets that text as its
      text body and its escaped `<pre>` form as its HTML body. */
  lemma TextOnlyFallback(data: string, prims: Primitives)
    requires Truthy(data) && Truthy(DecodeBody(data, prims))
    ensures ParseGmailPayload(TextPart(data), prims).bodyText
            == Some(DecodeBody(data, prims))
    ensures ParseGmailPayload(TextPart(data), prims).bodyHtml
            == Some(PreWrap(DecodeBody(data, prims)))
  {
    var p := TextPart(data);
    assert Reached(p) == [p];
    assert IsLastBody(Reached(p), 0, "text/plain");
    assert "text/plain" != "text/html" by {
      assert "text/plain"[5] != "text/html"[5];
    }
    assert NoBody(Reached(p), "text/html");
    ParseBodyHtml(p, prims);
  }

  /** The fallback on text shaped like "Hello & <b>": the markup characters
      come out as entities inside the `<pre>` block. */
  lemma TextOnlyFallbackExample(data: string, prims: Primitives, a: string, b: string, c: string)
    requires Plain(a) && Plain(b) && Plain(c)
    requires DecodeBody(data, prims) == a + "&" + b + "<" + c + ">"
    requires Truthy(data)
    ensures ParseGmailPayload(TextPart(data), prims).bodyHtml
            == Some("<pre>" + (a + "&amp;" + b + "&lt;" + c + "&gt;") + "</pre>")
  {
    TextOnlyFallback(data, prims);
    EscapeMarkup(a, b, c);
  }
}

=== FILE: google.dfy ===
/** The token vault and OAuth state codec of apps/web/lib/google.ts: the
    stored OAuth token is JSON encrypted under `ENCRYPTION_KEY` and kept in
    three `inbox` columns; a refresh merges the provider's new credentials
    into it and writes it back; the OAuth `state` parameter is the encrypted
    state object, JSON-serialised and base64url-encoded.

    The environment is the `Env` record, the provider's answers are
    parameters, and the 12-byte IV `randomBytes` would draw is a parameter. */
module Google {
  import opened Wrappers
  import opened Text
  import opened Foreign
  import opened Types
  import opened Crypto
  import opened Tables

  /** The process environment variables the core reads. */
  datatype Env = Env(
    encryptionKey: Option<string>,
    clientId: Option<string>,
    clientSecret: Option<string>,
    redirectUri: Option<string>,
    cronSecret: Option<string>)

  /** An optional environment variable or token field is truthy. */
  predicate Set(v: Option<string>) {
    v.Some? && Truthy(v.value)
  }

  datatype ProviderError = ProviderError

  datatype VaultError =
    | SecretMissing              // 'ENCRYPTION_KEY is required'
    | OAuthConfigMissing         // 'Missing Google OAuth environment variables'
    | Cipher(cause: CryptoError) // thrown by encrypt/decrypt/JSON.parse
    | Provider(failure: ProviderError)
    | Uninitialised(name: string) // ReferenceError: a `const` read before its declaration ran

  /** `StoredOAuthToken`. Every field is optional: a merge can null out a
      field the type calls required, and `JSON.stringify` drops `undefined`. */
  datatype Token = Token(
    accessToken: Option<string>,
    refreshToken: Option<string>,
    scope: Option<string>,
    tokenType: Option<string>,
    expiryDate: Option<int>)

  /** A field of the provider's `credentials` object: absent, or present
      with a value that may be `null`. */
  datatype Field<T> = Omitted | Given(value: Option<T>)

  datatype Credentials = Credentials(
    accessToken: Field<string>,
    refreshToken: Field<string>,
    scope: Field<string>,
    tokenType: Field<string>,
    expiryDate: Field<int>)

  /** `GoogleOAuthState`. */
  datatype OAuthState = OAuthState(inboxId: string, teamId: string, redirectPath: string)

  /** `getOAuthClient()`'s configuration. */
  datatype OAuthConfig = OAuthConfig(clientId: string, clientSecret: string, redirectUri: string)

  // ===========================================================================
  // Environment guards
  // ===========================================================================

  /** `requireSecret()`: a missing or empty `ENCRYPTION_KEY` throws. */
  function RequireSecret(env: Env): (r: Result<string, VaultError>)
    ensures r.Success? <==> Set(env.encryptionKey)
    ensures r.Success? ==> Some(r.value) == env.encryptionKey
    ensures r.Failure? ==> r.error == SecretMissing
  {
    match env.encryptionKey
    case Some(s) => if Truthy(s) then Success(s) else Failure(SecretMissing)
    case None => Failure(SecretMissing)
  }

  /** `getOAuthClient()`: all three OAuth variables must be non-empty. */
  function GetOAuthClient(env: Env): (r: Result<OAuthConfig, VaultError>)
    ensures r.Success? <==> Set(env.clientId) && Set(env.clientSecret) && Set(env.redirectUri)
    ensures r.Failure? ==> r.error == OAuthConfigMissing
    ensures r.Success? ==> r.value == OAuthConfig(env.clientId.value, env.clientSecret.value, env.redirectUri.value)
  {
    if Set(env.clientId) && Set(env.clientSecret) && Set(env.redirectUri) then
      Success(OAuthConfig(env.clientId.value, env.clientSecret.value, env.redirectUri.value))
    else
      Failure(OAuthConfigMissing)
  }

  // ===========================================================================
  // OAuth state codec
  // ===========================================================================

  /** `createOAuthState(payload)`: encrypt the state as JSON, serialise the
      encrypted payload as JSON and encode that as base64url text. */
  function CreateOAuthState(state: OAuthState, env: Env, iv: Bytes, prims: Primitives,
                            stateJson: JsonCodec<OAuthState>, payloadJson: JsonCodec<EncryptedPayload>): (r: Result<string, VaultError>)
    requires |iv| == IvLength
    ensures r.Failure? <==> !Set(env.encryptionKey) || !ValidSecret(env.encryptionKey.value, prims)
    ensures !Set(env.encryptionKey) ==> r == Failure(SecretMissing)
  {
    var secret :- RequireSecret(env);
    var encrypted :- EncryptJson(state, secret, iv, prims, stateJson).MapFailure(e => Cipher(e));
    Success(prims.base64url.encode(prims.utf8.encode(payloadJson.stringify(encrypted))))
  }

  /** `parseOAuthState(state)`: the inverse pipeline. Text that is not JSON
      of an encrypted payload, a tag that does not verify and a plain text
      that is not JSON all throw. */
  function ParseOAuthState(text: string, env: Env, prims: Primitives,
                           stateJson: JsonCodec<OAuthState>, payloadJson: JsonCodec<EncryptedPayload>): (r: Result<OAuthState, VaultError>)
    ensures !Set(env.encryptionKey) ==> r == Failure(SecretMissing)
    ensures r.Success? ==> payloadJson.parse(prims.utf8.decode(prims.base64url.decode(text))).Some?
    ensures r.Success? ==>
              && Set(env.encryptionKey)
              && DecryptJson(payloadJson.parse(prims.utf8.decode(prims.base64url.decode(text))).value,
                             env.encryptionKey.value, prims, stateJson) == Success(r.value)
  {
    var secret :- RequireSecret(env);
    match payloadJson.parse(prims.utf8.decode(prims.base64url.decode(text)))
    case None => Failure(Cipher(MalformedJson))
    case Some(payload) => DecryptJson(payload, secret, prims, stateJson).MapFailure(e => Cipher(e))
  }

  /** A state created under a valid key parses back to itself. */
  lemma OAuthStateRoundTrip(state: OAuthState, env: Env, iv: Bytes, prims: Primitives,
                            stateJson: JsonCodec<OAuthState>, payloadJson: JsonCodec<EncryptedPayload>)
    requires |iv| == IvLength
    requires prims.Valid() && stateJson.Valid() && payloadJson.Valid()
    requires Set(env.encryptionKey) && ValidSecret(env.encryptionKey.value, prims)
    ensures CreateOAuthState(state, env, iv, prims, stateJson, payloadJson).Success?
    ensures ParseOAuthState(CreateOAuthState(state, env, iv, prims, stateJson, payloadJson).value,
                            env, prims, stateJson, payloadJson) == Success(state)
  {
    var secret := env.encryptionKey.value;
    var encrypted := EncryptJson(state, secret, iv, prims, stateJson).value;
    var json := payloadJson.stringify(encrypted);
    assert prims.utf8.decode(prims.base64url.decode(prims.base64url.encode(prims.utf8.encode(json)))) == json;
  }

  // ===========================================================================
  // Token columns
  // ===========================================================================

  /** `Buffer.from(numbers)`: each element is truncated to its low byte. */
  function LowBytes(ns: seq<int>): (r: Bytes)
    ensures |r| == |ns|
    ensures forall i :: 0 <= i < |ns| ==> r[i] as int == ns[i] % 256
  {
    seq(|ns|, i requires 0 <= i < |ns| => (ns[i] % 256) as Byte)
  }

  /** `normalizeTokenPart(value)`: falsy values (`null`, `''`) become `null`,
      a string is kept, byte arrays and number arrays (truthy even when
      empty) become their standard base64 text. */
  function NormalizeTokenPart(v: TokenPart, prims: Primitives): (r: Option<string>)
    ensures r.None? <==> v.Null? || v == Text("")
    ensures v.Text? && v.text != "" ==> r == Some(v.text)
    ensures prims.Valid() && v.Raw? ==> prims.base64.decode(r.value) == v.bytes
    ensures prims.Valid() && v.Numbers? ==> prims.base64.decode(r.value) == LowBytes(v.numbers)
  {
    match v
    case Null => None
    case Text(s) => if Truthy(s) then Some(s) else None
    case Raw(bytes) => Some(prims.base64.encode(bytes))
    case Numbers(ns) => Some(prims.base64.encode(LowBytes(ns)))
  }

  /** The three columns of a row, normalised; `None` when any is falsy. */
  function StoredPayload(row: InboxRow, prims: Primitives): (r: Option<EncryptedPayload>)
    ensures r.Some? <==>
              && Set(NormalizeTokenPart(row.tokenEncrypted, prims))
              && Set(NormalizeTokenPart(row.tokenIv, prims))
              && Set(NormalizeTokenPart(row.tokenAuthTag, prims))
    ensures r.Some? ==>
              && Some(r.value.cipherText) == NormalizeTokenPart(row.tokenEncrypted, prims)
              && Some(r.value.iv) == NormalizeTokenPart(row.tokenIv, prims)
              && Some(r.value.authTag) == NormalizeTokenPart(row.tokenAuthTag, prims)
  {
    var cipherText := NormalizeTokenPart(row.tokenEncrypted, prims);
    var iv := NormalizeTokenPart(row.tokenIv, prims);
    var authTag := NormalizeTokenPart(row.tokenAuthTag, prims);
    if Set(cipherText) && Set(iv) && Set(authTag) then
      Some(EncryptedPayload(iv.value, cipherText.value, authTag.value))
    else
      None
  }

  /** `decryptToken(inbox)`: `requireSecret` runs first; a row with any falsy
      column has no token (`null`); otherwise the columns are decrypted. */
  function DecryptToken(row: InboxRow, env: Env, prims: Primitives, json: JsonCodec<Token>): (r: Result<Option<Token>, VaultError>)
    ensures !Set(env.encryptionKey) ==> r == Failure(SecretMissing)
    ensures Set(env.encryptionKey) ==> (r == Success(None) <==> StoredPayload(row, prims).None?)
    ensures r.Success? && r.value.Some? ==>
              DecryptJson(StoredPayload(row, prims).value, env.encryptionKey.value, prims, json) == Success(r.value.value)
    ensures Set(env.encryptionKey) && StoredPayload(row, prims).Some? ==>
              var decrypted := DecryptJson(StoredPayload(row, prims).value, env.encryptionKey.value, prims, json);
              && (decrypted.Success? ==> r == Success(Some(decrypted.value)))
              && (decrypted.Failure? ==> r == Failure(Cipher(decrypted.error)))
  {
    var secret :- RequireSecret(env);
    match StoredPayload(row, prims)
    case None => Success(None)
    case Some(payload) =>
      match DecryptJson(payload, secret, prims, json)
      case Failure(e) => Failure(Cipher(e))
      case Success(token) => Success(Some(token))
  }

  /** `encryptToken(token)`. */
  function EncryptToken(token: Token, env: Env, iv: Bytes, prims: Primitives, json: JsonCodec<Token>): (r: Result<EncryptedPayload, VaultError>)
    requires |iv| == IvLength
    ensures r.Failure? <==> !Set(env.encryptionKey) || !ValidSecret(env.encryptionKey.value, prims)
    ensures !Set(env.encryptionKey) ==> r == Failure(SecretMissing)
    ensures prims.Valid() && json.Valid() && r.Success? ==>
              DecryptJson(r.value, env.encryptionKey.value, prims, json) == Success(token)
  {
    var secret :- RequireSecret(env);
    EncryptJson(token, secret, iv, prims, json).MapFailure(e => Cipher(e))
  }

  /** The one update both writers issue: all three columns from one payload,
      each as the bytes of its base64 text. */
  function WithToken(row: InboxRow, enc: EncryptedPayload, prims: Primitives): InboxRow {
    row.(tokenEncrypted := Raw(prims.base64.decode(enc.cipherText)),
         tokenIv := Raw(prims.base64.decode(enc.iv)),
         tokenAuthTag := Raw(prims.base64.decode(enc.authTag)))
  }

  /** `.update(...).eq('id', inboxId)`: no row matches an unknown id. */
  function UpdateInbox(store: Store, inboxId: string, f: InboxRow -> InboxRow): (r: Store)
    ensures r.(inboxes := store.inboxes) == store
    ensures r.inboxes.Keys == store.inboxes.Keys
    ensures forall k :: k in store.inboxes && k != inboxId ==> r.inboxes[k] == store.inboxes[k]
    ensures inboxId in store.inboxes ==> r.inboxes[inboxId] == f(store.inboxes[inboxId])
  {
    if inboxId in store.inboxes then store.(inboxes := store.inboxes[inboxId := f(store.inboxes[inboxId])])
    else store
  }

  /** What a token written by `WithToken` reads back as: the encrypted
      payload's base64 texts survive the trip through bytes, so the row
      decrypts to the token that was encrypted. */
  lemma WithTokenReadsBack(row: InboxRow, token: Token, env: Env, iv: Bytes, prims: Primitives, json: JsonCodec<Token>)
    requires |iv| == IvLength
    requires prims.Valid() && json.Valid()
    requires EncryptToken(token, env, iv, prims, json).Success?
    ensures DecryptToken(WithToken(row, EncryptToken(token, env, iv, prims, json).value, prims), env, prims, json)
            == Success(Some(token))
  {
    var secret := env.encryptionKey.value;
    var key := KeyOf(secret, prims);
    var plain := prims.utf8.encode(json.stringify(token));
    var sealed := prims.aead.seal(key, iv, plain);
    var enc := EncryptToken(token, env, iv, prims, json).value;
    assert enc == EncryptedPayload(prims.base64.encode(iv), prims.base64.encode(sealed.cipherText), prims.base64.encode(sealed.authTag));
    assert |plain| > 0;
    var written := WithToken(row, enc, prims);
    assert NormalizeTokenPart(written.tokenEncrypted, prims) == Some(enc.cipherText);
    assert NormalizeTokenPart(written.tokenIv, prims) == Some(enc.iv);
    assert NormalizeTokenPart(written.tokenAuthTag, prims) == Some(enc.authTag);
    assert StoredPayload(written, prims) == Some(enc);
  }

  // ===========================================================================
  // Refresh, store, revoke
  // ===========================================================================

  /** One field of `{ ...token, ...credentials }`: a field present in the
      credentials wins, even when its value is `null`. */
  function Override<T>(current: Option<T>, f: Field<T>): (r: Option<T>)
    ensures f.Omitted? ==> r == current
    ensures f.Given? ==> r == f.value
  {
    match f
    case Omitted => current
    case Given(v) => v
  }

  function MergeCredentials(token: Token, c: Credentials): Token {
    Token(Override(token.accessToken, c.accessToken),
          Override(token.refreshToken, c.refreshToken),
          Override(token.scope, c.scope),
          Override(token.tokenType, c.tokenType),
          Override(token.expiryDate, c.expiryDate))
  }

  /** The credentials that carry no field. */
  const NoCredentials: Credentials := Credentials(Omitted, Omitted, Omitted, Omitted, Omitted)

  /** Merging keeps what the provider omits (a refresh response without a
      `refresh_token` keeps the old one), takes what it sends, and merging the
      same credentials again changes nothing. */
  lemma MergeSemantics(token: Token, c: Credentials)
    ensures c.refreshToken.Omitted? ==> MergeCredentials(token, c).refreshToken == token.refreshToken
    ensures c.accessToken.Given? ==> MergeCredentials(token, c).accessToken == c.accessToken.value
    ensures MergeCredentials(token, NoCredentials) == token
    ensures MergeCredentials(MergeCredentials(token, c), c) == MergeCredentials(token, c)
  {
  }

  /** A successful refresh: the merged token and the store it was written to. */
  datatype Refreshed = Refreshed(token: Token, store: Store)

  /** `refreshAccessToken(token, supabase, inboxId)`. `refreshed` is what the
      provider's `refreshAccessToken()` answered. The merged token is
      encrypted and all three columns of the inbox are written in one update;
      the function returns the merged token. */
  function RefreshAccessToken(token: Token, store: Store, inboxId: string, env: Env,
                              refreshed: Result<Credentials, ProviderError>, iv: Bytes,
                              prims: Primitives, json: JsonCodec<Token>): (r: Result<Refreshed, VaultError>)
    requires |iv| == IvLength
    ensures !Set(env.clientId) || !Set(env.clientSecret) || !Set(env.redirectUri) ==> r == Failure(OAuthConfigMissing)
    ensures Set(env.clientId) && Set(env.clientSecret) && Set(env.redirectUri) && refreshed.Failure? ==>
              r == Failure(Provider(refreshed.error))
    ensures Set(env.clientId) && Set(env.clientSecret) && Set(env.redirectUri) && refreshed.Success? ==>
              (r.Success? <==> Set(env.encryptionKey) && ValidSecret(env.encryptionKey.value, prims))
    ensures r.Success? ==> refreshed.Success? && r.value.token == MergeCredentials(token, refreshed.value)
    ensures r.Success? ==> r.value.store.(inboxes := store.inboxes) == store
    ensures r.Success? ==> r.value.store.inboxes.Keys == store.inboxes.Keys
    ensures r.Success? ==> forall k :: k in store.inboxes && k != inboxId ==> r.value.store.inboxes[k] == store.inboxes[k]
    ensures r.Success? && inboxId in store.inboxes ==>
              r.value.store.inboxes[inboxId].(tokenEncrypted := store.inboxes[inboxId].tokenEncrypted,
                                              tokenIv := store.inboxes[inboxId].tokenIv,
                                              tokenAuthTag := store.inboxes[inboxId].tokenAuthTag)
              == store.inboxes[inboxId]
    ensures r.Success? && prims.Valid() && json.Valid() && inboxId in store.inboxes ==>
              DecryptToken(r.value.store.inboxes[inboxId], env, prims, json) == Success(Some(r.value.token))
  {
    var _ :- GetOAuthClient(env);
    var credentials :- refreshed.MapFailure(e => Provider(e));
    var merged := MergeCredentials(token, credentials);
    var encrypted :- EncryptToken(merged, env, iv, prims, json);
    var updated := UpdateInbox(store, inboxId, row => WithToken(row, encrypted, prims));
    assert inboxId in store.inboxes && prims.Valid() && json.Valid() ==>
             DecryptToken(updated.inboxes[inboxId], env, prims, json) == Success(Some(merged)) by {
      if inboxId in store.inboxes && prims.Valid() && json.Valid() {
        WithTokenReadsBack(store.inboxes[inboxId], merged, env, iv, prims, json);
      }
    }
    Success(Refreshed(merged, updated))
  }

  /** `storeToken(supabase, inboxId, token, accountEmail?)`: the three
      columns and `google_account_email` (`null` when not given) in one update. */
  function StoreToken(store: Store, inboxId: string, token: Token, accountEmail: Option<string>,
                      env: Env, iv: Bytes, prims: Primitives, json: JsonCodec<Token>): (r: Result<Store, VaultError>)
    requires |iv| == IvLength
    ensures r.Failure? <==> !Set(env.encryptionKey) || !ValidSecret(env.encryptionKey.value, prims)
    ensures r.Success? ==> r.value.(inboxes := store.inboxes) == store
    ensures r.Success? ==> r.value.inboxes.Keys == store.inboxes.Keys
    ensures r.Success? ==> forall k :: k in store.inboxes && k != inboxId ==> r.value.inboxes[k] == store.inboxes[k]
    ensures r.Success? && inboxId in store.inboxes ==> r.value.inboxes[inboxId].googleAccountEmail == accountEmail
    ensures r.Success? && prims.Valid() && json.Valid() && inboxId in store.inboxes ==>
              DecryptToken(r.value.inboxes[inboxId], env, prims, json) == Success(Some(token))
  {
    var encrypted :- EncryptToken(token, env, iv, prims, json);
    var updated := UpdateInbox(store, inboxId, row => WithToken(row, encrypted, prims).(googleAccountEmail := accountEmail));
    assert inboxId in store.inboxes && prims.Valid() && json.Valid() ==>
             DecryptToken(updated.inboxes[inboxId], env, prims, json) == Success(Some(token)) by {
      if inboxId in store.inboxes && prims.Valid() && json.Valid() {
        var row := store.inboxes[inboxId];
        WithTokenReadsBack(row.(googleAccountEmail := accountEmail), token, env, iv, prims, json);
        assert WithToken(row, encrypted, prims).(googleAccountEmail := accountEmail)
               == WithToken(row.(googleAccountEmail := accountEmail), encrypted, prims);
      }
    }
    Success(updated)
  }

  /** What `revokeToken` did: the tokens it asked the provider to revoke, in
      order, and whether it returned or threw. */
  datatype Revocation = Revocation(attempted: seq<string>, outcome: Result<(), VaultError>)

  /** The tokens `revokeToken` means to revoke: the access token if set, then
      the refresh token if set. */
  function Planned(token: Token): (r: seq<string>)
    ensures |r| <= 2
    ensures forall i :: 0 <= i < |r| ==> Truthy(r[i])
    ensures |r| == (if Set(token.accessToken) then 1 else 0) + (if Set(token.refreshToken) then 1 else 0)
    ensures Set(token.accessToken) ==> r[0] == token.accessToken.value
    ensures Set(token.refreshToken) ==> r[|r| - 1] == token.refreshToken.value
  {
    (if Set(token.accessToken) then [token.accessToken.value] else [])
    + (if Set(token.refreshToken) then [token.refreshToken.value] else [])
  }

  /** `revokeToken(token)`. `revoke(t)` is whether the provider accepted the
      revocation of `t`; a refused revocation throws, so nothing after it runs. */
  function RevokeToken(token: Token, env: Env, revoke: string -> bool): (r: Revocation)
    ensures r.attempted <= Planned(token)
    ensures r.outcome.Success? <==> GetOAuthClient(env).Success? && forall i :: 0 <= i < |Planned(token)| ==> revoke(Planned(token)[i])
    ensures r.outcome.Success? ==> r.attempted == Planned(token)
    ensures r.outcome.Failure? && GetOAuthClient(env).Success? ==> |r.attempted| > 0 && !revoke(r.attempted[|r.attempted| - 1])
    ensures forall i :: 0 <= i < |r.attempted| - 1 ==> revoke(r.attempted[i])
    ensures GetOAuthClient(env).Failure? ==> r == Revocation([], Failure(OAuthConfigMissing))
  {
    if GetOAuthClient(env).Failure? then Revocation([], Failure(OAuthConfigMissing))
    else
      var access := if Set(token.accessToken) then [token.accessToken.value] else [];
      var refresh := if Set(token.refreshToken) then [token.refreshToken.value] else [];
      assert Planned(token) == access + refresh;
      if Set(token.accessToken) && !revoke(token.accessToken.value) then
        Revocation(access, Failure(Provider(ProviderError)))
      else if Set(token.refreshToken) && !revoke(token.refreshToken.value) then
        Revocation(access + refresh, Failure(Provider(ProviderError)))
      else
        Revocation(access + refresh, Success(()))
  }
}

=== FILE: sync.dfy ===
/** The Gmail sync cron route, apps/web/app/api/cron/gmail-sync/route.ts: for
    every active inbox, decrypt its token (refreshing it when it is about to
    expire), list the messages received since the last checkpoint, upsert a
    conversation, a message and its attachments for each, and write the new
    checkpoint once all of that inbox's messages are done.

    The Gmail API is the `Mailbox` oracle, answering according to the
    credentials it is called with; `crypto.randomUUID()` is the `uuid`
    supply, indexed by how many ids have been drawn so far; `Date.now()` is
    `now`. Any exception (a provider call that fails, a token that does not
    decrypt) ends the whole request: the writes already made stay, and no
    later inbox is visited. */
module Sync {
  import opened Wrappers
  import opened Text
  import opened Foreign
  import opened Types
  import opened Gmail
  import opened Crypto
  import opened Tables
  import opened Google

  /** `MAX_MESSAGES_PER_RUN`. */
  const MaxMessagesPerRun: nat := 200

  /** The look-back without a checkpoint: three days, in seconds. */
  const LookBackSeconds: int := 60 * 60 * 24 * 3

  /** A token expiring within this many milliseconds is refreshed first. */
  const RefreshMarginMs: int := 60000

  const PreviewLength: nat := 200

  const NoSubject: string := "(no subject)"

  // ===========================================================================
  // Address lists
  // ===========================================================================

  /** `.map((part) => part.trim()).filter(Boolean)`. */
  function Clean(pieces: seq<string>): (r: seq<string>)
    ensures |r| <= |pieces|
    ensures forall i :: 0 <= i < |r| ==> Trimmed(r[i])
    decreases |pieces|
  {
    if |pieces| == 0 then []
    else
      var t := Trim(pieces[0]);
      TrimIdempotent(pieces[0]);
      var rest := Clean(pieces[1..]);
      if Truthy(t) then
        ConsAll(t, rest, Trimmed);
        [t] + rest
      else rest
  }

  /** A non-empty string that trimming leaves as it is. */
  predicate Trimmed(s: string) {
    Truthy(s) && Trim(s) == s
  }

  /** Prepending an element that meets `p` to elements that all meet it. */
  lemma ConsAll<T>(x: T, rest: seq<T>, p: T -> bool)
    requires p(x) && forall i :: 0 <= i < |rest| ==> p(rest[i])
    ensures forall i :: 0 <= i < |[x] + rest| ==> p(([x] + rest)[i])
  {
    assert forall i :: 1 <= i < |[x] + rest| ==> ([x] + rest)[i] == rest[i - 1];
  }

  /** Cleaning comma-free pieces leaves comma-free addresses. */
  lemma {:induction false} CleanKeeps(pieces: seq<string>, c: char)
    requires forall k :: 0 <= k < |pieces| ==> c !in pieces[k]
    ensures forall i :: 0 <= i < |Clean(pieces)| ==> c !in Clean(pieces)[i]
    decreases |pieces|
  {
    if |pieces| > 0 {
      TrimKeeps(pieces[0], c);
      CleanKeeps(pieces[1..], c);
    }
  }

  /** What `splitAddresses` yields: non-empty, trimmed, comma-free text. */
  predicate IsAddress(x: string) {
    Truthy(x) && Trim(x) == x && ',' !in x
  }

  /** One header value split on commas, trimmed, empties dropped. */
  function SplitOne(s: string): seq<string> {
    Clean(Split(s, ','))
  }

  /** `xs.flatMap(f)`. */
  function FlatMap<T>(xs: seq<string>, f: string -> seq<T>): seq<T>
    decreases |xs|
  {
    if |xs| == 0 then [] else f(xs[0]) + FlatMap(xs[1..], f)
  }

  lemma {:induction false} FlatMapAppend<T>(xs: seq<string>, ys: seq<string>, f: string -> seq<T>)
    ensures FlatMap(xs + ys, f) == FlatMap(xs, f) + FlatMap(ys, f)
    decreases |xs|
  {
    if |xs| == 0 {
      assert xs + ys == ys;
    } else {
      assert (xs + ys)[1..] == xs[1..] + ys;
      FlatMapAppend(xs[1..], ys, f);
    }
  }

  /** `value.flatMap(entry => ...)` over a repeated header. */
  function SplitEach(xs: seq<string>): seq<string> {
    FlatMap(xs, SplitOne)
  }

  lemma SplitOneAddresses(s: string)
    ensures forall i :: 0 <= i < |SplitOne(s)| ==> IsAddress(SplitOne(s)[i])
  {
    CleanKeeps(Split(s, ','), ',');
  }

  lemma {:induction false} SplitEachAddresses(xs: seq<string>)
    ensures forall i :: 0 <= i < |SplitEach(xs)| ==> IsAddress(SplitEach(xs)[i])
    decreases |xs|
  {
    if |xs| > 0 {
      SplitOneAddresses(xs[0]);
      SplitEachAddresses(xs[1..]);
      assert SplitEach(xs) == SplitOne(xs[0]) + SplitEach(xs[1..]);
    }
  }

  /** `splitAddresses(value)`: every address is non-empty, trimmed and free
      of commas. */
  function SplitAddresses(v: Option<HeaderValue>): (r: seq<string>)
    ensures forall i :: 0 <= i < |r| ==> IsAddress(r[i])
    ensures v.None? || v == Some(Scalar("")) ==> r == []
  {
    match v
    case None => []
    case Some(Scalar(s)) => if !Truthy(s) then [] else SplitOneAddresses(s); SplitOne(s)
    case Some(List(xs)) => SplitEachAddresses(xs); SplitEach(xs)
  }

  /** A repeated header's addresses are those of its entries, concatenated. */
  lemma SplitAddressesList(xs: seq<string>, ys: seq<string>)
    ensures SplitAddresses(Some(List(xs + ys))) == SplitAddresses(Some(List(xs))) + SplitAddresses(Some(List(ys)))
    ensures SplitAddresses(Some(List([]))) == []
  {
    FlatMapAppend(xs, ys, SplitOne);
  }

  /** Cleaning pieces that are already non-empty and trimmed keeps them all. */
  lemma {:induction false} CleanNoop(pieces: seq<string>)
    requires forall k :: 0 <= k < |pieces| ==> Truthy(pieces[k]) && Trim(pieces[k]) == pieces[k]
    ensures Clean(pieces) == pieces
    decreases |pieces|
  {
    if |pieces| > 0 {
      var rest := pieces[1..];
      assert forall k :: 0 <= k < |rest| ==> rest[k] == pieces[k + 1];
      CleanNoop(rest);
      assert Truthy(Trim(pieces[0]));
      assert [pieces[0]] + rest == pieces;
    }
  }

  /** Joining clean addresses with commas and splitting again gives them back. */
  lemma SplitAddressesJoin(addrs: seq<string>)
    requires |addrs| >= 1
    requires forall k :: 0 <= k < |addrs| ==> IsAddress(addrs[k])
    ensures SplitAddresses(Some(Scalar(Join(addrs, ',')))) == addrs
  {
    JoinLength(addrs, ',');
    SplitJoin(addrs, ',');
    CleanNoop(addrs);
  }

  lemma {:induction false} JoinLength(pieces: seq<string>, sep: char)
    requires |pieces| >= 1
    ensures |Join(pieces, sep)| >= |pieces[0]|
  {
  }

  // ===========================================================================
  // Message fields
  // ===========================================================================

  function HeaderOf(headers: HeaderMap, k: string): Option<HeaderValue> {
    if k in headers then Some(headers[k]) else None
  }

  /** `String(h ?? '')` for a header value: a list prints comma-joined. */
  function HeaderText(v: HeaderValue): string {
    match v
    case Scalar(s) => s
    case List(xs) => Join(xs, ',')
  }

  /** `String((parsed.headers['from'] ?? '') || '')`. */
  function FromAddress(headers: HeaderMap): (r: string)
    ensures "from" !in headers ==> r == ""
    ensures "from" in headers && headers["from"].Scalar? ==> r == headers["from"].text
    ensures "from" in headers && headers["from"].List? ==> r == Join(headers["from"].items, ',')
  {
    match HeaderOf(headers, "from")
    case None => ""
    case Some(v) => HeaderText(v)
  }

  /** `String((parsed.headers['subject'] ?? message.snippet ?? '') || '')`: a
      subject header, even an empty one, shadows the snippet. */
  function SubjectLine(headers: HeaderMap, snippet: Option<string>): string {
    match HeaderOf(headers, "subject")
    case Some(v) => HeaderText(v)
    case None => snippet.GetOr("")
  }

  /** `subjectHeader || '(no subject)'`: the subject header, else the
      snippet, else the placeholder; never empty. */
  function ConversationSubject(headers: HeaderMap, snippet: Option<string>): (r: string)
    ensures Truthy(r)
    ensures "subject" in headers && headers["subject"] == Scalar("") ==> r == NoSubject
    ensures "subject" in headers && headers["subject"].Scalar? && Truthy(headers["subject"].text) ==> r == headers["subject"].text
    ensures "subject" !in headers && snippet.Some? && Truthy(snippet.value) ==> r == snippet.value
    ensures "subject" !in headers && !Set(snippet) ==> r == NoSubject
    ensures ("subject" in headers && headers["subject"].List? && |headers["subject"].items| > 0
             && Truthy(headers["subject"].items[0])) ==> r == Join(headers["subject"].items, ',')
    ensures "subject" in headers && headers["subject"].List? && !Truthy(Join(headers["subject"].items, ',')) ==> r == NoSubject
  {
    var s := SubjectLine(headers, snippet);
    assert "subject" in headers && headers["subject"].List? && |headers["subject"].items| > 0 ==>
             |Join(headers["subject"].items, ',')| >= |headers["subject"].items[0]| by {
      if "subject" in headers && headers["subject"].List? && |headers["subject"].items| > 0 {
        JoinLength(headers["subject"].items, ',');
      }
    }
    if Truthy(s) then s else NoSubject
  }

  /** `(message.snippet ?? '').slice(0, 200)`. */
  function Preview(snippet: Option<string>): (r: string)
    ensures |r| <= PreviewLength
    ensures r <= snippet.GetOr("")
    ensures |snippet.GetOr("")| <= PreviewLength ==> r == snippet.GetOr("")
    ensures |snippet.GetOr("")| > PreviewLength ==> r == snippet.GetOr("")[..PreviewLength]
  {
    Prefix(snippet.GetOr(""), PreviewLength)
  }

  // ===========================================================================
  // Refresh predicate and watermark
  // ===========================================================================

  /** `!token.access_token || (token.expiry_date && token.expiry_date < Date.now() + 60_000)`;
      an expiry of 0 is falsy. */
  predicate NeedsRefresh(token: Token, now: int) {
    || !Set(token.accessToken)
    || (token.expiryDate.Some? && token.expiryDate.value != 0 && token.expiryDate.value < now + RefreshMarginMs)
  }

  /** Once due, a refresh stays due as time passes; a token with an access
      token and no expiry is never refreshed. */
  lemma NeedsRefreshMonotone(token: Token, now: int, later: int)
    requires now <= later
    ensures NeedsRefresh(token, now) ==> NeedsRefresh(token, later)
    ensures Set(token.accessToken) && token.expiryDate.None? ==> !NeedsRefresh(token, later)
  {
  }

  /** A token with an access token that expires in 30 seconds is refreshed;
      one that expires in two minutes is not. */
  lemma NeedsRefreshExamples(token: Token, now: int)
    requires Set(token.accessToken) && now > 0
    ensures NeedsRefresh(token.(expiryDate := Some(now + 30000)), now)
    ensures !NeedsRefresh(token.(expiryDate := Some(now + 120000)), now)
  {
  }

  /** `since`, in seconds: the checkpoint rounded down, or three days before now. */
  function Since(lastSyncedAt: Option<int>, now: int): (r: int)
    ensures lastSyncedAt.Some? ==> r * 1000 <= lastSyncedAt.value < r * 1000 + 1000
    ensures lastSyncedAt.None? ==> (r + LookBackSeconds) * 1000 <= now < (r + LookBackSeconds) * 1000 + 1000
  {
    match lastSyncedAt
    case Some(t) => t / 1000
    case None => now / 1000 - LookBackSeconds
  }

  // ===========================================================================
  // Attachment keys
  // ===========================================================================

  /** `${message.id}-${attachment.attachmentId}`. */
  function AttachmentRecordId(messageId: string, attachmentId: string): string {
    messageId + "-" + attachmentId
  }

  /** `${inbox.id}/${message.id}/${attachment.attachmentId}`. */
  function StoragePath(inboxId: string, messageId: string, attachmentId: string): string {
    inboxId + "/" + messageId + "/" + attachmentId
  }

  /** The index of the first `c` in `s`, or `|s|`. */
  function FirstIndex(s: string, c: char): nat
    decreases |s|
  {
    if |s| == 0 then 0 else if s[0] == c then 0 else 1 + FirstIndex(s[1..], c)
  }

  lemma {:induction false} FirstIndexSeparated(a: string, b: string, sep: char)
    requires sep !in a
    ensures FirstIndex(a + [sep] + b, sep) == |a|
    decreases |a|
  {
    if |a| > 0 {
      assert (a + [sep] + b)[1..] == a[1..] + [sep] + b;
      FirstIndexSeparated(a[1..], b, sep);
    }
  }

  /** Two strings joined by a separator the first one lacks split apart again. */
  lemma SeparatedInjective(a1: string, b1: string, a2: string, b2: string, sep: char)
    requires sep !in a1 && sep !in a2
    requires a1 + [sep] + b1 == a2 + [sep] + b2
    ensures a1 == a2 && b1 == b2
  {
    var s := a1 + [sep] + b1;
    FirstIndexSeparated(a1, b1, sep);
    FirstIndexSeparated(a2, b2, sep);
    assert a1 == s[..|a1|] == a2;
    assert b1 == s[|a1| + 1..] == b2;
  }

  /** Gmail message ids are hexadecimal, so they hold no `-`: distinct
      (message, attachment) pairs get distinct record ids. */
  lemma AttachmentRecordIdInjective(m1: string, a1: string, m2: string, a2: string)
    requires '-' !in m1 && '-' !in m2
    ensures AttachmentRecordId(m1, a1) == AttachmentRecordId(m2, a2) <==> m1 == m2 && a1 == a2
  {
    if AttachmentRecordId(m1, a1) == AttachmentRecordId(m2, a2) {
      SeparatedInjective(m1, a1, m2, a2, '-');
    }
  }

  /** Inbox ids (UUIDs) and message ids hold no `/`: distinct triples get
      distinct storage paths. */
  lemma StoragePathInjective(i1: string, m1: string, a1: string, i2: string, m2: string, a2: string)
    requires '/' !in i1 && '/' !in i2 && '/' !in m1 && '/' !in m2
    ensures StoragePath(i1, m1, a1) == StoragePath(i2, m2, a2) <==> i1 == i2 && m1 == m2 && a1 == a2
  {
    if StoragePath(i1, m1, a1) == StoragePath(i2, m2, a2) {
      assert StoragePath(i1, m1, a1) == i1 + "/" + (m1 + "/" + a1);
      assert StoragePath(i2, m2, a2) == i2 + "/" + (m2 + "/" + a2);
      SeparatedInjective(i1, m1 + "/" + a1, i2, m2 + "/" + a2, '/');
      SeparatedInjective(m1, a1, m2, a2, '/');
    }
  }

  // ===========================================================================
  // The provider and the run's state
  // ===========================================================================

  /** The Gmail and OAuth endpoints, answering for the credentials passed:
      `messages.list` (query `after:<since>`, a `maxResults`), `messages.get`,
      `messages.attachments.get` (the attachment's `data`, possibly absent)
      and the token refresh. */
  datatype Mailbox = Mailbox(
    list: (Token, int, nat) -> Result<seq<Option<string>>, ProviderError>,
    get: (Token, string) -> Result<GmailMessage, ProviderError>,
    attachment: (Token, string, string) -> Result<Option<string>, ProviderError>,
    refresh: Token -> Result<Credentials, ProviderError>)
  {
    /** The listing never returns more ids than `maxResults`. */
    ghost predicate Valid() {
      forall t, since, max :: list(t, since, max).Success? ==> |list(t, since, max).value| <= max
    }
  }

  type Iv = b: Bytes | |b| == IvLength witness seq(IvLength, _ => 0 as Byte)

  /** `crypto.randomUUID()` (the `n`-th id drawn) and `randomBytes(IV_LENGTH)`
      for the token re-encryption of a refresh (per inbox). */
  datatype Entropy = Entropy(uuid: nat -> string, iv: string -> Iv)

  /** The store, the number of ids drawn, and the error that ended the
      request, if one did. */
  datatype Step = Step(store: Store, drawn: nat, failure: Option<VaultError>)

  /** A message the route processes: it has a thread id and a payload. */
  predicate Processable(m: GmailMessage) {
    Set(m.threadId) && m.payload.Some?
  }

  // ===========================================================================
  // One message
  // ===========================================================================

  /** Find the conversation by thread id or create it (status open, no
      assignee), then update subject, preview and `last_customer_msg_at`.
      Returns the conversations and the ids drawn. */
  function TouchConversation(convs: map<string, ConversationRow>, drawn: nat, uuid: nat -> string, inboxId: string,
                             threadId: string, subject: string, preview: string, at: int): (r: (map<string, ConversationRow>, nat))
    ensures r.0.Keys == convs.Keys + {threadId}
    ensures forall k :: k in convs && k != threadId ==> r.0[k] == convs[k]
    ensures threadId in convs ==> r.1 == drawn && r.0[threadId] == convs[threadId].(subject := subject, preview := preview, lastCustomerMsgAt := at)
    ensures threadId !in convs ==> r.1 == drawn + 1 && r.0[threadId] == ConversationRow(uuid(drawn), inboxId, threadId, subject, Open, None, preview, at, None)
  {
    var (created, drawn1) :=
      if threadId in convs then (convs, drawn)
      else (convs[threadId := ConversationRow(uuid(drawn), inboxId, threadId, subject, Open, None, preview, at, None)], drawn + 1);
    (created[threadId := created[threadId].(subject := subject, preview := preview, lastCustomerMsgAt := at)], drawn1)
  }

  /** The message row the route upserts. */
  function MessageRowOf(rowId: string, conversationId: string, m: GmailMessage, parsed: ParsedMessage): (r: MessageRow)
    ensures r.gmailMessageId == m.id && r.id == rowId && r.conversationId == conversationId
    ensures r.hasAttachments <==> |parsed.attachments| > 0
    ensures r.fromAddr == FromAddress(parsed.headers) && r.toAddrs == SplitAddresses(HeaderOf(parsed.headers, "to"))
  {
    MessageRow(rowId, conversationId, m.id,
               FromAddress(parsed.headers),
               SplitAddresses(HeaderOf(parsed.headers, "to")),
               SplitAddresses(HeaderOf(parsed.headers, "cc")),
               SplitAddresses(HeaderOf(parsed.headers, "bcc")),
               m.internalDate, parsed.bodyHtml, parsed.bodyText, parsed.headers,
               |parsed.attachments| > 0)
  }

  /** The blob and the row one fetched attachment produces. */
  function SaveAttachment(store: Store, inboxId: string, gmailId: string, rowId: string,
                          att: AttachmentInfo, data: string, prims: Primitives): Store
  {
    var path := StoragePath(inboxId, gmailId, att.attachmentId);
    var recordId := AttachmentRecordId(gmailId, att.attachmentId);
    store.(blobs := store.blobs[path := Blob(prims.base64.decode(data), att.mimeType)],
           attachments := store.attachments[recordId := AttachmentRow(recordId, rowId, att.filename, att.mimeType, att.size, path)])
  }

  /** The attachment loop: fetch each attachment in order, skip one whose
      data is empty, store the blob and upsert the row on its record id. A
      failed fetch ends the loop (and the request). */
  function StoreAttachments(store: Store, token: Token, inboxId: string, gmailId: string, rowId: string,
                            atts: seq<AttachmentInfo>, box: Mailbox, prims: Primitives): (r: Step)
    ensures r.drawn == 0
    ensures r.store.(attachments := store.attachments, blobs := store.blobs) == store
    ensures store.attachments.Keys <= r.store.attachments.Keys
    ensures r.store.attachments.Keys <= store.attachments.Keys + AttachmentKeys(token, gmailId, atts, box)
    ensures r.failure.None? <==> AllFetched(token, gmailId, atts, box)
    ensures r.failure.None? ==> r.store.attachments.Keys == store.attachments.Keys + AttachmentKeys(token, gmailId, atts, box)
    decreases |atts|
  {
    if |atts| == 0 then Step(store, 0, None)
    else
      var att := atts[0];
      match box.attachment(token, gmailId, att.attachmentId)
      case Failure(e) => Step(store, 0, Some(Provider(e)))
      case Success(data) =>
        var store1 := if Set(data) then SaveAttachment(store, inboxId, gmailId, rowId, att, data.value, prims) else store;
        StoreAttachments(store1, token, inboxId, gmailId, rowId, atts[1..], box, prims)
  }

  /** Every attachment fetch succeeds. */
  predicate AllFetched(token: Token, gmailId: string, atts: seq<AttachmentInfo>, box: Mailbox) {
    forall i :: 0 <= i < |atts| ==> box.attachment(token, gmailId, atts[i].attachmentId).Success?
  }

  /** The record ids of the attachments whose fetch returns data. */
  function AttachmentKeys(token: Token, gmailId: string, atts: seq<AttachmentInfo>, box: Mailbox): set<string>
    decreases |atts|
  {
    if |atts| == 0 then {}
    else
      var fetched := box.attachment(token, gmailId, atts[0].attachmentId);
      (if fetched.Success? && Set(fetched.value) then {AttachmentRecordId(gmailId, atts[0].attachmentId)} else {})
      + AttachmentKeys(token, gmailId, atts[1..], box)
  }

  /** The rows and blobs the attachment loop writes when every fetch
      succeeds, a later attachment overriding an earlier one. */
  function AttachmentWrites(inboxId: string, token: Token, gmailId: string, rowId: string,
                            atts: seq<AttachmentInfo>, box: Mailbox, prims: Primitives): (w: (map<string, AttachmentRow>, map<string, Blob>))
    decreases |atts|
  {
    if |atts| == 0 then (map[], map[])
    else
      var att := atts[0];
      var rest := AttachmentWrites(inboxId, token, gmailId, rowId, atts[1..], box, prims);
      var fetched := box.attachment(token, gmailId, att.attachmentId);
      if fetched.Success? && Set(fetched.value) then
        var one := SaveAttachment(Store(map[], map[], map[], map[], map[]), inboxId, gmailId, rowId, att, fetched.value.value, prims);
        (one.attachments + rest.0, one.blobs + rest.1)
      else rest
  }

  /** When every fetch succeeds the loop overlays a fixed set of writes,
      whatever the store held before. */
  lemma {:induction false} StoreAttachmentsOverlay(store: Store, token: Token, inboxId: string, gmailId: string, rowId: string,
                                                   atts: seq<AttachmentInfo>, box: Mailbox, prims: Primitives)
    requires AllFetched(token, gmailId, atts, box)
    ensures var w := AttachmentWrites(inboxId, token, gmailId, rowId, atts, box, prims);
            StoreAttachments(store, token, inboxId, gmailId, rowId, atts, box, prims)
            == Step(store.(attachments := store.attachments + w.0, blobs := store.blobs + w.1), 0, None)
    decreases |atts|
  {
    if |atts| == 0 {
      assert store.attachments + map[] == store.attachments;
      assert store.blobs + map[] == store.blobs;
    } else {
      var att := atts[0];
      var fetched := box.attachment(token, gmailId, att.attachmentId);
      assert fetched.Success?;
      var store1 := if Set(fetched.value) then SaveAttachment(store, inboxId, gmailId, rowId, att, fetched.value.value, prims) else store;
      AllFetchedTail(token, gmailId, atts, box);
      StoreAttachmentsOverlay(store1, token, inboxId, gmailId, rowId, atts[1..], box, prims);
      var rest := AttachmentWrites(inboxId, token, gmailId, rowId, atts[1..], box, prims);
      if Set(fetched.value) {
        var one := SaveAttachment(Store(map[], map[], map[], map[], map[]), inboxId, gmailId, rowId, att, fetched.value.value, prims);
        SaveAttachmentOverlay(store, inboxId, gmailId, rowId, att, fetched.value.value, prims);
        MapOverlayAssoc(store.attachments, one.attachments, rest.0);
        MapOverlayAssoc(store.blobs, one.blobs, rest.1);
      }
    }
  }

  lemma AllFetchedTail(token: Token, gmailId: string, atts: seq<AttachmentInfo>, box: Mailbox)
    requires |atts| > 0 && AllFetched(token, gmailId, atts, box)
    ensures AllFetched(token, gmailId, atts[1..], box)
  {
    forall i | 0 <= i < |atts[1..]|
      ensures box.attachment(token, gmailId, atts[1..][i].attachmentId).Success?
    {
      assert atts[1..][i] == atts[i + 1];
    }
  }

  /** Saving one attachment overlays its row and blob on the store. */
  lemma SaveAttachmentOverlay(store: Store, inboxId: string, gmailId: string, rowId: string,
                              att: AttachmentInfo, data: string, prims: Primitives)
    ensures var one := SaveAttachment(Store(map[], map[], map[], map[], map[]), inboxId, gmailId, rowId, att, data, prims);
            SaveAttachment(store, inboxId, gmailId, rowId, att, data, prims)
            == store.(attachments := store.attachments + one.attachments, blobs := store.blobs + one.blobs)
  {
  }

  lemma MapOverlayAssoc<K, V>(a: map<K, V>, b: map<K, V>, c: map<K, V>)
    ensures (a + b) + c == a + (b + c)
  {
  }

  lemma MapOverlayTwice<K, V>(a: map<K, V>, b: map<K, V>)
    ensures (a + b) + b == a + b
  {
  }

  /** The message `messages.get` returns for `messageId` when the route
      processes it (the call succeeds, and it has a thread id and a payload). */
  function Fetched(token: Token, messageId: string, box: Mailbox): (r: Option<GmailMessage>)
    ensures r.Some? ==> Processable(r.value)
  {
    match box.get(token, messageId)
    case Success(m) => if Processable(m) then Some(m) else None
    case Failure(_) => None
  }

  /** The attachment descriptors of a processed message. */
  function AttachmentsOf(m: GmailMessage, prims: Primitives): seq<AttachmentInfo>
    requires Processable(m)
  {
    ParseGmailPayload(m.payload.value, prims).attachments
  }

  /** Processing a message id ends without error: `messages.get` succeeds
      and, if the message is processed, so does every attachment fetch. Only
      the provider decides this, never the store. */
  predicate MessageCompletes(token: Token, messageId: string, box: Mailbox, prims: Primitives) {
    && box.get(token, messageId).Success?
    && (Fetched(token, messageId, box).Some? ==>
          var m := Fetched(token, messageId, box).value;
          AllFetched(token, m.id, AttachmentsOf(m, prims), box))
  }

  /** The conversation and message upserts of a processed message: its
      thread's conversation is created if missing (open, unassigned) and then
      updated in exactly its subject, preview and `last_customer_msg_at`; its
      message row is upserted on the Gmail id, keeping the row id it already
      had. Returns the store, the ids drawn and the message row's id. */
  function UpsertMessage(store: Store, drawn: nat, inboxId: string, m: GmailMessage, parsed: ParsedMessage,
                         uuid: nat -> string): (r: (Store, nat, string))
    requires Processable(m)
    ensures var (s, d, rowId) := r;
            var t := m.threadId.value;
            && s.(conversations := store.conversations, messages := store.messages) == store
            && d + |store.conversations| + |store.messages| == drawn + |s.conversations| + |s.messages|
            && s.conversations.Keys == store.conversations.Keys + {t}
            && s.messages.Keys == store.messages.Keys + {m.id}
            && (forall k :: k in store.conversations && k != t ==> s.conversations[k] == store.conversations[k])
            && (forall k :: k in store.messages && k != m.id ==> s.messages[k] == store.messages[k])
            && s.conversations[t].subject == ConversationSubject(parsed.headers, m.snippet)
            && s.conversations[t].preview == Preview(m.snippet)
            && s.conversations[t].lastCustomerMsgAt == m.internalDate
            && (t in store.conversations ==>
                  s.conversations[t] == store.conversations[t].(subject := s.conversations[t].subject,
                                                                preview := s.conversations[t].preview,
                                                                lastCustomerMsgAt := m.internalDate))
            && (t !in store.conversations ==>
                  s.conversations[t].status == Open && s.conversations[t].assigneeId.None?
                  && s.conversations[t].inboxId == inboxId && s.conversations[t].lastAgentMsgAt.None?)
            && s.messages[m.id] == MessageRowOf(rowId, s.conversations[t].id, m, parsed)
            && s.messages[m.id].id == rowId
            && (m.id in store.messages ==> rowId == store.messages[m.id].id)
            && s.messages[m.id].conversationId == s.conversations[t].id
            && s.messages[m.id].gmailMessageId == m.id
            && (s.messages[m.id].hasAttachments <==> |parsed.attachments| > 0)
  {
    var threadId := m.threadId.value;
    var (convs, drawn1) := TouchConversation(store.conversations, drawn, uuid, inboxId, threadId,
                                             ConversationSubject(parsed.headers, m.snippet), Preview(m.snippet), m.internalDate);
    var (rowId, drawn2) := if m.id in store.messages then (store.messages[m.id].id, drawn1) else (uuid(drawn1), drawn1 + 1);
    (store.(conversations := convs, messages := store.messages[m.id := MessageRowOf(rowId, convs[threadId].id, m, parsed)]),
     drawn2, rowId)
  }

  /** Everything the route does for a message it processes: the upserts,
      then the attachment loop, which alone can fail. */
  function ProcessFetched(store: Store, drawn: nat, token: Token, inboxId: string, m: GmailMessage,
                          box: Mailbox, uuid: nat -> string, prims: Primitives): (r: Step)
    requires Processable(m)
    ensures var t := m.threadId.value;
            var u := UpsertMessage(store, drawn, inboxId, m, ParseGmailPayload(m.payload.value, prims), uuid).0;
            && r.drawn + |store.conversations| + |store.messages| == drawn + |r.store.conversations| + |r.store.messages|
            && r.store.inboxes == store.inboxes
            && r.store.conversations == u.conversations
            && r.store.messages == u.messages
            && (r.failure.None? <==> AllFetched(token, m.id, AttachmentsOf(m, prims), box))
            && store.attachments.Keys <= r.store.attachments.Keys
            && r.store.attachments.Keys <= store.attachments.Keys + AttachmentKeys(token, m.id, AttachmentsOf(m, prims), box)
            && (r.failure.None? ==>
                  r.store.attachments.Keys == store.attachments.Keys + AttachmentKeys(token, m.id, AttachmentsOf(m, prims), box))
  {
    var parsed := ParseGmailPayload(m.payload.value, prims);
    var (store1, drawn1, rowId) := UpsertMessage(store, drawn, inboxId, m, parsed, uuid);
    var written := StoreAttachments(store1, token, inboxId, m.id, rowId, parsed.attachments, box, prims);
    Step(written.store, drawn1, written.failure)
  }

  /** `messages.get` and the work for one listed message id. A message
      without thread id or payload writes nothing; a failed call ends the
      request. */
  function ProcessMessage(store: Store, drawn: nat, token: Token, inboxId: string, messageId: string,
                          box: Mailbox, uuid: nat -> string, prims: Primitives): (r: Step)
    ensures box.get(token, messageId).Failure? ==> r == Step(store, drawn, Some(Provider(box.get(token, messageId).error)))
    ensures box.get(token, messageId).Success? && !Processable(box.get(token, messageId).value) ==> r == Step(store, drawn, None)
    ensures r.store.inboxes == store.inboxes
    ensures r.failure.None? <==> MessageCompletes(token, messageId, box, prims)
    ensures r.drawn + |store.conversations| + |store.messages| == drawn + |r.store.conversations| + |r.store.messages|
  {
    match box.get(token, messageId)
    case Failure(e) => Step(store, drawn, Some(Provider(e)))
    case Success(m) =>
      if !Processable(m) then Step(store, drawn, None)
      else ProcessFetched(store, drawn, token, inboxId, m, box, uuid, prims)
  }

  /** Processing the same message again on the store it produced writes the
      same values back and draws no new id: the upserts are keyed by thread
      id, Gmail message id and attachment record id, and the message row
      keeps its id. */
  lemma ProcessFetchedIdempotent(store: Store, drawn: nat, token: Token, inboxId: string, m: GmailMessage,
                                 box: Mailbox, uuid: nat -> string, prims: Primitives)
    requires Processable(m)
    requires ProcessFetched(store, drawn, token, inboxId, m, box, uuid, prims).failure.None?
    ensures var r := ProcessFetched(store, drawn, token, inboxId, m, box, uuid, prims);
            ProcessFetched(r.store, r.drawn, token, inboxId, m, box, uuid, prims) == r
  {
    var r := ProcessFetched(store, drawn, token, inboxId, m, box, uuid, prims);
    var parsed := ParseGmailPayload(m.payload.value, prims);
    var (store1, drawn1, rowId) := UpsertMessage(store, drawn, inboxId, m, parsed, uuid);
    StoreAttachmentsOverlay(store1, token, inboxId, m.id, rowId, parsed.attachments, box, prims);
    var w := AttachmentWrites(inboxId, token, m.id, rowId, parsed.attachments, box, prims);
    assert r == Step(store1.(attachments := store1.attachments + w.0, blobs := store1.blobs + w.1), drawn1, None);
    UpsertMessageIdempotent(store, drawn, inboxId, m, parsed, uuid);
    UpsertMessageFrame(store1, r.store, drawn1, inboxId, m, parsed, uuid);
    StoreAttachmentsOverlay(r.store, token, inboxId, m.id, rowId, parsed.attachments, box, prims);
    MapOverlayTwice(store1.attachments, w.0);
    MapOverlayTwice(store1.blobs, w.1);
  }

  /** A second upsert of the same message leaves the conversations and
      messages as they are and draws nothing. */
  lemma UpsertMessageIdempotent(store: Store, drawn: nat, inboxId: string, m: GmailMessage, parsed: ParsedMessage,
                                uuid: nat -> string)
    requires Processable(m)
    ensures var (s, d, rowId) := UpsertMessage(store, drawn, inboxId, m, parsed, uuid);
            UpsertMessage(s, d, inboxId, m, parsed, uuid) == (s, d, rowId)
  {
    var (s, d, rowId) := UpsertMessage(store, drawn, inboxId, m, parsed, uuid);
    var (s2, d2, rowId2) := UpsertMessage(s, d, inboxId, m, parsed, uuid);
    var t := m.threadId.value;
    assert s2.conversations[t] == s.conversations[t];
    assert s2.conversations == s.conversations;
    assert rowId2 == rowId;
    assert s2.messages[m.id] == s.messages[m.id];
    assert s2.messages == s.messages;
  }

  /** The upserts read only the conversations and messages, and write
      only them. */
  lemma UpsertMessageFrame(a: Store, b: Store, drawn: nat, inboxId: string, m: GmailMessage, parsed: ParsedMessage,
                           uuid: nat -> string)
    requires Processable(m)
    requires a.conversations == b.conversations && a.messages == b.messages
    ensures var (s, d, rowId) := UpsertMessage(a, drawn, inboxId, m, parsed, uuid);
            UpsertMessage(b, drawn, inboxId, m, parsed, uuid) == (b.(conversations := s.conversations, messages := s.messages), d, rowId)
  {
  }

  // ===========================================================================
  // The message loop
  // ===========================================================================

  /** The listed ids in order; a failure ends the loop and the request. */
  function ProcessMessages(store: Store, drawn: nat, token: Token, inboxId: string, ids: seq<string>,
                           box: Mailbox, uuid: nat -> string, prims: Primitives): (r: Step)
    ensures r.store.inboxes == store.inboxes
    ensures r.drawn + |store.conversations| + |store.messages| == drawn + |r.store.conversations| + |r.store.messages|
    ensures r.failure.None? <==> Completes(token, ids, box, prims)
    decreases |ids|
  {
    if |ids| == 0 then Step(store, drawn, None)
    else
      var one := ProcessMessage(store, drawn, token, inboxId, ids[0], box, uuid, prims);
      CompletesCons(token, ids, box, prims);
      if one.failure.Some? then one
      else ProcessMessages(one.store, one.drawn, token, inboxId, ids[1..], box, uuid, prims)
  }

  /** The conversations the loop adds: only those of the listed messages'
      threads, and, when it completes, exactly those, whatever the store held. */
  lemma {:induction false} ProcessMessagesThreads(store: Store, drawn: nat, token: Token, inboxId: string, ids: seq<string>,
                                                  box: Mailbox, uuid: nat -> string, prims: Primitives)
    ensures var r := ProcessMessages(store, drawn, token, inboxId, ids, box, uuid, prims);
            && store.conversations.Keys <= r.store.conversations.Keys <= store.conversations.Keys + ThreadsOf(token, ids, box)
            && (r.failure.None? ==> r.store.conversations.Keys == store.conversations.Keys + ThreadsOf(token, ids, box))
    decreases |ids|
  {
    if |ids| > 0 {
      var one := ProcessMessage(store, drawn, token, inboxId, ids[0], box, uuid, prims);
      ProcessMessageThreadKeys(store, drawn, token, inboxId, ids[0], box, uuid, prims);
      ProcessMessagesUnfold(store, drawn, token, inboxId, ids, box, uuid, prims);
      var mine := ThreadOf(token, ids[0], box);
      assert ThreadsOf(token, ids, box) == mine + ThreadsOf(token, ids[1..], box);
      if one.failure.None? {
        ProcessMessagesThreads(one.store, one.drawn, token, inboxId, ids[1..], box, uuid, prims);
        var rest := ProcessMessages(one.store, one.drawn, token, inboxId, ids[1..], box, uuid, prims);
        SetChain(store.conversations.Keys, one.store.conversations.Keys, rest.store.conversations.Keys, mine, ThreadsOf(token, ids[1..], box), rest.failure.None?);
      }
    }
  }

  /** The message rows the loop adds, likewise. */
  lemma {:induction false} ProcessMessagesMessages(store: Store, drawn: nat, token: Token, inboxId: string, ids: seq<string>,
                                                   box: Mailbox, uuid: nat -> string, prims: Primitives)
    ensures var r := ProcessMessages(store, drawn, token, inboxId, ids, box, uuid, prims);
            && store.messages.Keys <= r.store.messages.Keys <= store.messages.Keys + MessageIdsOf(token, ids, box)
            && (r.failure.None? ==> r.store.messages.Keys == store.messages.Keys + MessageIdsOf(token, ids, box))
    decreases |ids|
  {
    if |ids| > 0 {
      var one := ProcessMessage(store, drawn, token, inboxId, ids[0], box, uuid, prims);
      ProcessMessageMessageKeys(store, drawn, token, inboxId, ids[0], box, uuid, prims);
      ProcessMessagesUnfold(store, drawn, token, inboxId, ids, box, uuid, prims);
      var mine := MessageIdOf(token, ids[0], box);
      assert MessageIdsOf(token, ids, box) == mine + MessageIdsOf(token, ids[1..], box);
      if one.failure.None? {
        ProcessMessagesMessages(one.store, one.drawn, token, inboxId, ids[1..], box, uuid, prims);
        var rest := ProcessMessages(one.store, one.drawn, token, inboxId, ids[1..], box, uuid, prims);
        SetChain(store.messages.Keys, one.store.messages.Keys, rest.store.messages.Keys, mine, MessageIdsOf(token, ids[1..], box), rest.failure.None?);
      }
    }
  }

  /** The attachment rows the loop adds, likewise. */
  lemma {:induction false} ProcessMessagesAttachments(store: Store, drawn: nat, token: Token, inboxId: string, ids: seq<string>,
                                                      box: Mailbox, uuid: nat -> string, prims: Primitives)
    ensures var r := ProcessMessages(store, drawn, token, inboxId, ids, box, uuid, prims);
            && store.attachments.Keys <= r.store.attachments.Keys <= store.attachments.Keys + AttachmentKeysOf(token, ids, box, prims)
            && (r.failure.None? ==> r.store.attachments.Keys == store.attachments.Keys + AttachmentKeysOf(token, ids, box, prims))
    decreases |ids|
  {
    if |ids| > 0 {
      var one := ProcessMessage(store, drawn, token, inboxId, ids[0], box, uuid, prims);
      ProcessMessageAttachmentKeys(store, drawn, token, inboxId, ids[0], box, uuid, prims);
      ProcessMessagesUnfold(store, drawn, token, inboxId, ids, box, uuid, prims);
      var mine := AttachmentKeysOne(token, ids[0], box, prims);
      assert AttachmentKeysOf(token, ids, box, prims) == mine + AttachmentKeysOf(token, ids[1..], box, prims);
      if one.failure.None? {
        ProcessMessagesAttachments(one.store, one.drawn, token, inboxId, ids[1..], box, uuid, prims);
        var rest := ProcessMessages(one.store, one.drawn, token, inboxId, ids[1..], box, uuid, prims);
        SetChain(store.attachments.Keys, one.store.attachments.Keys, rest.store.attachments.Keys,
                 mine, AttachmentKeysOf(token, ids[1..], box, prims), rest.failure.None?);
      }
    }
  }

  /** One turn of the message loop. */
  lemma ProcessMessagesUnfold(store: Store, drawn: nat, token: Token, inboxId: string, ids: seq<string>,
                              box: Mailbox, uuid: nat -> string, prims: Primitives)
    requires |ids| > 0
    ensures var one := ProcessMessage(store, drawn, token, inboxId, ids[0], box, uuid, prims);
            ProcessMessages(store, drawn, token, inboxId, ids, box, uuid, prims)
            == if one.failure.Some? then one else ProcessMessages(one.store, one.drawn, token, inboxId, ids[1..], box, uuid, prims)
  {
  }

  /** Growth bounds compose along two steps. */
  lemma SetChain<T>(a: set<T>, b: set<T>, c: set<T>, mine: set<T>, later: set<T>, exact: bool)
    requires a <= b <= a + mine && b <= c <= b + later
    requires exact ==> b == a + mine && c == b + later
    ensures a <= c <= a + (mine + later)
    ensures exact ==> c == a + (mine + later)
  {
  }

  /** The rows one message id adds, in terms of what the provider returns. */
  /** The conversation keys one listed id adds. */
  lemma ProcessMessageThreadKeys(store: Store, drawn: nat, token: Token, inboxId: string, messageId: string,
                                 box: Mailbox, uuid: nat -> string, prims: Primitives)
    ensures ProcessMessage(store, drawn, token, inboxId, messageId, box, uuid, prims).store.conversations.Keys
            == store.conversations.Keys + ThreadOf(token, messageId, box)
  {
    var f := Fetched(token, messageId, box);
    if f.Some? {
      ProcessMessageFetched(store, drawn, token, inboxId, messageId, box, uuid, prims);
      ProcessFetchedKeys(store, drawn, token, inboxId, f.value, box, uuid, prims);
    } else {
      ProcessMessageSkipped(store, drawn, token, inboxId, messageId, box, uuid, prims);
    }
  }

  /** The message keys one listed id adds. */
  lemma ProcessMessageMessageKeys(store: Store, drawn: nat, token: Token, inboxId: string, messageId: string,
                                  box: Mailbox, uuid: nat -> string, prims: Primitives)
    ensures ProcessMessage(store, drawn, token, inboxId, messageId, box, uuid, prims).store.messages.Keys
            == store.messages.Keys + MessageIdOf(token, messageId, box)
  {
    var f := Fetched(token, messageId, box);
    if f.Some? {
      ProcessMessageFetched(store, drawn, token, inboxId, messageId, box, uuid, prims);
      ProcessFetchedKeys(store, drawn, token, inboxId, f.value, box, uuid, prims);
    } else {
      ProcessMessageSkipped(store, drawn, token, inboxId, messageId, box, uuid, prims);
    }
  }

  /** The attachment keys one listed id adds: at most its own, all of them
      when it completes. */
  lemma ProcessMessageAttachmentKeys(store: Store, drawn: nat, token: Token, inboxId: string, messageId: string,
                                     box: Mailbox, uuid: nat -> string, prims: Primitives)
    ensures var r := ProcessMessage(store, drawn, token, inboxId, messageId, box, uuid, prims);
            && store.attachments.Keys <= r.store.attachments.Keys
            && r.store.attachments.Keys <= store.attachments.Keys + AttachmentKeysOne(token, messageId, box, prims)
            && (r.failure.None? ==>
                  r.store.attachments.Keys == store.attachments.Keys + AttachmentKeysOne(token, messageId, box, prims))
  {
    var f := Fetched(token, messageId, box);
    if f.Some? {
      ProcessMessageFetched(store, drawn, token, inboxId, messageId, box, uuid, prims);
    } else {
      ProcessMessageSkipped(store, drawn, token, inboxId, messageId, box, uuid, prims);
    }
  }

  /** A listed id whose message is processed goes through `ProcessFetched`. */
  lemma ProcessMessageFetched(store: Store, drawn: nat, token: Token, inboxId: string, messageId: string,
                              box: Mailbox, uuid: nat -> string, prims: Primitives)
    requires Fetched(token, messageId, box).Some?
    ensures ProcessMessage(store, drawn, token, inboxId, messageId, box, uuid, prims)
            == ProcessFetched(store, drawn, token, inboxId, Fetched(token, messageId, box).value, box, uuid, prims)
  {
  }

  /** A listed id whose message is not processed leaves the store as it was. */
  lemma ProcessMessageSkipped(store: Store, drawn: nat, token: Token, inboxId: string, messageId: string,
                              box: Mailbox, uuid: nat -> string, prims: Primitives)
    requires Fetched(token, messageId, box).None?
    ensures ProcessMessage(store, drawn, token, inboxId, messageId, box, uuid, prims).store == store
  {
  }

  /** The thread a listed id contributes: its conversation key, if processed. */
  function ThreadOf(token: Token, messageId: string, box: Mailbox): set<string> {
    var f := Fetched(token, messageId, box);
    if f.Some? then {f.value.threadId.value} else {}
  }

  /** The message key a listed id contributes, if processed. */
  function MessageIdOf(token: Token, messageId: string, box: Mailbox): set<string> {
    var f := Fetched(token, messageId, box);
    if f.Some? then {f.value.id} else {}
  }

  /** The attachment record ids a listed id contributes, if processed. */
  function AttachmentKeysOne(token: Token, messageId: string, box: Mailbox, prims: Primitives): set<string> {
    var f := Fetched(token, messageId, box);
    if f.Some? then AttachmentKeys(token, f.value.id, AttachmentsOf(f.value, prims), box) else {}
  }

  lemma ProcessFetchedKeys(store: Store, drawn: nat, token: Token, inboxId: string, m: GmailMessage,
                           box: Mailbox, uuid: nat -> string, prims: Primitives)
    requires Processable(m)
    ensures var r := ProcessFetched(store, drawn, token, inboxId, m, box, uuid, prims);
            && r.store.conversations.Keys == store.conversations.Keys + {m.threadId.value}
            && r.store.messages.Keys == store.messages.Keys + {m.id}
  {
    var u := UpsertMessage(store, drawn, inboxId, m, ParseGmailPayload(m.payload.value, prims), uuid);
    assert u.0.conversations.Keys == store.conversations.Keys + {m.threadId.value};
  }

  lemma CompletesCons(token: Token, ids: seq<string>, box: Mailbox, prims: Primitives)
    requires |ids| > 0
    ensures Completes(token, ids, box, prims) <==> MessageCompletes(token, ids[0], box, prims) && Completes(token, ids[1..], box, prims)
  {
    if MessageCompletes(token, ids[0], box, prims) && Completes(token, ids[1..], box, prims) {
      forall i | 0 <= i < |ids| ensures MessageCompletes(token, ids[i], box, prims) {
        if i > 0 {
          assert ids[i] == ids[1..][i - 1];
        }
      }
    }
  }

  /** Every listed id is processed without error. */
  predicate Completes(token: Token, ids: seq<string>, box: Mailbox, prims: Primitives) {
    forall i :: 0 <= i < |ids| ==> MessageCompletes(token, ids[i], box, prims)
  }

  /** The thread ids of the processed messages among `ids`. */
  function ThreadsOf(token: Token, ids: seq<string>, box: Mailbox): set<string>
    decreases |ids|
  {
    if |ids| == 0 then {} else ThreadOf(token, ids[0], box) + ThreadsOf(token, ids[1..], box)
  }

  /** The Gmail ids of the processed messages among `ids`. */
  function MessageIdsOf(token: Token, ids: seq<string>, box: Mailbox): set<string>
    decreases |ids|
  {
    if |ids| == 0 then {} else MessageIdOf(token, ids[0], box) + MessageIdsOf(token, ids[1..], box)
  }

  /** The attachment record ids the processed messages among `ids` write. */
  function AttachmentKeysOf(token: Token, ids: seq<string>, box: Mailbox, prims: Primitives): set<string>
    decreases |ids|
  {
    if |ids| == 0 then {} else AttachmentKeysOne(token, ids[0], box, prims) + AttachmentKeysOf(token, ids[1..], box, prims)
  }

  /** A second pass over the same ids, on the store the first produced,
      succeeds, creates no conversation, message or attachment row and draws
      no new id. */
  lemma SecondPassAddsNothing(store: Store, drawn: nat, token: Token, inboxId: string, ids: seq<string>,
                              box: Mailbox, uuid: nat -> string, prims: Primitives)
    requires ProcessMessages(store, drawn, token, inboxId, ids, box, uuid, prims).failure.None?
    ensures var r := ProcessMessages(store, drawn, token, inboxId, ids, box, uuid, prims);
            var again := ProcessMessages(r.store, r.drawn, token, inboxId, ids, box, uuid, prims);
            && again.failure.None?
            && again.drawn == r.drawn
            && again.store.conversations.Keys == r.store.conversations.Keys
            && again.store.messages.Keys == r.store.messages.Keys
            && again.store.attachments.Keys == r.store.attachments.Keys
  {
    var r := ProcessMessages(store, drawn, token, inboxId, ids, box, uuid, prims);
    var again := ProcessMessages(r.store, r.drawn, token, inboxId, ids, box, uuid, prims);
    ProcessMessagesThreads(store, drawn, token, inboxId, ids, box, uuid, prims);
    ProcessMessagesThreads(r.store, r.drawn, token, inboxId, ids, box, uuid, prims);
    ProcessMessagesMessages(store, drawn, token, inboxId, ids, box, uuid, prims);
    ProcessMessagesMessages(r.store, r.drawn, token, inboxId, ids, box, uuid, prims);
    ProcessMessagesAttachments(store, drawn, token, inboxId, ids, box, uuid, prims);
    ProcessMessagesAttachments(r.store, r.drawn, token, inboxId, ids, box, uuid, prims);
    assert |again.store.conversations| == |r.store.conversations| by {
      assert again.store.conversations.Keys == r.store.conversations.Keys;
    }
    assert |again.store.messages| == |r.store.messages| by {
      assert again.store.messages.Keys == r.store.messages.Keys;
    }
  }

  /** `last_customer_msg_at` follows processing order, not time: after a
      completed loop, a thread's conversation carries the internal date of
      the last listed message of that thread, even when an earlier listed
      message of the thread is newer. */
  lemma {:induction false} LastCustomerFollowsOrder(store: Store, drawn: nat, token: Token, inboxId: string, ids: seq<string>,
                                                    box: Mailbox, uuid: nat -> string, prims: Primitives)
    requires |ids| > 0 && Fetched(token, ids[|ids| - 1], box).Some?
    requires ProcessMessages(store, drawn, token, inboxId, ids, box, uuid, prims).failure.None?
    ensures var m := Fetched(token, ids[|ids| - 1], box).value;
            var r := ProcessMessages(store, drawn, token, inboxId, ids, box, uuid, prims);
            && m.threadId.value in r.store.conversations
            && r.store.conversations[m.threadId.value].lastCustomerMsgAt == m.internalDate
    decreases |ids|
  {
    var one := ProcessMessage(store, drawn, token, inboxId, ids[0], box, uuid, prims);
    var rest := ProcessMessages(one.store, one.drawn, token, inboxId, ids[1..], box, uuid, prims);
    assert one.failure.None? && ProcessMessages(store, drawn, token, inboxId, ids, box, uuid, prims) == rest;
    if |ids| == 1 {
      ProcessMessageLastCustomer(store, drawn, token, inboxId, ids[0], box, uuid, prims);
      assert rest == one;
    } else {
      LastOfTail(ids);
      LastCustomerFollowsOrder(one.store, one.drawn, token, inboxId, ids[1..], box, uuid, prims);
    }
  }

  lemma LastOfTail<T>(s: seq<T>)
    requires |s| > 1
    ensures s[1..][|s[1..]| - 1] == s[|s| - 1]
  {
  }

  /** A processed message stamps its conversation with its internal date. */
  lemma ProcessMessageLastCustomer(store: Store, drawn: nat, token: Token, inboxId: string, messageId: string,
                                   box: Mailbox, uuid: nat -> string, prims: Primitives)
    requires Fetched(token, messageId, box).Some?
    ensures var m := Fetched(token, messageId, box).value;
            var r := ProcessMessage(store, drawn, token, inboxId, messageId, box, uuid, prims);
            && m.threadId.value in r.store.conversations
            && r.store.conversations[m.threadId.value].lastCustomerMsgAt == m.internalDate
  {
    var m := Fetched(token, messageId, box).value;
    assert ProcessMessage(store, drawn, token, inboxId, messageId, box, uuid, prims)
           == ProcessFetched(store, drawn, token, inboxId, m, box, uuid, prims);
    var u := UpsertMessage(store, drawn, inboxId, m, ParseGmailPayload(m.payload.value, prims), uuid);
    assert m.threadId.value in u.0.conversations;
  }

  /** The attachment loop writes each row under its own record id. */
  lemma {:induction false} StoreAttachmentsWellKeyed(store: Store, token: Token, inboxId: string, gmailId: string, rowId: string,
                                                     atts: seq<AttachmentInfo>, box: Mailbox, prims: Primitives)
    requires store.WellKeyed()
    ensures StoreAttachments(store, token, inboxId, gmailId, rowId, atts, box, prims).store.WellKeyed()
    decreases |atts|
  {
    if |atts| > 0 {
      var fetched := box.attachment(token, gmailId, atts[0].attachmentId);
      if fetched.Success? {
        var store1 := if Set(fetched.value) then SaveAttachment(store, inboxId, gmailId, rowId, atts[0], fetched.value.value, prims) else store;
        assert store1.WellKeyed();
        StoreAttachmentsWellKeyed(store1, token, inboxId, gmailId, rowId, atts[1..], box, prims);
      }
    }
  }

  /** The upserts keep conversations under their thread id and messages
      under their Gmail id. */
  lemma UpsertMessageWellKeyed(store: Store, drawn: nat, inboxId: string, m: GmailMessage, parsed: ParsedMessage,
                               uuid: nat -> string)
    requires Processable(m) && store.WellKeyed()
    ensures UpsertMessage(store, drawn, inboxId, m, parsed, uuid).0.WellKeyed()
  {
    var s := UpsertMessage(store, drawn, inboxId, m, parsed, uuid).0;
    var t := m.threadId.value;
    assert s.inboxes == store.inboxes && s.attachments == store.attachments;
    forall k | k in s.conversations ensures s.conversations[k].gmailThreadId == k {
      if k != t {
        assert s.conversations[k] == store.conversations[k];
      }
    }
    forall k | k in s.messages ensures s.messages[k].gmailMessageId == k {
      if k != m.id {
        assert s.messages[k] == store.messages[k];
      }
    }
  }

  /** Processing a message keeps every row under the key its upsert
      conflicts on. */
  lemma ProcessMessageWellKeyed(store: Store, drawn: nat, token: Token, inboxId: string, messageId: string,
                                box: Mailbox, uuid: nat -> string, prims: Primitives)
    requires store.WellKeyed()
    ensures ProcessMessage(store, drawn, token, inboxId, messageId, box, uuid, prims).store.WellKeyed()
  {
    var f := Fetched(token, messageId, box);
    if f.Some? {
      var m := f.value;
      var parsed := ParseGmailPayload(m.payload.value, prims);
      assert ProcessMessage(store, drawn, token, inboxId, messageId, box, uuid, prims)
             == ProcessFetched(store, drawn, token, inboxId, m, box, uuid, prims);
      var (store1, drawn1, rowId) := UpsertMessage(store, drawn, inboxId, m, parsed, uuid);
      UpsertMessageWellKeyed(store, drawn, inboxId, m, parsed, uuid);
      StoreAttachmentsWellKeyed(store1, token, inboxId, m.id, rowId, parsed.attachments, box, prims);
    }
  }

  lemma {:induction false} ProcessMessagesWellKeyed(store: Store, drawn: nat, token: Token, inboxId: string, ids: seq<string>,
                                                    box: Mailbox, uuid: nat -> string, prims: Primitives)
    requires store.WellKeyed()
    ensures ProcessMessages(store, drawn, token, inboxId, ids, box, uuid, prims).store.WellKeyed()
    decreases |ids|
  {
    if |ids| > 0 {
      var one := ProcessMessage(store, drawn, token, inboxId, ids[0], box, uuid, prims);
      ProcessMessageWellKeyed(store, drawn, token, inboxId, ids[0], box, uuid, prims);
      ProcessMessagesUnfold(store, drawn, token, inboxId, ids, box, uuid, prims);
      if one.failure.None? {
        ProcessMessagesWellKeyed(one.store, one.drawn, token, inboxId, ids[1..], box, uuid, prims);
      }
    }
  }

  // ===========================================================================
  // The message loop as written
  // ===========================================================================

  /** The loop body as the route spells it. The `const messageId` declared
      at route.ts:114 belongs to the loop body's block, so it shadows the
      loop variable of line 64 throughout that block; the read `id:
      messageId!` in the `messages.get` call of line 65 falls in the
      constant's temporal dead zone and throws a ReferenceError before any
      provider call or write. */
  function ProcessMessageAsWritten(store: Store, drawn: nat, messageId: string): (r: Step)
    ensures r.failure.Some? && r.store == store && r.drawn == drawn
  {
    Step(store, drawn, Some(Uninitialised("messageId")))
  }

  /** The message loop with the body as written: an empty list finishes at
      once, and otherwise the first id's body throws and the exception leaves
      the loop, so no later id is reached. */
  function ProcessMessagesAsWritten(store: Store, drawn: nat, ids: seq<string>): (r: Step)
    ensures r.store == store && r.drawn == drawn
    ensures r.failure.None? <==> |ids| == 0
  {
    if |ids| == 0 then Step(store, drawn, None)
    else ProcessMessageAsWritten(store, drawn, ids[0])
  }

  /** The loop as written and as intended part on the first listed message:
      for one listed id whose message has a thread id and a payload that is a
      single part without an attachment, the intended loop completes and
      writes the thread's conversation and the message row, while the loop as
      written fails with nothing written and no id drawn. */
  lemma ShadowedMessageId(store: Store, drawn: nat, token: Token, inboxId: string, m: GmailMessage,
                          box: Mailbox, uuid: nat -> string, prims: Primitives)
    requires box.get(token, m.id) == Success(m) && m.threadId.Some? && m.threadId.value != ""
    requires m.payload.Some? && m.payload.value.parts == [] && m.payload.value.body.attachmentId.None?
    ensures var intended := ProcessMessages(store, drawn, token, inboxId, [m.id], box, uuid, prims);
            && intended.failure.None?
            && m.threadId.value in intended.store.conversations
            && m.id in intended.store.messages
    ensures ProcessMessagesAsWritten(store, drawn, [m.id]) == Step(store, drawn, Some(Uninitialised("messageId")))
  {
    var ids := [m.id];
    assert Processable(m);
    assert Fetched(token, m.id, box) == Some(m);
    assert Reached(m.payload.value) == [m.payload.value];
    assert Descriptors([m.payload.value]) == Descriptors([]) + [];
    assert AttachmentsOf(m, prims) == [];
    assert MessageCompletes(token, ids[0], box, prims);
    assert Completes(token, ids, box, prims);
    ProcessMessageFetched(store, drawn, token, inboxId, m.id, box, uuid, prims);
    ProcessFetchedKeys(store, drawn, token, inboxId, m, box, uuid, prims);
    ProcessMessagesUnfold(store, drawn, token, inboxId, ids, box, uuid, prims);
  }

  // ===========================================================================
  // One inbox
  // ===========================================================================

  /** `list.data.messages?.map((m) => m.id).filter(Boolean) ?? []`. */
  function PresentIds(listed: seq<Option<string>>): (r: seq<string>)
    ensures |r| <= |listed|
    ensures forall x :: x in r <==> Some(x) in listed && Truthy(x)
    decreases |listed|
  {
    if |listed| == 0 then []
    else
      var rest := PresentIds(listed[1..]);
      assert forall x :: Some(x) in listed <==> Some(x) == listed[0] || Some(x) in listed[1..];
      if Set(listed[0]) then [listed[0].value] + rest else rest
  }

  /** The ids the route processes for an inbox: `messages.list` after the
      watermark, with at most `MAX_MESSAGES_PER_RUN` results. */
  function RequestedIds(working: Token, lastSyncedAt: Option<int>, now: int, box: Mailbox): (r: Result<seq<string>, ProviderError>)
    ensures r.Failure? <==> box.list(working, Since(lastSyncedAt, now), MaxMessagesPerRun).Failure?
    ensures r.Success? && box.Valid() ==> |r.value| <= MaxMessagesPerRun
    ensures r.Success? ==> forall i :: 0 <= i < |r.value| ==>
              Some(r.value[i]) in box.list(working, Since(lastSyncedAt, now), MaxMessagesPerRun).value && Truthy(r.value[i])
  {
    match box.list(working, Since(lastSyncedAt, now), MaxMessagesPerRun)
    case Failure(e) => Failure(e)
    case Success(listed) => Success(PresentIds(listed))
  }

  /** The token the run works with: the stored one, or the refreshed one
      (whose write-back is in the returned store) when it is due. */
  function WorkingToken(token: Token, store: Store, inbox: InboxRow, now: int, env: Env, box: Mailbox,
                        entropy: Entropy, prims: Primitives, json: JsonCodec<Token>): (r: Result<Refreshed, VaultError>)
    ensures !NeedsRefresh(token, now) ==> r == Success(Refreshed(token, store))
    ensures NeedsRefresh(token, now) && r.Success? ==>
              box.refresh(token).Success? && r.value.token == MergeCredentials(token, box.refresh(token).value)
    ensures NeedsRefresh(token, now) && Set(env.clientId) && Set(env.clientSecret) && Set(env.redirectUri) ==>
              (r.Success? <==> box.refresh(token).Success? && Set(env.encryptionKey) && ValidSecret(env.encryptionKey.value, prims))
    ensures r.Success? ==> r.value.store.(inboxes := store.inboxes) == store
    ensures r.Success? ==> r.value.store.inboxes.Keys == store.inboxes.Keys
    ensures r.Success? ==> forall k :: k in store.inboxes && k != inbox.id ==> r.value.store.inboxes[k] == store.inboxes[k]
    ensures r.Success? && inbox.id in store.inboxes ==>
              r.value.store.inboxes[inbox.id].lastSyncedAt == store.inboxes[inbox.id].lastSyncedAt
  {
    if NeedsRefresh(token, now) then
      RefreshAccessToken(token, store, inbox.id, env, box.refresh(token), entropy.iv(inbox.id), prims, json)
    else Success(Refreshed(token, store))
  }

  /** The body of the route's loop for one inbox row of the snapshot: decrypt
      its token (skip the inbox when it has none), refresh it when due, list
      and process the messages, and only then write `last_synced_at`. Any
      error ends the request, with the writes made so far kept. */
  function SyncInbox(store: Store, drawn: nat, inbox: InboxRow, now: int, env: Env, box: Mailbox,
                     entropy: Entropy, prims: Primitives, json: JsonCodec<Token>): (r: Step)
    ensures DecryptToken(inbox, env, prims, json).Failure? ==>
              r == Step(store, drawn, Some(DecryptToken(inbox, env, prims, json).error))
    ensures DecryptToken(inbox, env, prims, json) == Success(None) ==> r == Step(store, drawn, None)
    ensures r.store.inboxes.Keys == store.inboxes.Keys
    ensures forall k :: k in store.inboxes && k != inbox.id ==> r.store.inboxes[k] == store.inboxes[k]
    ensures inbox.id in store.inboxes && r.failure.Some? ==>
              r.store.inboxes[inbox.id].lastSyncedAt == store.inboxes[inbox.id].lastSyncedAt
    ensures inbox.id in store.inboxes && r.failure.None? && DecryptToken(inbox, env, prims, json).Success?
            && DecryptToken(inbox, env, prims, json).value.Some? ==>
              r.store.inboxes[inbox.id].lastSyncedAt == Some(now)
    ensures DecryptToken(inbox, env, prims, json).Success? && DecryptToken(inbox, env, prims, json).value.Some? ==>
              var w := WorkingToken(DecryptToken(inbox, env, prims, json).value.value, store, inbox, now, env, box, entropy, prims, json);
              (r.failure.None? <==>
                 && w.Success?
                 && GetOAuthClient(env).Success?
                 && RequestedIds(w.value.token, inbox.lastSyncedAt, now, box).Success?
                 && Completes(w.value.token, RequestedIds(w.value.token, inbox.lastSyncedAt, now, box).value, box, prims))
    ensures r.drawn + |store.conversations| + |store.messages| == drawn + |r.store.conversations| + |r.store.messages|
  {
    match DecryptToken(inbox, env, prims, json)
    case Failure(e) => Step(store, drawn, Some(e))
    case Success(None) => Step(store, drawn, None)
    case Success(Some(token)) =>
      match WorkingToken(token, store, inbox, now, env, box, entropy, prims, json)
      case Failure(e) => Step(store, drawn, Some(e))
      case Success(Refreshed(working, store1)) =>
        match GetOAuthClient(env)
        case Failure(e) => Step(store1, drawn, Some(e))
        case Success(_) =>
          match RequestedIds(working, inbox.lastSyncedAt, now, box)
          case Failure(e) => Step(store1, drawn, Some(Provider(e)))
          case Success(ids) =>
            var done := ProcessMessages(store1, drawn, working, inbox.id, ids, box, entropy.uuid, prims);
            if done.failure.Some? then done
            else Step(UpdateInbox(done.store, inbox.id, (row: InboxRow) => row.(lastSyncedAt := Some(now))), done.drawn, None)
  }

  /** A completed inbox has processed what it listed: with the token the run
      worked with and the ids it listed, every listed message completed, and
      the conversations, message rows and attachment rows of all of them are
      in the store the checkpoint was written to. */
  lemma SyncInboxProcessed(store: Store, drawn: nat, inbox: InboxRow, now: int, env: Env, box: Mailbox,
                           entropy: Entropy, prims: Primitives, json: JsonCodec<Token>,
                           token: Token, working: Refreshed, ids: seq<string>)
    requires DecryptToken(inbox, env, prims, json) == Success(Some(token))
    requires WorkingToken(token, store, inbox, now, env, box, entropy, prims, json) == Success(working)
    requires RequestedIds(working.token, inbox.lastSyncedAt, now, box) == Success(ids)
    requires SyncInbox(store, drawn, inbox, now, env, box, entropy, prims, json).failure.None?
    ensures var r := SyncInbox(store, drawn, inbox, now, env, box, entropy, prims, json);
            && Completes(working.token, ids, box, prims)
            && ThreadsOf(working.token, ids, box) <= r.store.conversations.Keys
            && MessageIdsOf(working.token, ids, box) <= r.store.messages.Keys
            && AttachmentKeysOf(working.token, ids, box, prims) <= r.store.attachments.Keys
  {
    ProcessMessagesThreads(working.store, drawn, working.token, inbox.id, ids, box, entropy.uuid, prims);
    ProcessMessagesMessages(working.store, drawn, working.token, inbox.id, ids, box, entropy.uuid, prims);
    ProcessMessagesAttachments(working.store, drawn, working.token, inbox.id, ids, box, entropy.uuid, prims);
  }

  // ===========================================================================
  // The route
  // ===========================================================================

  /** The loop over the active inboxes' snapshot, in the order the query
      returned them; the first error ends it. */
  function SyncInboxes(store: Store, drawn: nat, rows: seq<InboxRow>, now: int, env: Env, box: Mailbox,
                       entropy: Entropy, prims: Primitives, json: JsonCodec<Token>): (r: Step)
    ensures r.store.inboxes.Keys == store.inboxes.Keys
    ensures forall k :: k in store.inboxes && !Listed(rows, k) ==> r.store.inboxes[k] == store.inboxes[k]
    ensures r.drawn + |store.conversations| + |store.messages| == drawn + |r.store.conversations| + |r.store.messages|
    decreases |rows|
  {
    if |rows| == 0 then Step(store, drawn, None)
    else
      var one := SyncInbox(store, drawn, rows[0], now, env, box, entropy, prims, json);
      if one.failure.Some? then one
      else
        var rest := SyncInboxes(one.store, one.drawn, rows[1..], now, env, box, entropy, prims, json);
        ListedTail(rows);
        rest
  }

  /** Some row of the snapshot has the id `k`. */
  predicate Listed(rows: seq<InboxRow>, k: string) {
    exists i :: 0 <= i < |rows| && rows[i].id == k
  }

  lemma ListedTail(rows: seq<InboxRow>)
    requires |rows| > 0
    ensures forall k :: Listed(rows[1..], k) ==> Listed(rows, k)
  {
    forall k | Listed(rows[1..], k) ensures Listed(rows, k) {
      var i :| 0 <= i < |rows[1..]| && rows[1..][i].id == k;
      assert rows[i + 1].id == k;
    }
  }

  /** The inbox row `rows[i]` is the only one of the snapshot with its id. */
  predicate UniqueAt(rows: seq<InboxRow>, i: nat)
    requires i < |rows|
  {
    forall j :: 0 <= j < |rows| && j != i ==> rows[j].id != rows[i].id
  }

  /** After a completed run, every inbox of the snapshot that holds a token
      (and appears once in it) carries the checkpoint `now`. */
  lemma {:induction false} CheckpointWritten(store: Store, drawn: nat, rows: seq<InboxRow>, now: int, env: Env, box: Mailbox,
                                             entropy: Entropy, prims: Primitives, json: JsonCodec<Token>, i: nat)
    requires i < |rows| && UniqueAt(rows, i) && rows[i].id in store.inboxes
    requires DecryptToken(rows[i], env, prims, json).Success? && DecryptToken(rows[i], env, prims, json).value.Some?
    requires SyncInboxes(store, drawn, rows, now, env, box, entropy, prims, json).failure.None?
    ensures SyncInboxes(store, drawn, rows, now, env, box, entropy, prims, json).store.inboxes[rows[i].id].lastSyncedAt == Some(now)
    decreases |rows|
  {
    if i == 0 {
      CheckpointAtHead(store, drawn, rows, now, env, box, entropy, prims, json);
    } else {
      var one := SyncInbox(store, drawn, rows[0], now, env, box, entropy, prims, json);
      SyncInboxesUnfold(store, drawn, rows, now, env, box, entropy, prims, json);
      assert one.failure.None?;
      var rest := rows[1..];
      assert rest[i - 1] == rows[i];
      UniqueTail(rows, i);
      CheckpointWritten(one.store, one.drawn, rest, now, env, box, entropy, prims, json, i - 1);
    }
  }

  /** The first inbox's checkpoint survives the rest of the run. */
  lemma CheckpointAtHead(store: Store, drawn: nat, rows: seq<InboxRow>, now: int, env: Env, box: Mailbox,
                         entropy: Entropy, prims: Primitives, json: JsonCodec<Token>)
    requires |rows| > 0 && UniqueAt(rows, 0) && rows[0].id in store.inboxes
    requires DecryptToken(rows[0], env, prims, json).Success? && DecryptToken(rows[0], env, prims, json).value.Some?
    requires SyncInboxes(store, drawn, rows, now, env, box, entropy, prims, json).failure.None?
    ensures SyncInboxes(store, drawn, rows, now, env, box, entropy, prims, json).store.inboxes[rows[0].id].lastSyncedAt == Some(now)
  {
    var one := SyncInbox(store, drawn, rows[0], now, env, box, entropy, prims, json);
    SyncInboxesUnfold(store, drawn, rows, now, env, box, entropy, prims, json);
    assert one.failure.None?;
    assert one.store.inboxes[rows[0].id].lastSyncedAt == Some(now);
    UniqueHead(rows);
  }

  /** One turn of the inbox loop. */
  lemma SyncInboxesUnfold(store: Store, drawn: nat, rows: seq<InboxRow>, now: int, env: Env, box: Mailbox,
                          entropy: Entropy, prims: Primitives, json: JsonCodec<Token>)
    requires |rows| > 0
    ensures var one := SyncInbox(store, drawn, rows[0], now, env, box, entropy, prims, json);
            SyncInboxes(store, drawn, rows, now, env, box, entropy, prims, json)
            == if one.failure.Some? then one else SyncInboxes(one.store, one.drawn, rows[1..], now, env, box, entropy, prims, json)
  {
  }

  /** The first row's id, when unique, is not listed in the rest. */
  lemma UniqueHead(rows: seq<InboxRow>)
    requires |rows| > 0 && UniqueAt(rows, 0)
    ensures !Listed(rows[1..], rows[0].id)
  {
    forall j | 0 <= j < |rows[1..]| ensures rows[1..][j].id != rows[0].id {
      assert rows[1..][j] == rows[j + 1];
    }
  }

  /** Uniqueness carries over to the tail. */
  lemma UniqueTail(rows: seq<InboxRow>, i: nat)
    requires 0 < i < |rows| && UniqueAt(rows, i)
    ensures rows[1..][i - 1] == rows[i] && UniqueAt(rows[1..], i - 1)
  {
    forall j | 0 <= j < |rows[1..]| && j != i - 1 ensures rows[1..][j].id != rows[1..][i - 1].id {
      assert rows[1..][j] == rows[j + 1];
    }
  }

  /** The snapshot the `inbox` query returns: rows of the store, each active
      (`.eq('is_active', true)`). */
  predicate ActiveSnapshot(store: Store, rows: seq<InboxRow>) {
    forall i :: 0 <= i < |rows| ==> rows[i].id in store.inboxes && store.inboxes[rows[i].id] == rows[i] && rows[i].isActive
  }

  /** A run never writes an inactive inbox. */
  lemma InactiveUntouched(store: Store, drawn: nat, rows: seq<InboxRow>, now: int, env: Env, box: Mailbox,
                          entropy: Entropy, prims: Primitives, json: JsonCodec<Token>, k: string)
    requires ActiveSnapshot(store, rows)
    requires k in store.inboxes && !store.inboxes[k].isActive
    ensures SyncInboxes(store, drawn, rows, now, env, box, entropy, prims, json).store.inboxes[k] == store.inboxes[k]
  {
    forall i | 0 <= i < |rows| ensures rows[i].id != k {
      assert store.inboxes[rows[i].id].isActive;
    }
  }

  datatype Response = Response(status: int, store: Store, drawn: nat)

  /** `GET /api/cron/gmail-sync?secret=…`. `query` is the `inbox` select's
      outcome (its rows, or its error message). A missing or wrong secret
      answers 401 and an error of the query 500, both before any write; an
      error inside the run surfaces as a 500 with the writes made so far. */
  function CronGet(secret: Option<string>, env: Env, query: Result<seq<InboxRow>, string>, store: Store, drawn: nat,
                   now: int, box: Mailbox, entropy: Entropy, prims: Primitives, json: JsonCodec<Token>): (r: Response)
    ensures !Set(secret) || secret != env.cronSecret ==> r == Response(401, store, drawn)
    ensures Set(secret) && secret == env.cronSecret && query.Failure? ==> r == Response(500, store, drawn)
    ensures r.status == 200 ==> Set(env.cronSecret) && query.Success?
    ensures r.status in {200, 401, 500}
    ensures Set(secret) && secret == env.cronSecret && query.Success? ==>
              var run := SyncInboxes(store, drawn, query.value, now, env, box, entropy, prims, json);
              && r.store == run.store && r.drawn == run.drawn
              && (r.status == 200 <==> run.failure.None?)
              && (r.status == 500 <==> run.failure.Some?)
    ensures r.store.inboxes.Keys == store.inboxes.Keys
    ensures r.status == 200 && query.Success? ==>
              forall i :: 0 <= i < |query.value| && UniqueAt(query.value, i) && query.value[i].id in store.inboxes
                          && DecryptToken(query.value[i], env, prims, json).Success?
                          && DecryptToken(query.value[i], env, prims, json).value.Some? ==>
                r.store.inboxes[query.value[i].id].lastSyncedAt == Some(now)
  {
    if !Set(secret) || secret != env.cronSecret then Response(401, store, drawn)
    else
      match query
      case Failure(_) => Response(500, store, drawn)
      case Success(rows) =>
        var run := SyncInboxes(store, drawn, rows, now, env, box, entropy, prims, json);
        assert run.failure.None? ==>
                 forall i :: 0 <= i < |rows| && UniqueAt(rows, i) && rows[i].id in store.inboxes
                             && DecryptToken(rows[i], env, prims, json).Success?
                             && DecryptToken(rows[i], env, prims, json).value.Some? ==>
                   run.store.inboxes[rows[i].id].lastSyncedAt == Some(now) by {
          if run.failure.None? {
            forall i | 0 <= i < |rows| && UniqueAt(rows, i) && rows[i].id in store.inboxes
                       && DecryptToken(rows[i], env, prims, json).Success?
                       && DecryptToken(rows[i], env, prims, json).value.Some?
              ensures run.store.inboxes[rows[i].id].lastSyncedAt == Some(now)
            {
              CheckpointWritten(store, drawn, rows, now, env, box, entropy, prims, json, i);
            }
          }
        }
        Response(if run.failure.None? then 200 else 500, run.store, run.drawn)
  }
}

=== FILE: tables.dfy ===
/** The rows of the database tables the core reads and writes (`inbox`,
    `conversation`, `message`, `attachment`) and the `attachments` storage
    bucket, as a record of maps. Each table is keyed by the column the code
    looks rows up by: conversations by Gmail thread id, messages by Gmail
    message id, attachments by their record id, blobs by storage path,
    inboxes by id. Timestamps are milliseconds since the epoch. */
module Tables {
  import opened Wrappers
  import opened Foreign
  import opened Types

  /** What a `token_*` column holds when read back: `null`, a string, a
      `Uint8Array` or an array of numbers (`string | null | Uint8Array | number[]`). */
  datatype TokenPart = Null | Text(text: string) | Raw(bytes: Bytes) | Numbers(numbers: seq<int>)

  datatype InboxRow = InboxRow(
    id: string,
    teamId: string,
    isActive: bool,
    lastSyncedAt: Option<int>,
    tokenEncrypted: TokenPart,
    tokenIv: TokenPart,
    tokenAuthTag: TokenPart,
    googleAccountEmail: Option<string>)

  datatype ConversationRow = ConversationRow(
    id: string,
    inboxId: string,
    gmailThreadId: string,
    subject: string,
    status: ConversationStatus,
    assigneeId: Option<string>,
    preview: string,
    lastCustomerMsgAt: int,
    lastAgentMsgAt: Option<int>)

  datatype MessageRow = MessageRow(
    id: string,
    conversationId: string,
    gmailMessageId: string,
    fromAddr: string,
    toAddrs: seq<string>,
    ccAddrs: seq<string>,
    bccAddrs: seq<string>,
    sentAt: int,
    bodyHtml: Option<string>,
    bodyText: Option<string>,
    headers: HeaderMap,
    hasAttachments: bool)

  datatype AttachmentRow = AttachmentRow(
    id: string,
    messageId: string,
    filename: string,
    mimeType: string,
    size: int,
    storagePath: string)

  /** An object of the storage bucket: its bytes and content type. */
  datatype Blob = Blob(bytes: Bytes, contentType: string)

  datatype Store = Store(
    inboxes: map<string, InboxRow>,
    conversations: map<string, ConversationRow>,
    messages: map<string, MessageRow>,
    attachments: map<string, AttachmentRow>,
    blobs: map<string, Blob>)
  {
    /** Every row sits under the key its own column holds. */
    ghost predicate WellKeyed() {
      && (forall k :: k in inboxes ==> inboxes[k].id == k)
      && (forall k :: k in conversations ==> conversations[k].gmailThreadId == k)
      && (forall k :: k in messages ==> messages[k].gmailMessageId == k)
      && (forall k :: k in attachments ==> attachments[k].id == k)
    }
  }
}

=== FILE: text.dfy ===
/** The JavaScript string operations the core relies on, restated over
    `seq<char>`: truthiness, ASCII lower-casing, `includes`, `replace` with a
    global one-character pattern, `split` on a one-character separator,
    `trim` and `slice(0, n)`. */
module Text {

  /** JavaScript truthiness of a string: only the empty string is falsy. */
  predicate Truthy(s: string) {
    |s| > 0
  }

  // ---------------------------------------------------------------------------
  // Lower-casing (ASCII letters only)
  // ---------------------------------------------------------------------------

  function LowerChar(c: char): char {
    if 'A' <= c <= 'Z' then (c as int + 32) as char else c
  }

  function Lower(s: string): (r: string)
    ensures |r| == |s|
    ensures forall i :: 0 <= i < |s| ==> r[i] == LowerChar(s[i])
  {
    seq(|s|, i requires 0 <= i < |s| => LowerChar(s[i]))
  }

  /** A lower-cased string has no upper-case ASCII letter left in it. */
  lemma LowerHasNoUpper(s: string)
    ensures forall i :: 0 <= i < |Lower(s)| ==> !('A' <= Lower(s)[i] <= 'Z')
  {
  }

  /** Lower-casing twice is lower-casing once. */
  lemma LowerIdempotent(s: string)
    ensures Lower(Lower(s)) == Lower(s)
  {
    assert forall i :: 0 <= i < |s| ==> LowerChar(LowerChar(s[i])) == LowerChar(s[i]);
  }

  // ---------------------------------------------------------------------------
  // Substring search (`String.prototype.includes`)
  // ---------------------------------------------------------------------------

  predicate OccursAt(hay: string, needle: string, i: int) {
    0 <= i && i + |needle| <= |hay| && hay[i..i + |needle|] == needle
  }

  /** `hay.includes(needle)`, searching left to right. */
  function Includes(hay: string, needle: string): (b: bool)
    ensures b <==> exists i :: OccursAt(hay, needle, i)
    decreases |hay|
  {
    if needle <= hay then
      assert OccursAt(hay, needle, 0);
      true
    else if |hay| == 0 then
      false
    else
      var rest := Includes(hay[1..], needle);
      assert rest ==> exists i :: OccursAt(hay, needle, i) by {
        if rest {
          var i :| OccursAt(hay[1..], needle, i);
          assert hay[i + 1..i + 1 + |needle|] == hay[1..][i..i + |needle|];
          assert OccursAt(hay, needle, i + 1);
        }
      }
      assert (exists i :: OccursAt(hay, needle, i)) ==> rest by {
        if exists i :: OccursAt(hay, needle, i) {
          var i :| OccursAt(hay, needle, i);
          assert i != 0;
          assert hay[1..][i - 1..i - 1 + |needle|] == hay[i..i + |needle|];
          assert OccursAt(hay[1..], needle, i - 1);
        }
      }
      rest
  }

  // ---------------------------------------------------------------------------
  // Global replacement of one character (`s.replace(/c/g, rep)`)
  // ---------------------------------------------------------------------------

  function ReplaceAll(s: string, c: char, rep: string): (r: string)
    ensures c !in rep ==> c !in r
    ensures forall x :: x in r ==> x in s || x in rep
    ensures c !in s ==> r == s
    ensures |r| >= |s| - (if |rep| == 0 then |s| else 0)
  {
    if |s| == 0 then ""
    else (if s[0] == c then rep else [s[0]]) + ReplaceAll(s[1..], c, rep)
  }

  /** Replacement in a one-character string. */
  lemma ReplaceAllSingle(x: char, c: char, rep: string)
    ensures ReplaceAll([x], c, rep) == if x == c then rep else [x]
  {
    assert [x][1..] == [];
  }

  /** Replacement distributes over concatenation. */
  lemma {:induction false} ReplaceAllAppend(a: string, b: string, c: char, rep: string)
    ensures ReplaceAll(a + b, c, rep) == ReplaceAll(a, c, rep) + ReplaceAll(b, c, rep)
    decreases |a|
  {
    if |a| == 0 {
      assert a + b == b;
    } else {
      assert (a + b)[1..] == a[1..] + b;
      ReplaceAllAppend(a[1..], b, c, rep);
    }
  }

  // ---------------------------------------------------------------------------
  // `split` on a one-character separator, and its inverse `join`
  // ---------------------------------------------------------------------------

  /** `s.split(sep)`: the maximal separator-free pieces, in order; the empty
      string splits into one empty piece. */
  function Split(s: string, sep: char): (r: seq<string>)
    ensures |r| >= 1
    ensures forall k :: 0 <= k < |r| ==> sep !in r[k]
    decreases |s|
  {
    if |s| == 0 then [""]
    else
      var rest := Split(s[1..], sep);
      if s[0] == sep then [""] + rest
      else [[s[0]] + rest[0]] + rest[1..]
  }

  /** `pieces.join(sep)`. */
  function Join(pieces: seq<string>, sep: char): string
    decreases |pieces|
  {
    if |pieces| == 0 then ""
    else if |pieces| == 1 then pieces[0]
    else pieces[0] + [sep] + Join(pieces[1..], sep)
  }

  /** Joining the pieces of a split with the same separator gives back the
      original string. */
  lemma {:induction false} JoinSplit(s: string, sep: char)
    ensures Join(Split(s, sep), sep) == s
    decreases |s|
  {
    if |s| > 0 {
      var rest := Split(s[1..], sep);
      JoinSplit(s[1..], sep);
      if s[0] == sep {
        assert Split(s, sep) == [""] + rest;
        assert ([""] + rest)[1..] == rest;
      } else {
        var first := [s[0]] + rest[0];
        assert Split(s, sep) == [first] + rest[1..];
        if |rest| == 1 {
          assert Join(rest, sep) == rest[0];
        } else {
          assert Join(rest, sep) == rest[0] + [sep] + Join(rest[1..], sep);
          assert ([first] + rest[1..])[1..] == rest[1..];
        }
      }
    }
  }

  /** Splitting a join of separator-free pieces gives back the pieces. */
  lemma {:induction false} SplitJoin(pieces: seq<string>, sep: char)
    requires |pieces| >= 1
    requires forall k :: 0 <= k < |pieces| ==> sep !in pieces[k]
    ensures Split(Join(pieces, sep), sep) == pieces
    decreases |pieces|, |pieces[0]|
  {
    var p := pieces[0];
    if |pieces| == 1 {
      SplitFree(p, sep);
    } else if |p| == 0 {
      var tail := Join(pieces[1..], sep);
      assert Join(pieces, sep) == [sep] + tail;
      assert ([sep] + tail)[1..] == tail;
      SplitJoin(pieces[1..], sep);
      assert pieces == [""] + pieces[1..];
    } else {
      var shorter := [p[1..]] + pieces[1..];
      assert shorter[1..] == pieces[1..];
      SplitJoin(shorter, sep);
      var j := Join(pieces, sep);
      assert j == [p[0]] + Join(shorter, sep);
      assert j[1..] == Join(shorter, sep);
      assert [p[0]] + p[1..] == p;
      assert pieces == [p] + shorter[1..];
    }
  }

  /** A separator-free string splits into itself. */
  lemma {:induction false} SplitFree(s: string, sep: char)
    requires sep !in s
    ensures Split(s, sep) == [s]
    decreases |s|
  {
    if |s| > 0 {
      SplitFree(s[1..], sep);
      assert [s[0]] + s[1..] == s;
    }
  }

  // ---------------------------------------------------------------------------
  // `trim`: ECMAScript WhiteSpace and LineTerminator code points
  // ---------------------------------------------------------------------------

  predicate IsWhite(c: char) {
    || c == '\t' || c == '\n' || c == '\U{000B}' || c == '\U{000C}' || c == '\r'
    || c == ' ' || c == '\U{00A0}' || c == '\U{1680}'
    || ('\U{2000}' <= c <= '\U{200A}')
    || c == '\U{2028}' || c == '\U{2029}' || c == '\U{202F}' || c == '\U{205F}'
    || c == '\U{3000}' || c == '\U{FEFF}'
  }

  function TrimStart(s: string): (r: string)
    ensures |r| <= |s| && r == s[|s| - |r|..]
    ensures forall k :: 0 <= k < |s| - |r| ==> IsWhite(s[k])
    ensures |r| == 0 || !IsWhite(r[0])
  {
    if |s| > 0 && IsWhite(s[0]) then TrimStart(s[1..]) else s
  }

  function TrimEnd(s: string): (r: string)
    ensures |r| <= |s| && r == s[..|r|]
    ensures forall k :: |r| <= k < |s| ==> IsWhite(s[k])
    ensures |r| == 0 || !IsWhite(r[|r| - 1])
  {
    if |s| > 0 && IsWhite(s[|s| - 1]) then TrimEnd(s[..|s| - 1]) else s
  }

  /** `s.trim()`: the slice of `s` left after dropping white space at both ends. */
  function Trim(s: string): (r: string)
  {
    TrimEnd(TrimStart(s))
  }

  /** What `Trim` yields: a slice `s[i..j]` of the input with only white space
      cut off on either side, which neither starts nor ends with white space. */
  lemma TrimSlice(s: string)
    ensures exists i, j ::
              && 0 <= i <= j <= |s| && Trim(s) == s[i..j]
              && (forall k :: 0 <= k < i ==> IsWhite(s[k]))
              && (forall k :: j <= k < |s| ==> IsWhite(s[k]))
    ensures |Trim(s)| == 0 || (!IsWhite(Trim(s)[0]) && !IsWhite(Trim(s)[|Trim(s)| - 1]))
  {
    var t := TrimStart(s);
    var i := |s| - |t|;
    var j := i + |TrimEnd(t)|;
    assert Trim(s) == s[i..j];
    if |Trim(s)| > 0 {
      assert Trim(s)[0] == t[0];
    }
  }

  /** A string with no white space at either end is its own trim. */
  lemma TrimNoop(s: string)
    requires |s| == 0 || (!IsWhite(s[0]) && !IsWhite(s[|s| - 1]))
    ensures Trim(s) == s
  {
  }

  /** Trimming only removes characters. */
  lemma TrimKeeps(s: string, c: char)
    requires c !in s
    ensures c !in Trim(s)
  {
    var t := TrimStart(s);
    assert forall k :: 0 <= k < |t| ==> t[k] == s[|s| - |t| + k];
    var u := TrimEnd(t);
    assert forall k :: 0 <= k < |u| ==> u[k] == t[k];
  }

  /** Trimming is idempotent. */
  lemma TrimIdempotent(s: string)
    ensures Trim(Trim(s)) == Trim(s)
  {
    TrimSlice(s);
    TrimNoop(Trim(s));
  }

  // ---------------------------------------------------------------------------
  // `s.slice(0, n)`
  // ---------------------------------------------------------------------------

  /** `s.slice(0, n)` for `n >= 0`: the longest prefix of length at most `n`. */
  function Prefix(s: string, n: nat): (r: string)
    ensures |r| <= n && r <= s
    ensures |s| <= n ==> r == s
  {
    if |s| <= n then s else s[..n]
  }
}

=== FILE: types.dfy ===
/** The shared record types of packages/shared/src/types.ts that the core
    reads and produces. An optional JavaScript array (`headers?`, `parts?`) is
    a plain sequence here: the source only ever iterates it, and iterating a
    missing array and an empty one do the same thing. Likewise an absent
    `body` behaves, through `body?.x`, as a body whose fields are all absent. */
module Types {
  import opened Wrappers

  /** `ConversationStatus`, the values of `statusValues`. */
  datatype ConversationStatus = Open | Waiting | Closed

  /** One `{ name?, value? }` entry of a part's `headers`. */
  datatype Header = Header(name: Option<string>, value: Option<string>)

  /** A part's `body`: inline `data` (URL-safe base64) or an `attachmentId`. */
  datatype Body = Body(size: Option<int>, data: Option<string>, attachmentId: Option<string>)

  /** `GoogleGmailMessagePayload`: one node of the MIME part tree. */
  datatype Part = Part(mimeType: Option<string>, filename: Option<string>, headers: seq<Header>, body: Body, parts: seq<Part>)

  /** A header map value: a single string, or the list a repeated header grows into. */
  datatype HeaderValue = Scalar(text: string) | List(items: seq<string>)

  type HeaderMap = map<string, HeaderValue>

  /** One element of `ParsedGmailMessage.attachments`. */
  datatype AttachmentInfo = AttachmentInfo(attachmentId: string, filename: string, mimeType: string, size: int)

  /** `ParsedGmailMessage`. */
  datatype ParsedMessage = ParsedMessage(bodyHtml: Option<string>, bodyText: Option<string>, headers: HeaderMap, attachments: seq<AttachmentInfo>)

  /** The fields of a fetched Gmail message (`users.messages.get`, format
      'full') that the core reads; `internalDate` is in milliseconds. */
  datatype GmailMessage = GmailMessage(id: string, threadId: Option<string>, internalDate: int, payload: Option<Part>, snippet: Option<string>)
}

=== FILE: wrappers.dfy ===
/** Failure-compatible datatypes shared by every module of the model.
    `Option` stands for a JavaScript value that may be `null`/`undefined`;
    `Result` stands for a call that either returns or throws. */
module Wrappers {

  datatype Option<+T> = None | Some(value: T) {

    predicate IsFailure() {
      None?
    }

    function PropagateFailure<U>(): Option<U>
      requires None?
    {
      None
    }

    function Extract(): T
      requires Some?
    {
      value
    }

    /** JavaScript's `x ?? d`: the value when present, `d` otherwise. */
    function GetOr(default: T): T {
      match this
      case Some(v) => v
      case None => default
    }
  }

  datatype Result<+R, +E> = Success(value: R) | Failure(error: E) {

    predicate IsFailure() {
      Failure?
    }

    function PropagateFailure<U>(): Result<U, E>
      requires Failure?
    {
      Failure(error)
    }

    function Extract(): R
      requires Success?
    {
      value
    }

    function MapFailure<E2>(wrap: E -> E2): Result<R, E2> {
      match this
      case Success(v) => Success(v)
      case Failure(e) => Failure(wrap(e))
    }
  }
}
